=== FILE: README.md ===
# Lab exercises and the 3-D travelling-salesman ant colony, in Dafny

This project models a set of Python lab exercises. Its centre is the Ant
Colony Optimisation (ACO) engine of `lab3/tsp_3d_generator.py`:

- pheromone trails on the ordered pairs of points;
- a roulette-wheel choice of the next point;
- ants that build closed tours;
- evaporation followed by a deposit on the iteration's best tour;
- the generator that yields one best tour per iteration.

Around it sit the small exercise modules of labs 1, 2, 3 and 5:

- Wordle and Bulls and Cows scoring;
- a rock-paper-scissors-lizard-Spock match;
- divisor, prime and perfect-number analysis;
- text cleaning and statistics;
- a queue and a stack;
- task and budget trackers;
- a servo manipulator;
- vehicle validators and a plugin registry;
- country list filters and formatters;
- functional pipelines (sum of squares, composition, normalisation, mean and median);
- the keyword scoring and context truncation of a retrieval-augmented QA evaluator;
- the cleaner and token counter of a Wikipedia dataset builder.

Every class with state becomes an immutable datatype, and every method becomes a pure function from the old value to the new one. Inputs that the source reads from elsewhere become explicit parameters:

- **Randomness** is an oracle argument: the start point, the roulette draw, the order in which `unvisited` is enumerated, the uniform pick, the coin of a bidirectional road, the digit shuffle, and the computer's move.
- **Typed input** (`input()`) is a sequence of lines. A prompt loop is then the first acceptable line.
- **`str.lower` and `str.upper`** are a character map passed in.
- **Floats** are `real`. **Distances** are an abstract non-negative function.

Modules follow the source files:

| module | file |
|---|---|
| `Roads` | `aco_roads.dfy` |
| `Pheromones` | `aco_pheromones.dfy` |
| `Transition` | `aco_transition.dfy` |
| `PathBuilder` | `aco_paths.dfy` |
| `Tours` | `aco_tours.dfy` |
| `Colony` | `aco_colony.dfy` |
| `Wordle` | `wordle.dfy` |
| `BullsAndCows` | `bulls_and_cows.dfy` |
| `StoneScissors` | `stone_scissors.dfy` |
| `NumberAnalyzer` | `number_analyzer.dfy` |
| `TextStatistics` | `text_statistics.dfy` |
| `QueueStack` | `queue_stack.dfy` |
| `TaskTracker` | `task_tracker.dfy` |
| `BudgetTracker` | `budget_tracker.dfy` |
| `Manipulator` | `manipulator.dfy` |
| `Vehicles` | `vehicles.dfy` |
| `Plugins` | `plugins.dfy` |
| `Comparative` | `comparative.dfy` |
| `Countries` | `countries.dfy` |
| `Rag` | `rag.dfy` |
| `WikiDataset` | `wiki_dataset.dfy` |

Shared helpers:

| module | what it provides |
|---|---|
| `Seqs` | counting, filters, sums, `Take` and `FirstIndex` |
| `Sorting` | Python's stable `sorted` with a key |
| `Counter` | `Counter.most_common` |
| `Text` | whitespace, `strip`, `split` and the collapse of whitespace runs |
| `Prompts` | the "first positive number" input loop |
| `Wrappers` | `Option` and `Result` |

## Model

| member | source | states |
|---|---|---|
| Pheromones.Initialize | lab3/tsp_3d_generator.py:42-44 | the initial trails hold exactly the ordered pairs (i, j) of distinct points below n, each at 1.0, which is n * (n - 1) entries |
| Pheromones.EdgeSetSize | lab3/tsp_3d_generator.py:44 | there are n * (n - 1) ordered pairs of distinct points below n |
| Pheromones.Evaporate | lab3/tsp_3d_generator.py:120-121 | evaporation keeps exactly the same edges and scales each trail by (1 - rate) |
| Pheromones.EvaporateTwice | lab3/tsp_3d_generator.py:120-121 | evaporating at rate a and then at rate b is one evaporation at rate a + b - ab |
| Pheromones.DepositKeys | lab3/tsp_3d_generator.py:133-135 | a deposit adds as new edges only the edges the tour traverses |
| Pheromones.DepositLookup | lab3/tsp_3d_generator.py:133-135 | a deposit raises an edge by the amount once per traversal of it, and a missing edge starts from 1.0 |
| Pheromones.UpdateSpec | lab3/tsp_3d_generator.py:124-137 | for a tour of positive length, the update is evaporation at 0.1 followed by Q / L on every traversal of an edge |
| Pheromones.UpdateWithoutDeposit | lab3/tsp_3d_generator.py:128-131 | when the closed length is not positive, the update is evaporation alone |
| Pheromones.UpdateTouchesExactlyTourEdges | lab3/tsp_3d_generator.py:128-137 | on a tour of three or more distinct points, each traversed directed edge gains exactly Q / L; its reverse only evaporates |
| Pheromones.UpdateKeepsKeys | lab3/tsp_3d_generator.py:124-137 | after an update with a permutation tour, the trails still hold exactly the n * (n - 1) ordered pairs |
| Pheromones.UpdateKeepsPositive | lab3/tsp_3d_generator.py:124-137 | positive trails stay positive after an update with a positive Q |
| Pheromones.DepositKeepsPositive | lab3/tsp_3d_generator.py:133-135 | a non-negative deposit keeps every trail positive |
| Transition.ChooseNext | lab3/tsp_3d_generator.py:51-76 | the choice is -1 exactly when nothing is unvisited; otherwise it is always an unvisited point |
| Transition.RouletteWalkFirstReach | lab3/tsp_3d_generator.py:67-74 | the walk stops at the first candidate whose cumulative probability reaches the draw, and finds none exactly when no prefix reaches it |
| Transition.RouletteNeverFallsBack | lab3/tsp_3d_generator.py:62-76 | in exact arithmetic the normalised probabilities sum to 1, so a draw in [0, 1) always stops the walk before the last-element fallback |
| Transition.PositiveDrawSkipsZeroScores | lab3/tsp_3d_generator.py:67-74 | a positive draw never stops the walk at a candidate with probability 0 |
| Transition.AllCoincidentFallsBackToUniform | lab3/tsp_3d_generator.py:54-65 | a candidate at distance 0 scores 0 without any division; when every candidate does, the choice is the uniform pick |
| Transition.SumScaled | lab3/tsp_3d_generator.py:62-67 | dividing every score by the total divides their sum by it |
| PathBuilder.Grow | lab3/tsp_3d_generator.py:97-102 | the walk only extends the path; the finished path holds, as a multiset, the path so far plus every unvisited point |
| PathBuilder.ConstructPath | lab3/tsp_3d_generator.py:83-104 | the path is [0 .. n) for n <= 1; otherwise it is a permutation of 0 .. n-1 that starts at the drawn start |
| Tours.OpenLengthIsSum | lab3/tsp_3d_generator.py:111-114 | the loop's running total is the sum of the lengths of the consecutive edges |
| Tours.PathLengthIsCyclicSum | lab3/tsp_3d_generator.py:107-117 | the closed length of two or more points is the sum over the n cyclic edges (path[i], path[(i + 1) mod n]) |
| Tours.PathLengthNonNegative | lab3/tsp_3d_generator.py:107-117 | with non-negative distances every closed length is >= 0 |
| Tours.CyclicEdgesOnce | lab3/tsp_3d_generator.py:133-134 | on a tour without repeated points each directed edge is traversed at most once |
| Tours.ReverseEdgeNotTraversed | lab3/tsp_3d_generator.py:133-134 | on a tour of three or more distinct points, the reverse of a traversed edge is not traversed |
| Roads.PairsMembers | lab3/tsp_3d_generator.py:32 | the combinations list exactly the pairs i < j < n |
| Roads.PairsOrdered | lab3/tsp_3d_generator.py:32 | the combinations come in strictly increasing lexicographic order, so each pair comes once |
| Roads.FilterKeepsAllPairs | lab3/tsp_3d_generator.py:32 | the `p[0] < p[1]` filter removes nothing from the combinations |
| Roads.PairRoads | lab3/tsp_3d_generator.py:34-38 | a pair always yields its forward road, and yields the reverse road with the same distance exactly when its coin is below the ratio |
| Roads.RoadsOfSpec | lab3/tsp_3d_generator.py:34-38 | a road is generated exactly when its pair is listed, or when its reverse pair is listed and that coin is below the ratio |
| Roads.GenerateRoads | lab3/tsp_3d_generator.py:28-30 | fewer than two points generate no road |
| Roads.GenerateRoadsSpec | lab3/tsp_3d_generator.py:28-38 | every i < j < n gets i -> j; it gets j -> i exactly when the coin says so; no road is a loop |
| Colony.FirstMinIndex | lab3/tsp_3d_generator.py:161 | `min` with a key picks an element of least key, the first such one |
| Colony.AntPaths | lab3/tsp_3d_generator.py:155 | an iteration builds one path per ant, and for n > 1 each is a permutation of 0 .. n-1 |
| Colony.BestOfShortest | lab3/tsp_3d_generator.py:157-161 | a best path exists exactly when some path is complete; it is no longer than any complete path, and every complete path before it is strictly longer, so it is the first of least length |
| Colony.BestOfPermutations | lab3/tsp_3d_generator.py:157-161 | when every ant built a permutation, there is a best path exactly when there is an ant, and it is a permutation |
| Colony.Iteration | lab3/tsp_3d_generator.py:154-163 | an iteration without a complete path yields nothing and keeps the trails; otherwise it yields a full-length path with its closed length and updates the trails with it |
| Colony.IterationSpec | lab3/tsp_3d_generator.py:155-163 | what an iteration yields is a permutation no longer than any ant's path, and it yields exactly when there is at least one ant |
| Colony.IterationKeepsTrails | lab3/tsp_3d_generator.py:152-162 | an iteration keeps the trail keys at the n * (n - 1) ordered pairs, and keeps the trails positive |
| Colony.YieldSpec | lab3/tsp_3d_generator.py:157-163 | each yielded record is a complete tour with its closed length, and with at least one ant each iteration yields once |
| Colony.Run | lab3/tsp_3d_generator.py:154-163 | the remaining iterations yield at most one record each, and exactly one each when n >= 2 and there is an ant |
| Colony.RunRecords | lab3/tsp_3d_generator.py:154-163 | for n >= 3 every record yielded along the run is a complete tour with its closed length |
| Colony.RunKeepsTrails | lab3/tsp_3d_generator.py:152-162 | along the run the trail keys stay the n * (n - 1) ordered pairs, and every trail stays positive |
| Colony.Optimize | lab3/tsp_3d_generator.py:140-163 | fewer than three points yield exactly one ([], 0.0); otherwise at most one record per iteration |
| Colony.OptimizeSpec | lab3/tsp_3d_generator.py:140-163 | for n >= 3 every yielded record is a complete tour with its length, and with at least one ant there is exactly one per iteration |
| Wordle.GiveFeedback | lab1/Wordle.py:10-34 | the feedback is five tokens exactly when both words have at least five letters; otherwise indexing raises IndexError |
| Wordle.MarkExactConsistent | lab1/Wordle.py:15-19 | after the first loop a position is marked "[c]" exactly where guess and secret agree, and that secret position is used up |
| Wordle.MarkElsewhereExhausted | lab1/Wordle.py:21-28 | after the second loop, a position left unmarked has every secret position holding its letter already used up |
| Wordle.FeedbackMarkCount | lab1/Wordle.py:15-28 | each letter is marked, "[c]" or "(c)", exactly as often as the smaller of its counts in the guess and in the secret |
| Wordle.MarkElsewhereConsistent | lab1/Wordle.py:21-28 | the second loop uses up exactly one unused secret position per "(c)" mark, so marks of each letter equal used positions of it |
| Wordle.GiveFeedbackSpec | lab1/Wordle.py:10-34 | "[c]" appears exactly where the letters agree; marks carry the guess letter; unmarked positions show the secret's letter; no letter is marked more often than the secret holds it, and a guess letter is left unmarked only when its marks already use up every place the secret holds it |
| Wordle.FeedbackOnSecret | lab1/Wordle.py:15-19 | the feedback on the secret itself marks all five letters in place |
| Wordle.FeedbackRevealsSecret | lab1/Wordle.py:30-32 | as written, the guess "ветер" on the secret "крона" is answered "к р о н (р)", which shows the secret's letters |
| Wordle.GiveFeedbackCorrected | lab1/Wordle.py:30-32 | the corrected feedback is five tokens exactly when both words have at least five letters |
| Wordle.GiveFeedbackCorrectedSpec | lab1/Wordle.py:30-32 | with the corrected third loop every token carries the guess letter, "[c]" is where the letters agree, the marks agree with the as-written feedback, each letter is marked as often as the smaller of its counts in guess and secret, and a letter is left plain only when the secret's places for it are all taken by marks |
| Wordle.Play | lab1/Wordle.py:36-54 | a won game is won at an attempt whose lowered line is the secret, with a five-letter secret; a game crashes only when the secret is shorter than five letters |
| Wordle.PlayFiveLetterSecret | lab1/Wordle.py:36-54 | with a five-letter secret from the list, the game is won at the first attempt whose lowered line is the secret, and lost if none of the six is; bad lines use up their attempt |
| Wordle.PlayShortSecret | lab1/Wordle.py:36-54 | with a secret shorter than five letters, the first accepted line crashes the game, and it is lost if no line is accepted |
| Wordle.PlayAsWritten | lab1/Wordle.py:4-6 | a game whose secret is drawn from the list as written is never won when the drawn word has four letters |
| Wordle.ShortSecretCrashes | lab1/Wordle.py:4-6 | the list holds "стол", and with it drawn the guess "крона" crashes the first attempt |
| Wordle.SecretPoolSpec | lab1/Wordle.py:4-8 | the corrected pool is exactly the five-letter words of the list, in list order |
| Wordle.PlayCorrected | lab1/Wordle.py:36-54 | a game with the secret drawn from the corrected pool never crashes |
| Wordle.PlayCorrectedSpec | lab1/Wordle.py:36-54 | the corrected game is won exactly at the first attempt whose lowered line is the secret, and lost when none is |
| BullsAndCows.CharSetSize | lab1/BullsAndCows.py:22 | a word has no more distinct characters than its length, and has exactly as many iff none repeats |
| BullsAndCows.GenerateNumberSpec | lab1/BullsAndCows.py:3-6 | the number has min(length, 10) characters, all decimal digits and pairwise distinct |
| BullsAndCows.CountCowsAndBulls | lab1/BullsAndCows.py:8-16 | "cows" counts positions with the secret's digit and "bulls" other positions whose digit is in the secret; together at most the secret's length |
| BullsAndCows.AllInPlaceIffEqual | lab1/BullsAndCows.py:11-13 | for a guess of the secret's length, every position is a cow exactly when the guess equals the secret |
| BullsAndCows.ValidPlayerSpec | lab1/BullsAndCows.py:18-23 | a guess is valid exactly when it is `length` digits with no digit repeated, which requires length >= 1 |
| BullsAndCows.PlayGame | lab1/BullsAndCows.py:33-52 | a won game reports more attempts than were counted before it |
| BullsAndCows.PlayGameSpec | lab1/BullsAndCows.py:39-52 | the game is won exactly when some valid guess equals the secret; the attempts are the valid guesses up to and including the first correct one, invalid ones uncounted |
| StoneScissors.Parse | lab1/StoneScissors.py:39-42 | a line is accepted exactly when it is one of the five move names |
| StoneScissors.ParseName | lab1/StoneScissors.py:3 | every move's name parses back to that move |
| StoneScissors.RulesTournament | lab1/StoneScissors.py:6-12 | every move beats exactly two distinct moves and never itself; of two different moves exactly one beats the other |
| StoneScissors.WinPhrasesMatchRules | lab1/StoneScissors.py:14-25 | the phrase table has a non-empty phrase for exactly the pairs (a, b) where a beats b |
| StoneScissors.PlayRound | lab1/StoneScissors.py:38-42 | a round is void exactly when the lowered line is not a move |
| StoneScissors.PlayRoundSpec | lab1/StoneScissors.py:38-58 | a valid round gives the user the point iff their move beats the computer's, gives the computer the point iff its move beats the user's, and is a draw iff the moves are equal |
| StoneScissors.RoundPoint | lab1/StoneScissors.py:47-58 | a valid round awards at most one point |
| StoneScissors.PlayMatchNext | lab1/StoneScissors.py:65-73 | a round never lowers a score and raises the two together by at most one |
| StoneScissors.PlayMatchBounds | lab1/StoneScissors.py:60-75 | neither score passes the target, both never reach it, and the match is over exactly when one side has reached it |
| StoneScissors.MatchWinner | lab1/StoneScissors.py:65-80 | from a fresh match with a positive target, the user is announced winner exactly when the computer did not reach the target |
| Prompts.FirstPositive | lab1/StoneScissors.py:27-36 | the accepted number is the first typed line that is a positive integer; none is accepted when no line is |
| NumberAnalyzer.CollectDivisors | lab1/NumberAnalyzer.py:13-16 | the loop collects the divisor list |
| NumberAnalyzer.DivisorsMembers | lab1/NumberAnalyzer.py:13-16 | d is listed exactly when 1 <= d <= n and d divides n |
| NumberAnalyzer.DivisorsAscending | lab1/NumberAnalyzer.py:13-16 | the divisors are strictly ascending, start with 1 and end with n |
| NumberAnalyzer.ClassifyPrime | lab1/NumberAnalyzer.py:19-24 | for n > 1 the two-divisor test holds exactly when no number strictly between 1 and n divides n |
| NumberAnalyzer.Analyze | lab1/NumberAnalyzer.py:3-16 | a report exists exactly when some typed line is a positive number, and it is for that number with its divisor list |
| NumberAnalyzer.PrimeNotPerfect | lab1/NumberAnalyzer.py:21-34 | no prime is perfect |
| NumberAnalyzer.OneNotPerfect | lab1/NumberAnalyzer.py:26-34 | 1 is not perfect, since its proper divisors sum to 0 |
| NumberAnalyzer.SixDivisors | lab1/NumberAnalyzer.py:13-16 | example: the divisors of 6 are 1, 2, 3 and 6 |
| NumberAnalyzer.SixPerfect | lab1/NumberAnalyzer.py:26-34 | example: 6 is perfect |
| TextStatistics.RemoveEachIsFilter | lab1/TextStatistics.py:7-8 | removing the punctuation characters one by one is one filter that drops all of them |
| TextStatistics.CleanSpec | lab1/TextStatistics.py:5-9 | the cleaned text is the lowered text with exactly the punctuation dropped: none remains, every other character keeps its count and order, and it is no longer |
| TextStatistics.CleanIdempotent | lab1/TextStatistics.py:5-9 | cleaning twice is cleaning once when lower-casing is idempotent |
| TextStatistics.GetText | lab1/TextStatistics.py:12-18 | the accepted text is the first typed line of at least 100 characters, every earlier line being shorter; none is accepted exactly when every line is shorter |
| TextStatistics.NoSpacesLength | lab1/TextStatistics.py:25 | dropping the spaces shortens the text by its number of spaces |
| TextStatistics.LongestSpec | lab1/TextStatistics.py:37-38 | exactly min(5, number of distinct words) distinct words of the text, longest first; a word is left out only when five are listed, and it is no longer than any of them |
| TextStatistics.AverageBetween | lab1/TextStatistics.py:41-42 | with words present, the average length lies between 1 and the longest word's length |
| TextStatistics.AnalyzeTextSpec | lab1/TextStatistics.py:21-42 | total characters, characters without spaces, word count of the cleaned text, and an average length between 1 and the longest length |
| Text.Split | lab1/TextStatistics.py:27 | every word produced is a non-empty run of non-whitespace |
| Text.SplitJoin | lab1/TextStatistics.py:27 | the words joined by single spaces are the text with its whitespace runs collapsed to one space and its ends stripped, so the words are the text's maximal non-whitespace runs, in order |
| Counter.TallySpec | lab1/TextStatistics.py:31 | the counter lists each distinct word once with its number of occurrences |
| Counter.MostCommonSpec | lab1/TextStatistics.py:34 | exactly min(k, number of distinct words) distinct words with their true counts, all positive, in non-increasing count order |
| Counter.MostCommonIsTop | lab1/TextStatistics.py:34 | a word of the text is left out of the most common only when k entries are listed, and it occurs no more often than any listed one |
| QueueStack.Enqueue | lab2/queue_and_stack.py:5-7 | the item goes at the back and the rest is unchanged |
| QueueStack.Dequeue | lab2/queue_and_stack.py:9-15 | an empty queue gives None and is unchanged; otherwise the front item is returned and removed |
| QueueStack.PeekQueue | lab2/queue_and_stack.py:17-21 | peek returns what dequeue would, without removing it |
| QueueStack.DequeueAfterEnqueue | lab2/queue_and_stack.py:5-15 | on an empty queue, enqueue then dequeue returns the item; otherwise dequeue still takes the old front |
| QueueStack.EnqueueAllItems | lab2/queue_and_stack.py:5-7 | enqueuing a list appends it in order |
| QueueStack.DrainItems | lab2/queue_and_stack.py:9-15 | dequeuing until empty returns the items front to back |
| QueueStack.Fifo | lab2/queue_and_stack.py:5-15 | items leave the queue in the order they were enqueued |
| QueueStack.Push | lab2/queue_and_stack.py:34-36 | the item goes on top and the rest is unchanged |
| QueueStack.Pop | lab2/queue_and_stack.py:38-44 | an empty stack gives None and is unchanged; otherwise the top item is returned and removed |
| QueueStack.PeekStack | lab2/queue_and_stack.py:46-50 | peek returns what pop would, without removing it |
| QueueStack.PopAfterPush | lab2/queue_and_stack.py:34-50 | a push followed by a pop returns the pushed item and restores the stack |
| QueueStack.PushAllItems | lab2/queue_and_stack.py:34-36 | pushing a list appends it in order |
| QueueStack.PopAllItems | lab2/queue_and_stack.py:38-44 | popping until empty returns the items top to bottom |
| QueueStack.Lifo | lab2/queue_and_stack.py:34-44 | items leave the stack in reverse order of pushing |
| TaskTracker.NewTask | lab2/task_tracker.py:5-8 | a new task keeps its description and category and is not completed |
| TaskTracker.ToDict | lab2/task_tracker.py:17-22 | the dictionary has exactly the three keys |
| TaskTracker.FromDict | lab2/task_tracker.py:24-28 | reading succeeds only when the three keys are present, and a missing description is a KeyError for it |
| TaskTracker.DictRoundTrip | lab2/task_tracker.py:17-28 | reading back a written task gives the same task, and writing back a read three-key dictionary gives the same dictionary |
| TaskTracker.AddTaskSpec | lab2/task_tracker.py:54-63 | adding fails exactly for a blank description and then changes nothing; otherwise one uncompleted task is appended with the stripped description and the stripped, lowered category |
| TaskTracker.CompleteTaskSpec | lab2/task_tracker.py:65-78 | completion succeeds exactly for 1 <= i <= count, marks only task i - 1, changes nothing out of range, and is idempotent |
| TaskTracker.TasksInCategorySpec | lab2/task_tracker.py:88-92 | the filter keeps, in order and with multiplicity, exactly the tasks whose category is the lowered query |
| TaskTracker.AddedTaskListed | lab2/task_tracker.py:59-92 | a task just added is listed last by the filter for its category |
| BudgetTracker.Sign | lab2/budget_tracker.py:11-13 | the display starts with "+" exactly for income, else with "-" |
| BudgetTracker.ParseKind | lab2/budget_tracker.py:90-100 | "1" selects income and "2" expense, after stripping; anything else is rejected |
| BudgetTracker.AddTransaction | lab2/budget_tracker.py:71-110 | a transaction is added exactly when each prompt loop gets an acceptable answer; which answers it is built from is stated by AddTransactionSpec |
| BudgetTracker.AddTransactionSpec | lab2/budget_tracker.py:74-115 | the added transaction is built from the first accepted answer of each loop: the stripped first non-blank description and category, the first positive amount and the kind of the first "1" or "2"; so its amount is positive and its texts non-blank; it is appended last; income raises the balance by the amount and expense lowers it |
| BudgetTracker.AddTransactionKeepsBalance | lab2/budget_tracker.py:109-115 | the balance stays equal to the signed sum of all transactions |
| BudgetTracker.Recent | lab2/budget_tracker.py:124-127 | the balance view lists the last three transactions, or all when there are fewer |
| BudgetTracker.RecentShowsNewest | lab2/budget_tracker.py:109-127 | after an addition the newest transaction is the last one shown |
| Manipulator.PowerOrder | lab2/manipulator_model.py:14-18 | equality and less-than depend on power alone; equality is an equivalence, less-than is a strict order, and exactly one of less, equal, greater holds |
| Manipulator.SetAngle | lab2/manipulator_model.py:38-39 | setting the angle changes the angle and nothing else |
| Manipulator.NewArm | lab2/manipulator_model.py:49-56 | a new manipulator is at [0, 0, 0] with six servos of powers 100, 150, 120, 80, 60, 40, precision 0.1 and angle 0 |
| Manipulator.Add | lab2/manipulator_model.py:58-61 | adding a move gives a fresh manipulator whose position is the pointwise sum, cut to the shorter length |
| Manipulator.AddMoves | lab2/manipulator_model.py:58-61 | for three-component vectors, two moves add up to one, and the zero move keeps the position |
| Vehicles.CheckType | lab2/abstract_vehicles.py:28-31 | a type is accepted exactly when it is a string with a non-whitespace character, with the "empty" message for a non-string or empty one and the "spaces" message for a blank one |
| Vehicles.NewCar | lab2/abstract_vehicles.py:26-39 | a car is built exactly when both types are non-blank strings, and keeps them |
| Vehicles.NewCarMessages | lab2/abstract_vehicles.py:28-36 | each of the four rejections raises its own message, car type checked first |
| Vehicles.NewBicycle | lab2/abstract_vehicles.py:58-65 | a bicycle is built exactly when its type is a non-blank string |
| Vehicles.Getters | lab2/abstract_vehicles.py:41-74 | a car reports 200, "Автомобиль" and its engine type; a bicycle reports 30, "Велосипед" and "мускульная сила" |
| Plugins.RegisterSpec | lab2/metaprogramming.py:16-25 | registration fails for a falsy or taken name; otherwise exactly that name is added, mapped to the class, and every other entry is kept |
| Plugins.ModuleRegistry | lab2/metaprogramming.py:44-59 | after the module body the registry maps "upper" and "reverse" to the two plugins |
| Plugins.Execute | lab2/metaprogramming.py:37-59 | a non-string raises ValueError in every plugin, the base class raises NotImplementedError, and a result has the input's length, since the case map sends each character to one character |
| Plugins.ExecuteSpec | lab2/metaprogramming.py:47-59 | reversing twice gives the text back; upper-casing is the character map, and with an idempotent map it is idempotent |
| Comparative.HeavyComputationClosedForm | lab3/comparative_analysis.py:18-22 | the sum of squares of 1 .. n is n(n + 1)(2n + 1) / 6, and 0 for n <= 0 |
| Comparative.Compose | lab3/comparative_analysis.py:25-26 | composing gives a function exactly when there is at least one function |
| Comparative.ComposeRightToLeft | lab3/comparative_analysis.py:25-26 | the composition applies the last function first and the first last |
| Comparative.ComposeThree | lab3/comparative_analysis.py:62-66 | the pipeline of three functions is f(g(h(x))) |
| Comparative.Min | lab3/comparative_analysis.py:32 | the minimum is an element no greater than any element |
| Comparative.Max | lab3/comparative_analysis.py:32 | the maximum is an element no smaller than any element |
| Comparative.NormalizeData | lab3/comparative_analysis.py:29-36 | normalisation keeps the length |
| Comparative.NormalizeDataRange | lab3/comparative_analysis.py:29-36 | every value lands in [0, 1]; minima map to 0, maxima to 1, and constant data to all zeros |
| Comparative.NormalizeDataMonotone | lab3/comparative_analysis.py:32-36 | normalisation preserves the order of the values |
| Comparative.CalculateMetrics | lab3/comparative_analysis.py:39-41 | empty data gives zero metrics |
| Comparative.MeanInRange | lab3/comparative_analysis.py:43 | the mean lies within any bounds of the data |
| Comparative.SortedAscending | lab3/comparative_analysis.py:45 | the sorted data is a non-decreasing permutation of the data |
| Comparative.MedianPicksMiddle | lab3/comparative_analysis.py:46-48 | `sorted[~mid]` is the element at n // 2 - 1 for even n, so the median is the middle element or the mean of the two middle ones |
| Comparative.MedianInRange | lab3/comparative_analysis.py:46-48 | the median lies within any bounds of the sorted data |
| Comparative.MedianIsMiddle | lab3/comparative_analysis.py:45-48 | the median is the middle of the sorted data, or the mean of the two middle elements |
| Comparative.MetricsBetweenMinMax | lab3/comparative_analysis.py:39-48 | the mean and the median of non-empty data lie between its minimum and maximum |
| Countries.UppercaseImperative | lab3/countries_analysis.py:135-164 | the loop and the map give the same list: each country upper-cased, same length |
| Countries.FilterLoop | lab3/countries_analysis.py:166-192 | the append loop keeps exactly the countries passing the test, in order |
| Countries.FilterBySubstringImperative | lab3/countries_analysis.py:166-171 | the loop is the filter by "substring in lowered country" |
| Countries.FilterByLengthImperative | lab3/countries_analysis.py:173-178 | the loop is the filter by exact length |
| Countries.FilterByMinLengthImperative | lab3/countries_analysis.py:180-185 | the loop is the filter by minimum length |
| Countries.FilterByStartingLetterImperative | lab3/countries_analysis.py:187-192 | the loop is the filter by lowered prefix |
| Countries.StartsEAgrees | lab3/countries_analysis.py:143 | the "starts with e" list lower-cases only the country and compares with the literal "e"; when lower-casing leaves "e" unchanged it equals the imperative filter for the letter "e" |
| Countries.LengthFiltersSpec | lab3/countries_analysis.py:138-185 | the length filters keep every qualifying country as often as it occurs and no other, in order, and for 6 they agree with `filter_countries` |
| Countries.SubstringNotLowered | lab3/countries_analysis.py:166-171 | only the country is lowered, so a substring with a letter that lowering changes matches nothing |
| Countries.StartingLetterCaseInsensitive | lab3/countries_analysis.py:187-192 | both sides are lowered, so the letter's case does not matter |
| Countries.NordicSentence | lab3/countries_analysis.py:151-157 | no Nordic country gives the fixed message |
| Countries.FormatNordicLists | lab3/countries_analysis.py:147-149 | the functional formatter lists each Nordic country present exactly once, in the order of the Nordic list |
| Countries.FormatNordicImperative | lab3/countries_analysis.py:194-213 | the loop formatter lists the Nordic entries in input order with duplicates, and ends the several-country sentence with " - это" |
| Countries.NordicFormattersDiffer | lab3/countries_analysis.py:147-213 | with two or more Nordic countries the two formatters never agree |
| Countries.CategorizeIsClosureFilter | lab3/countries_analysis.py:216-224 | the curried and the closure filter return the same list for every pattern and list |
| Countries.AnalyzeDetailed | lab3/countries_analysis.py:227-229 | the analysis is empty exactly for empty data |
| Countries.AnalyzeSorted | lab3/countries_analysis.py:232-234 | the three sorted lists are permutations of the data, by name, by capital, and by population from the largest |
| Countries.AnalyzeTopPopulated | lab3/countries_analysis.py:251 | at most ten entries, the head of the population order, with populations never increasing |
| Countries.AnalyzeTopLanguages | lab3/countries_analysis.py:237-238 | exactly min(10, number of distinct languages) distinct languages with their true counts, most spoken first; a language is left out only when ten are listed, and it is spoken no more often than any of them |
| Countries.NamesSpeakingSpec | lab3/countries_analysis.py:243-247 | the countries listed for a language are exactly those that speak it |
| Countries.AnalyzeLanguageMap | lab3/countries_analysis.py:241-248 | the language map has exactly the top languages as keys, each mapped to exactly the countries speaking it |
| Sorting.SortBy | lab3/countries_analysis.py:232-234 | sorting returns a permutation of its input |
| Sorting.SortBySorted | lab3/countries_analysis.py:232-234 | with a strict weak order on the keys, the sorted list is ordered by key |
| Sorting.SortByStable | lab3/countries_analysis.py:232-234 | the sort is stable: read through any class of equivalent keys, the sorted list holds that class's elements in their input order |
| Sorting.StringLessOrder | lab3/countries_analysis.py:232-233 | Python's string comparison is a strict weak order |
| Rag.Context | lab5/rag.py:22-30 | no documents give "нет данных"; a first document of up to 120 characters is used whole, a longer one is cut to 120 and "..." appended, so the context is at most 123 characters |
| Rag.Fraction | lab5/rag.py:77 | the found fraction lies in [0, 1] and is 1 exactly when everything was found |
| Rag.EvaluateAnswer | lab5/rag.py:71-77 | an empty answer, one containing "нет данных", or no keywords score 0; any score lies in [0, 1] |
| Rag.EvaluateAnswerFull | lab5/rag.py:71-77 | the score is 1 exactly when the answer is scorable and every one of at least one keyword occurs in it, case-insensitively |
| Rag.TestQuestionsShape | lab5/rag.py:47-69 | there are five test questions, each with a non-empty list of non-empty keywords |
| WikiDataset.CleanSpec | lab5/wiki_dataset.py:54-59 | the cleaned text has single spaces for whitespace runs, no newline or tab, and no leading or trailing whitespace; empty stays empty |
| WikiDataset.NewlineStepNoOp | lab5/wiki_dataset.py:57-58 | after whitespace runs are collapsed, the newline substitution changes nothing |
| WikiDataset.CollapseNewlinesFixes | lab5/wiki_dataset.py:58 | the newline substitution leaves a text without newlines unchanged |
| WikiDataset.CleanIdempotent | lab5/wiki_dataset.py:54-59 | cleaning twice is cleaning once |
| WikiDataset.CountTokens | lab5/wiki_dataset.py:61-64 | the token count is the text length floor-divided by 3, and 0 for empty text |
| Text.StripSpec | lab5/wiki_dataset.py:59 | strip removes only whitespace at both ends, and what is left neither starts nor ends with whitespace |
| Text.StripBlank | lab2/task_tracker.py:55 | stripping gives the empty string exactly for an all-whitespace string |
| Text.StripIdempotent | lab5/wiki_dataset.py:59 | stripping twice is stripping once |
| Text.CollapseSpaceCollapsed | lab5/wiki_dataset.py:57 | after collapsing, no two whitespace characters are adjacent and none is a newline or tab |

## Left out

- Console and file I/O is not modelled: `print`, the menus and `show_all_tasks`, and the JSON load and save of the trackers and country files. `input()` is a list of lines.
- `ask_length` and `play_session` of Bulls and Cows are left out: a choice among "3", "4", "5", and the min, max and mean of the attempts.
- The ACO engine:
  - `euclidean_distance` and `generate_points` are left out, because they need square roots and random floats. Distance is an abstract function.
  - `p ** alpha * (1 / d) ** beta` is an abstract weight function, because there is no real exponentiation. The driver's defaults alpha = 1 and beta = 2 make it p * (1/d)^2.
  - Plotting, the asyncio drivers and the demos are left out. So is `run_algorithm_async`'s running best.
- The standard deviation of `calculate_metrics` is left out, because it needs a square root. So are `timing_decorator`, `lru_cache`, `time.sleep` and the random data of `run_experiment`.
- `generate_report` and the other f-string reports, and every `__str__`/`__repr__` except the budget sign, are left out.
- The vector store, the LLM calls and `evaluate_cosine` of `lab5/rag.py` are left out (network and scikit-learn). `get_wiki_article` of `lab5/wiki_dataset.py` is left out (HTTP).
- lab4 (library benchmarks and plots), `lab5/embedding.py` and `lab6/app.py` (vector database and web server) are not part of this model.
- Unicode case mapping is a parameter `lower` or `upper`. Where a property needs it, the map is required to be idempotent.
- `str.isdigit` is taken to be the ASCII digits 0-9. Python also accepts other Unicode digits.
- Python floats are exact reals: rounding is not modelled.
- BullsAndCows.CountCowsAndBulls: requires the guess to be at least as long as the secret. `play_game` only passes validated guesses of that length; a shorter guess would raise IndexError, which is not modelled.
- Transition.ChooseNext: `unvisited` is given as a sequence in its enumeration order (an oracle). It is not modelled as a Python set.
- BudgetTracker.AddTransaction: `float()` is not modelled; a typed amount arrives already parsed, as a real or as none for a ValueError. `float("nan")` and `float("inf")` pass the `amount <= 0` check of lab2/budget_tracker.py:82-86 and reach the balance in Python, but a real cannot hold them, so the model does not cover them.
- Prompts.FirstPositive: `int()` is not modelled; each typed line arrives already parsed, as an integer or as none for a ValueError. The same holds for NumberAnalyzer.Analyze.
- Plugins.Execute: the case map sends one character to one character, so the result keeps the input's length. Python's `str.upper` can lengthen a string ("ß".upper() is "SS"), so the length clause holds in the model, not for every Python string.
- TaskTracker.FromDict: the dictionary's values are typed, so a value of the wrong kind is a WrongKind error. Python's `from_dict` does not check kinds and accepts, for example, `"is_completed": 1` or a numeric category.
- Manipulator.Add: positions and moves are integers. Python adds any numbers, floats included.
- The tracker classes become immutable records updated by pure functions, not objects mutated in place.
- Behaviour that follows the code rather than the intent of the comments:
  - the generator yields each iteration's best tour, not a running best;
  - it yields one `([], 0.0)` for fewer than three points instead of failing;
  - an iteration with no complete path yields nothing and leaves the trails as they were.

## Findings

| source | as written | input that shows it | evidently intended | confidence | as-written member | corrected member |
|---|---|---|---|---|---|---|
| lab1/Wordle.py:4-6 | the secret is drawn from a list that also holds five four-letter words, and `give_feedback` indexes both words at 0..4 | the secret "стол" and the first typed guess "крона": IndexError at attempt 1, and the game can never be won | a five-letter secret, as the game announces ("a word of 5 letters") | not executed | Wordle.ShortSecretCrashes | Wordle.PlayCorrectedSpec |
| lab1/Wordle.py:30-32 | an unmarked position shows the secret's letter at that index | the guess "ветер" on the secret "крона" is answered "к р о н (р)", four letters of the secret | the guess letter unchanged, as the comment beside the line says | not executed | Wordle.FeedbackRevealsSecret | Wordle.GiveFeedbackCorrectedSpec |

=== FILE: aco_colony.dfy ===
/** The per-iteration driver of the Ant Colony Optimisation engine
    (`ant_colony_optimization` in lab3/tsp_3d_generator.py). The generator
    becomes the finite list of records it yields. */
module Colony {
  import opened Seqs
  import opened Wrappers
  import opened Tours
  import opened Pheromones
  import opened Transition
  import opened PathBuilder

  /** The driver calls `construct_path` with its defaults alpha = 1 and
      beta = 2, so the score weight is p * (1/d)^2 exactly. */
  function DefaultWeigh(p: real, inv: real): real
  {
    p * (inv * inv)
  }

  /** The default deposit constant Q of `update_pheromones`. */
  const DepositQ: real := 100.0

  /** One yielded pair (best path, its length). */
  datatype Record = Record(path: seq<nat>, length: real)

  /** The oracle of ant `k` in iteration `it`. */
  type ColonyOracle = (nat, nat) -> AntOracle

  /** Every ant's random source in iteration `it` is valid. */
  ghost predicate ValidRound(oracle: ColonyOracle, it: nat, n: nat)
  {
    forall k: nat :: ValidOracle(oracle(it, k), n)
  }

  /** Every iteration's random sources are valid. */
  ghost predicate ValidColony(oracle: ColonyOracle, n: nat)
  {
    forall it: nat :: ValidRound(oracle, it, n)
  }

  /** With at least one ant an iteration yields exactly one record. */
  lemma YieldCount(t: Trails, dist: Distance, n: nat, ants: nat, oracle: ColonyOracle, it: nat)
    requires ValidRound(oracle, it, n)
    ensures n >= 2 && ants > 0 ==> |Yield(Iteration(t, dist, n, ants, oracle, it).0)| == 1
  {
    if n >= 2 {
      IterationSpec(t, dist, n, ants, oracle, it);
    }
  }

  /** Python's `min(xs, key=key)`: the index of the first element with
      the smallest key. */
  function FirstMinIndex<T>(xs: seq<T>, key: T -> real): (i: nat)
    requires |xs| > 0
    ensures i < |xs|
    ensures forall j :: 0 <= j < |xs| ==> key(xs[i]) <= key(xs[j])
    ensures forall j :: 0 <= j < i ==> key(xs[j]) > key(xs[i])
    decreases |xs|
  {
    if |xs| == 1 then 0
    else
      var i := FirstMinIndex(xs[..|xs| - 1], key);
      assert forall j :: 0 <= j < |xs| - 1 ==> xs[..|xs| - 1][j] == xs[j];
      if key(xs[|xs| - 1]) < key(xs[i]) then |xs| - 1 else i
  }

  /** `num_ants`: None means min(10, n); a negative count builds no ant. */
  function AntCount(numAnts: Option<int>, n: nat): nat
  {
    match numAnts
    case None => if n < 10 then n else 10
    case Some(k) => if k < 0 then 0 else k
  }

  /** The paths of one iteration's ants, all built on the same trails. */
  function AntPaths(t: Trails, dist: Distance, n: nat, ants: nat, oracle: ColonyOracle, it: nat): (paths: seq<seq<nat>>)
    requires ValidRound(oracle, it, n)
    ensures |paths| == ants
    ensures n > 1 ==> forall k :: 0 <= k < ants ==> IsPermutationOfRange(paths[k], n)
  {
    var paths := seq(ants, k requires 0 <= k < ants => ConstructPath(t, dist, DefaultWeigh, n, oracle(it, k)));
    assert forall k :: 0 <= k < ants ==> paths[k] == ConstructPath(t, dist, DefaultWeigh, n, oracle(it, k));
    paths
  }

  /** The iteration best: among the paths of length n, the first one of
      least closed length; None when no path is complete. */
  function BestOf(paths: seq<seq<nat>>, dist: Distance, n: nat): (best: Option<seq<nat>>)
    ensures best.Some? ==> |best.value| == n && best.value in paths
  {
    var valid := Filter(paths, (p: seq<nat>) => |p| == n);
    FilterSpec(paths, (p: seq<nat>) => |p| == n);
    if |valid| == 0 then None
    else
      var i := FirstMinIndex(valid, (p: seq<nat>) => PathLength(p, dist));
      assert valid[i] in valid;
      Some(valid[i])
  }

  /** BestOf finds something exactly when some path is complete; what
      it finds is no longer than any complete path, and it is the first
      complete path of least length, as `min` with a key picks among ties
      (a reversed or rotated tour has the same length but deposits on
      other edges). */
  lemma BestOfShortest(paths: seq<seq<nat>>, dist: Distance, n: nat)
    ensures BestOf(paths, dist, n).Some? <==> exists k :: 0 <= k < |paths| && |paths[k]| == n
    ensures BestOf(paths, dist, n).Some? ==>
      forall k :: 0 <= k < |paths| && |paths[k]| == n ==>
        PathLength(BestOf(paths, dist, n).value, dist) <= PathLength(paths[k], dist)
    ensures BestOf(paths, dist, n).Some? ==>
      exists k0 :: 0 <= k0 < |paths| && paths[k0] == BestOf(paths, dist, n).value && |paths[k0]| == n &&
        forall k :: 0 <= k < k0 && |paths[k]| == n ==>
          PathLength(paths[k], dist) > PathLength(BestOf(paths, dist, n).value, dist)
  {
    var isFull := (p: seq<nat>) => |p| == n;
    var valid := Filter(paths, isFull);
    FilterSpec(paths, isFull);
    if |valid| > 0 {
      var key := (p: seq<nat>) => PathLength(p, dist);
      var i := FirstMinIndex(valid, key);
      assert valid[0] in valid;
      forall k | 0 <= k < |paths| && |paths[k]| == n
        ensures key(valid[i]) <= key(paths[k])
      {
        assert paths[k] in valid;
        var j :| 0 <= j < |valid| && valid[j] == paths[k];
      }
      var k0 := FilterPosition(paths, isFull, i);
      forall k | 0 <= k < k0 && |paths[k]| == n
        ensures key(paths[k]) > key(valid[i])
      {
        assert paths[..k0][k] == paths[k];
        FilterMembers(paths[..k0], isFull, paths[k]);
        assert paths[k] in valid[..i];
        var j :| 0 <= j < i && valid[..i][j] == paths[k];
        assert valid[j] == paths[k];
      }
    } else {
      forall k | 0 <= k < |paths|
        ensures |paths[k]| != n
      {
        assert paths[k] in paths;
      }
    }
  }

  /** One pass of the `for iteration` loop: with no complete path, yield
      nothing and keep the trails; otherwise yield the iteration best with
      its length and update the trails with it. */
  function Iteration(t: Trails, dist: Distance, n: nat, ants: nat, oracle: ColonyOracle, it: nat): (out: (Option<Record>, Trails))
    requires ValidRound(oracle, it, n)
    ensures out.0.None? ==> out.1 == t
    ensures out.0.Some? ==> out.1 == Update(t, out.0.value.path, dist, DepositQ)
    ensures out.0.Some? ==> |out.0.value.path| == n && out.0.value.length == PathLength(out.0.value.path, dist)
  {
    match BestOf(AntPaths(t, dist, n, ants, oracle, it), dist, n)
    case None => (None, t)
    case Some(best) => (Some(Record(best, PathLength(best, dist))), Update(t, best, dist, DepositQ))
  }

  /** The yielded record of an iteration is a complete tour, no longer
      than any path an ant built in that iteration, and with at least one
      ant (and n >= 2) an iteration always yields. */
  lemma IterationSpec(t: Trails, dist: Distance, n: nat, ants: nat, oracle: ColonyOracle, it: nat)
    requires n >= 2
    requires ValidRound(oracle, it, n)
    ensures var rec := Iteration(t, dist, n, ants, oracle, it).0;
      && (rec.Some? <==> ants > 0)
      && (rec.Some? ==>
           && IsPermutationOfRange(rec.value.path, n)
           && forall k :: 0 <= k < ants ==>
                rec.value.length <= PathLength(AntPaths(t, dist, n, ants, oracle, it)[k], dist))
  {
    var paths := AntPaths(t, dist, n, ants, oracle, it);
    BestOfPermutations(paths, dist, n);
  }

  /** When every ant's path is a full tour, the best exists exactly when
      there is an ant, is itself a tour and is no longer than any path. */
  lemma BestOfPermutations(paths: seq<seq<nat>>, dist: Distance, n: nat)
    requires n >= 2
    requires forall k :: 0 <= k < |paths| ==> IsPermutationOfRange(paths[k], n)
    ensures var best := BestOf(paths, dist, n);
      && (best.Some? <==> |paths| > 0)
      && (best.Some? ==>
           && IsPermutationOfRange(best.value, n)
           && forall k :: 0 <= k < |paths| ==> PathLength(best.value, dist) <= PathLength(paths[k], dist))
  {
    BestOfShortest(paths, dist, n);
    forall k | 0 <= k < |paths|
      ensures |paths[k]| == n
    {
      PermutationOfRangeShape(paths[k], n);
    }
    if |paths| > 0 {
      assert |paths[0]| == n;
      var best := BestOf(paths, dist, n).value;
      var j :| 0 <= j < |paths| && paths[j] == best;
    }
  }

  /** An iteration keeps the trail keys at the n * (n - 1) ordered pairs
      and keeps every trail positive. */
  lemma IterationKeepsTrails(t: Trails, dist: Distance, n: nat, ants: nat, oracle: ColonyOracle, it: nat)
    requires n >= 2
    requires ValidRound(oracle, it, n)
    requires t.Keys == EdgeSet(n) && AllPositive(t)
    ensures Iteration(t, dist, n, ants, oracle, it).1.Keys == EdgeSet(n)
    ensures AllPositive(Iteration(t, dist, n, ants, oracle, it).1)
  {
    IterationSpec(t, dist, n, ants, oracle, it);
    var rec := Iteration(t, dist, n, ants, oracle, it).0;
    if rec.Some? {
      UpdateKeepsKeys(t, rec.value.path, dist, DepositQ, n);
      UpdateKeepsPositive(t, rec.value.path, dist, DepositQ);
    }
  }

  /** The remaining iterations `it .. iterations-1`: the records yielded
      and the final trails. */
  function Run(t: Trails, dist: Distance, n: nat, ants: nat, oracle: ColonyOracle, it: nat, iterations: nat): (out: (seq<Record>, Trails))
    requires ValidColony(oracle, n)
    ensures |out.0| <= if it >= iterations then 0 else iterations - it
    ensures n >= 2 && ants > 0 ==> |out.0| == if it >= iterations then 0 else iterations - it
    decreases iterations - it
  {
    if it >= iterations then ([], t)
    else
      var step := Iteration(t, dist, n, ants, oracle, it);
      YieldCount(t, dist, n, ants, oracle, it);
      var rest := Run(step.1, dist, n, ants, oracle, it + 1, iterations);
      (Yield(step.0) + rest.0, rest.1)
  }

  /** What one iteration contributes to the yielded list. */
  function Yield(rec: Option<Record>): (out: seq<Record>)
    ensures |out| == if rec.Some? then 1 else 0
    ensures rec.Some? ==> out[0] == rec.value
  {
    match rec
    case None => []
    case Some(r) => [r]
  }

  /** `ant_colony_optimization` as the list of what it yields: a single
      ([], 0.0) for fewer than three points; otherwise one record per
      iteration that had a complete path. */
  function Optimize(n: nat, dist: Distance, iterations: int, numAnts: Option<int>, oracle: ColonyOracle): (records: seq<Record>)
    requires n >= 3 ==> ValidColony(oracle, n)
    ensures n < 3 ==> records == [Record([], 0.0)]
    ensures n >= 3 ==> |records| <= if iterations < 0 then 0 else iterations
  {
    if n < 3 then [Record([], 0.0)]
    else Run(Initialize(n), dist, n, AntCount(numAnts, n), oracle, 0, if iterations < 0 then 0 else iterations).0
  }

  /** Every record holds a permutation of 0..n-1 and its closed length. */
  ghost predicate CompleteTours(records: seq<Record>, n: nat, dist: Distance)
  {
    forall j :: 0 <= j < |records| ==>
      IsPermutationOfRange(records[j].path, n) && records[j].length == PathLength(records[j].path, dist)
  }

  /** A single record that is a complete tour, followed by complete tours. */
  lemma CompleteToursPrepend(first: seq<Record>, rest: seq<Record>, n: nat, dist: Distance)
    requires CompleteTours(first, n, dist) && CompleteTours(rest, n, dist)
    ensures CompleteTours(first + rest, n, dist)
  {
    var all := first + rest;
    forall j | 0 <= j < |all|
      ensures IsPermutationOfRange(all[j].path, n) && all[j].length == PathLength(all[j].path, dist)
    {
      if j >= |first| {
        assert all[j] == rest[j - |first|];
      }
    }
  }

  /** What an iteration yields is a complete tour, and with at least one
      ant it yields exactly one record. */
  lemma YieldSpec(t: Trails, dist: Distance, n: nat, ants: nat, oracle: ColonyOracle, it: nat)
    requires n >= 3
    requires ValidRound(oracle, it, n)
    ensures CompleteTours(Yield(Iteration(t, dist, n, ants, oracle, it).0), n, dist)
    ensures ants > 0 ==> |Yield(Iteration(t, dist, n, ants, oracle, it).0)| == 1
  {
    IterationSpec(t, dist, n, ants, oracle, it);
    var rec := Iteration(t, dist, n, ants, oracle, it).0;
    match rec
    case None =>
    case Some(r) =>
      var ys := Yield(rec);
      assert ys[0] == r;
      assert IsPermutationOfRange(r.path, n) && r.length == PathLength(r.path, dist);
  }

  /** One iteration followed by the rest of the run. */
  lemma RunUnfold(t: Trails, dist: Distance, n: nat, ants: nat, oracle: ColonyOracle, it: nat, iterations: nat)
    requires ValidColony(oracle, n)
    requires it < iterations
    ensures var step := Iteration(t, dist, n, ants, oracle, it);
      Run(t, dist, n, ants, oracle, it, iterations).0 == Yield(step.0) + Run(step.1, dist, n, ants, oracle, it + 1, iterations).0
  {
  }

  /** Every record yielded for n >= 3 is a complete tour with its length. */
  lemma {:induction false} RunRecords(t: Trails, dist: Distance, n: nat, ants: nat, oracle: ColonyOracle, it: nat, iterations: nat)
    requires n >= 3
    requires ValidColony(oracle, n)
    ensures CompleteTours(Run(t, dist, n, ants, oracle, it, iterations).0, n, dist)
    decreases iterations - it
  {
    if it < iterations {
      var step := Iteration(t, dist, n, ants, oracle, it);
      var rest := Run(step.1, dist, n, ants, oracle, it + 1, iterations);
      RunUnfold(t, dist, n, ants, oracle, it, iterations);
      YieldSpec(t, dist, n, ants, oracle, it);
      RunRecords(step.1, dist, n, ants, oracle, it + 1, iterations);
      CompleteToursPrepend(Yield(step.0), rest.0, n, dist);
    }
  }

  /** Along the whole run the trails keep exactly the n * (n - 1)
      ordered pairs as keys and stay positive. */
  lemma {:induction false} RunKeepsTrails(t: Trails, dist: Distance, n: nat, ants: nat, oracle: ColonyOracle, it: nat, iterations: nat)
    requires n >= 3
    requires ValidColony(oracle, n)
    requires t.Keys == EdgeSet(n) && AllPositive(t)
    ensures Run(t, dist, n, ants, oracle, it, iterations).1.Keys == EdgeSet(n)
    ensures AllPositive(Run(t, dist, n, ants, oracle, it, iterations).1)
    decreases iterations - it
  {
    if it < iterations {
      var step := Iteration(t, dist, n, ants, oracle, it);
      IterationKeepsTrails(t, dist, n, ants, oracle, it);
      RunKeepsTrails(step.1, dist, n, ants, oracle, it + 1, iterations);
    }
  }

  /** For n >= 3 the driver yields complete tours with their lengths,
      and with at least one ant exactly one per iteration. */
  lemma OptimizeSpec(n: nat, dist: Distance, iterations: int, numAnts: Option<int>, oracle: ColonyOracle)
    requires n >= 3
    requires ValidColony(oracle, n)
    ensures CompleteTours(Optimize(n, dist, iterations, numAnts, oracle), n, dist)
    ensures AntCount(numAnts, n) > 0 ==>
      |Optimize(n, dist, iterations, numAnts, oracle)| == if iterations < 0 then 0 else iterations
  {
    var t := Initialize(n);
    assert t.Keys == EdgeSet(n);
    RunRecords(t, dist, n, AntCount(numAnts, n), oracle, 0, if iterations < 0 then 0 else iterations);
  }
}

=== FILE: aco_paths.dfy ===
/** Path construction of the Ant Colony Optimisation engine
    (`construct_path` in lab3/tsp_3d_generator.py). The random start node,
    the enumeration order of the unvisited set and the per-step draws are
    an explicit oracle. */
module PathBuilder {
  import opened Seqs
  import opened Tours
  import opened Pheromones
  import opened Transition

  /** The draws of one transition step: the roulette draw `r` and the
      index for the uniform fallback choice. */
  datatype Step = Step(r: real, pick: nat)

  /** Everything random in one ant's walk: `random.randrange(n)`, the
      order in which the set `range(n) - {start}` is enumerated, and the
      draws of successive steps. Removing an element from a set does not
      reorder the remaining ones. */
  datatype AntOracle = AntOracle(start: nat, order: seq<nat>, steps: nat -> Step)

  /** What the random source guarantees: the start is a node and `order`
      enumerates every other node exactly once. */
  ghost predicate ValidOracle(o: AntOracle, n: nat)
  {
    n <= 1 || (o.start < n && multiset(o.order) == multiset(Range(n)) - multiset{o.start})
  }

  /** The `while unvisited` loop: append the chosen node and remove it
      from `unvisited`, stopping when nothing is left (or, as a guard, when
      the rule answers -1). Every node ends up on the path exactly once
      more than before, and the path built so far is kept as a prefix. */
  function Grow(t: Trails, dist: Distance, weigh: Weigh, path: seq<nat>,
                unvisited: seq<nat>, steps: nat -> Step, step: nat): (full: seq<nat>)
    requires |path| > 0
    ensures multiset(full) == multiset(path) + multiset(unvisited)
    ensures |full| >= |path| && full[..|path|] == path
    decreases |unvisited|
  {
    if |unvisited| == 0 then path
    else
      var next := ChooseNext(t, dist, weigh, path[|path| - 1], unvisited, steps(step).r, steps(step).pick);
      if next == -1 then path
      else
        var node: nat := next;
        var rest := Grow(t, dist, weigh, path + [node], Remove(unvisited, node), steps, step + 1);
        GrowStep(path, unvisited, node, rest);
        rest
  }

  /** Appending a node taken from `unvisited` and finishing from there
      accounts for every node once and keeps the path as a prefix. */
  lemma GrowStep(path: seq<nat>, unvisited: seq<nat>, node: nat, rest: seq<nat>)
    requires node in unvisited
    requires multiset(rest) == multiset(path + [node]) + multiset(Remove(unvisited, node))
    requires |rest| >= |path| + 1 && rest[..|path| + 1] == path + [node]
    ensures multiset(rest) == multiset(path) + multiset(unvisited)
    ensures |rest| >= |path| && rest[..|path|] == path
  {
    assert rest[..|path|] == (path + [node])[..|path|];
    assert (path + [node])[..|path|] == path;
    assert multiset(unvisited) == multiset(Remove(unvisited, node)) + multiset{node};
  }

  /** `construct_path`: `[0 .. n)` for n <= 1; otherwise a permutation of
      the nodes 0..n-1 that starts at the drawn start node. */
  function ConstructPath(t: Trails, dist: Distance, weigh: Weigh, n: nat, o: AntOracle): (path: seq<nat>)
    requires ValidOracle(o, n)
    ensures n <= 1 ==> path == Range(n)
    ensures n > 1 ==> IsPermutationOfRange(path, n) && |path| == n && path[0] == o.start
  {
    if n <= 1 then Range(n)
    else
      var path := Grow(t, dist, weigh, [o.start], o.order, o.steps, 0);
      assert o.start in multiset(Range(n)) by {
        assert Range(n)[o.start] == o.start;
      }
      PermutationOfRangeShape(path, n);
      path
  }
}

=== FILE: aco_pheromones.dfy ===
/** Pheromone trails of the Ant Colony Optimisation engine
    (lab3/tsp_3d_generator.py): initialisation, evaporation, deposit and
    the per-iteration update. */
module Pheromones {
  import opened Seqs
  import opened Tours

  /** Trail strength per ordered pair of nodes. */
  type Trails = map<Edge, real>

  /** `pheromone.get(e, 1.0)`: a missing edge reads as 1.0. */
  function Lookup(t: Trails, e: Edge): real
  {
    if e in t then t[e] else 1.0
  }

  /** The ordered pairs (i, j) with i != j over nodes 0..n-1. */
  function EdgeSet(n: nat): set<Edge>
  {
    set i: nat, j: nat | i < n && j < n && i != j :: (i, j)
  }

  /** `initialize_pheromones`: every ordered pair of distinct nodes starts
      at 1.0, which is n * (n - 1) entries. */
  function Initialize(n: nat): (t: Trails)
    ensures forall i: nat, j: nat :: (i, j) in t <==> i < n && j < n && i != j
    ensures forall e :: e in t ==> t[e] == 1.0
    ensures |t| == n * (n - 1)
  {
    var t := map e | e in EdgeSet(n) :: 1.0;
    assert t.Keys == EdgeSet(n);
    EdgeSetSize(n);
    t
  }

  function Row(i: nat, m: nat): set<Edge>
  {
    set j: nat | j < m :: (i, j)
  }

  function Column(j: nat, m: nat): set<Edge>
  {
    set i: nat | i < m :: (i, j)
  }

  lemma {:induction false} RowSize(i: nat, m: nat)
    ensures |Row(i, m)| == m
    decreases m
  {
    if m > 0 {
      RowSize(i, m - 1);
      assert Row(i, m) == Row(i, m - 1) + {(i, m - 1)};
    } else {
      assert Row(i, m) == {};
    }
  }

  lemma {:induction false} ColumnSize(j: nat, m: nat)
    ensures |Column(j, m)| == m
    decreases m
  {
    if m > 0 {
      ColumnSize(j, m - 1);
      assert Column(j, m) == Column(j, m - 1) + {(m - 1, j)};
    } else {
      assert Column(j, m) == {};
    }
  }

  lemma EdgeSetSplit(k: nat)
    ensures EdgeSet(k + 1) == EdgeSet(k) + Row(k, k) + Column(k, k)
  {
    forall e | e in EdgeSet(k + 1)
      ensures e in EdgeSet(k) + Row(k, k) + Column(k, k)
    {
      if e.0 == k {
        assert e in Row(k, k);
      } else if e.1 == k {
        assert e in Column(k, k);
      } else {
        assert e in EdgeSet(k);
      }
    }
    forall e | e in Row(k, k)
      ensures e in EdgeSet(k + 1)
    {
    }
    forall e | e in Column(k, k)
      ensures e in EdgeSet(k + 1)
    {
    }
  }

  lemma DisjointUnionSize<T>(a: set<T>, b: set<T>)
    requires a !! b
    ensures |a + b| == |a| + |b|
  {
  }

  lemma RowDisjoint(k: nat)
    ensures EdgeSet(k) !! Row(k, k)
    ensures (EdgeSet(k) + Row(k, k)) !! Column(k, k)
  {
    forall e | e in Row(k, k) ensures e !in EdgeSet(k) { }
    forall e | e in Column(k, k) ensures e !in EdgeSet(k) + Row(k, k) { }
  }

  lemma {:induction false} EdgeSetSize(n: nat)
    ensures |EdgeSet(n)| == n * (n - 1)
    decreases n
  {
    if n == 0 {
      assert EdgeSet(n) == {};
    } else {
      var k := n - 1;
      EdgeSetSize(k);
      RowSize(k, k);
      ColumnSize(k, k);
      EdgeSetSplit(k);
      RowDisjoint(k);
      var a, b, c := EdgeSet(k), Row(k, k), Column(k, k);
      DisjointUnionSize(a, b);
      DisjointUnionSize(a + b, c);
      assert |EdgeSet(n)| == |a| + |b| + |c|;
      SizeArithmetic(k);
    }
  }

  lemma SizeArithmetic(k: nat)
    ensures k * (k - 1) + k + k == (k + 1) * k
  {
  }

  /** A trail value after evaporation at `rate`. */
  function Evaporated(rate: real, v: real): real
  {
    (1.0 - rate) * v
  }

  /** `evaporate_pheromones`: every stored trail is scaled by (1 - rate). */
  function Evaporate(t: Trails, rate: real): (r: Trails)
    ensures r.Keys == t.Keys
    ensures forall e :: e in r ==> r[e] == (1.0 - rate) * t[e]
  {
    map e | e in t :: Evaporated(rate, t[e])
  }

  /** Scaling by (1 - a) and then by (1 - b) is scaling once by
      1 - (a + b - ab). */
  lemma CombinedRate(a: real, b: real, v: real)
    ensures Evaporated(b, Evaporated(a, v)) == Evaporated(a + b - a * b, v)
  {
    assert (1.0 - b) * ((1.0 - a) * v) == ((1.0 - b) * (1.0 - a)) * v;
  }

  /** One trail after two evaporations. */
  lemma EvaporateTwiceAt(t: Trails, a: real, b: real, e: Edge)
    requires e in t
    ensures e in Evaporate(Evaporate(t, a), b) && e in Evaporate(t, a + b - a * b)
    ensures Evaporate(Evaporate(t, a), b)[e] == Evaporate(t, a + b - a * b)[e]
  {
    var once := Evaporate(t, a);
    assert once[e] == Evaporated(a, t[e]);
    assert Evaporate(once, b)[e] == Evaporated(b, once[e]);
    assert Evaporate(t, a + b - a * b)[e] == Evaporated(a + b - a * b, t[e]);
    CombinedRate(a, b, t[e]);
  }

  /** Two evaporations are one evaporation at the combined rate. */
  lemma EvaporateTwice(t: Trails, a: real, b: real)
    ensures Evaporate(Evaporate(t, a), b) == Evaporate(t, a + b - a * b)
  {
    forall e | e in t
      ensures Evaporate(Evaporate(t, a), b)[e] == Evaporate(t, a + b - a * b)[e]
    {
      EvaporateTwiceAt(t, a, b, e);
    }
  }

  /** Adds `amount` to the trail of each listed edge in turn, reading a
      missing edge as 1.0 (the deposit loop of `update_pheromones`). */
  function Deposit(t: Trails, edges: seq<Edge>, amount: real): Trails
    decreases |edges|
  {
    if |edges| == 0 then t
    else
      var t' := Deposit(t, edges[..|edges| - 1], amount);
      var e := edges[|edges| - 1];
      t'[e := Lookup(t', e) + amount]
  }

  /** Only traversed edges can become new keys of a deposit. */
  lemma {:induction false} DepositKeys(t: Trails, edges: seq<Edge>, amount: real)
    ensures Deposit(t, edges, amount).Keys == t.Keys + set e | e in edges
    decreases |edges|
  {
    if |edges| > 0 {
      var init := edges[..|edges| - 1];
      DepositKeys(t, init, amount);
      assert (set e | e in edges) == (set e | e in init) + {edges[|edges| - 1]} by {
        assert edges == init + [edges[|edges| - 1]];
      }
    }
  }

  /** One deposit on `last` raises `e` by `amount` if it is that edge. */
  lemma DepositOne(t: Trails, last: Edge, amount: real, e: Edge)
    ensures Lookup(t[last := Lookup(t, last) + amount], e)
              == Lookup(t, e) + (if last == e then amount else 0.0)
  {
  }

  /** `amount` added `n` times over, starting from 0. */
  function Repeat(n: nat, amount: real): real
  {
    if n == 0 then 0.0 else Repeat(n - 1, amount) + amount
  }

  /** Adding `amount` n times is adding n * amount. */
  lemma {:induction false} RepeatIsProduct(n: nat, amount: real)
    ensures Repeat(n, amount) == (n as real) * amount
  {
    if n > 0 {
      RepeatIsProduct(n - 1, amount);
      assert (n as real) * amount == ((n - 1) as real) * amount + amount;
    }
  }

  /** The deposit, counted: an edge gains `amount` once per traversal. */
  lemma {:induction false} DepositRepeats(t: Trails, edges: seq<Edge>, amount: real, e: Edge)
    ensures Lookup(Deposit(t, edges, amount), e) == Lookup(t, e) + Repeat(Count(edges, e), amount)
    decreases |edges|
  {
    if |edges| > 0 {
      var init := edges[..|edges| - 1];
      DepositRepeats(t, init, amount, e);
      DepositOne(Deposit(t, init, amount), edges[|edges| - 1], amount, e);
    }
  }

  /** A deposit adds `amount` to an edge once per traversal of that edge
      and leaves every other edge as it was. */
  lemma DepositLookup(t: Trails, edges: seq<Edge>, amount: real, e: Edge)
    ensures Lookup(Deposit(t, edges, amount), e) == Lookup(t, e) + (Count(edges, e) as real) * amount
  {
    var c := Count(edges, e);
    DepositRepeats(t, edges, amount, e);
    RepeatIsProduct(c, amount);
  }

  /** `update_pheromones` with its default arguments as the driver calls
      it: evaporate at rate 0.1, then, if the closed length L is positive,
      add Q / L along each directed edge of `best` in traversal order. */
  function Update(t: Trails, best: seq<nat>, dist: Distance, q: real): Trails
  {
    var evaporated := Evaporate(t, 0.1);
    var l := PathLength(best, dist);
    if l > 0.0 then Deposit(evaporated, CyclicEdges(best), q / l) else evaporated
  }

  /** The update is evaporation at rate 0.1 followed, when L > 0, by one
      deposit of Q / L per traversal of each directed edge of `best`. */
  lemma UpdateSpec(t: Trails, best: seq<nat>, dist: Distance, q: real, e: Edge)
    requires PathLength(best, dist) > 0.0
    ensures Lookup(Update(t, best, dist, q), e) == Lookup(Evaporate(t, 0.1), e)
              + (Count(CyclicEdges(best), e) as real) * (q / PathLength(best, dist))
  {
    DepositLookup(Evaporate(t, 0.1), CyclicEdges(best), q / PathLength(best, dist), e);
  }

  /** When the closed length is not positive nothing is deposited. */
  lemma UpdateWithoutDeposit(t: Trails, best: seq<nat>, dist: Distance, q: real)
    requires PathLength(best, dist) <= 0.0
    ensures Update(t, best, dist, q) == Evaporate(t, 0.1)
  {
  }

  /** For a tour of n >= 3 distinct nodes with positive length: every
      traversed directed edge gains exactly Q / L after evaporation, while
      its reverse and every other edge only evaporates. */
  lemma UpdateTouchesExactlyTourEdges(t: Trails, best: seq<nat>, dist: Distance, q: real, a: nat, b: nat)
    requires Distinct(best) && |best| >= 3
    requires PathLength(best, dist) > 0.0
    requires (a, b) in CyclicEdges(best)
    ensures Lookup(Update(t, best, dist, q), (a, b))
            == Lookup(Evaporate(t, 0.1), (a, b)) + q / PathLength(best, dist)
    ensures Lookup(Update(t, best, dist, q), (b, a)) == Lookup(Evaporate(t, 0.1), (b, a))
  {
    CyclicEdgesOnce(best, (a, b));
    CyclicEdgesOnce(best, (b, a));
    ReverseEdgeNotTraversed(best, a, b);
    UpdateSpec(t, best, dist, q, (a, b));
    UpdateSpec(t, best, dist, q, (b, a));
  }

  /** Trails whose keys are the ordered pairs over n nodes keep exactly
      those keys when updated with a tour of all n nodes. */
  lemma UpdateKeepsKeys(t: Trails, best: seq<nat>, dist: Distance, q: real, n: nat)
    requires t.Keys == EdgeSet(n)
    requires IsPermutationOfRange(best, n) && n >= 2
    ensures Update(t, best, dist, q).Keys == EdgeSet(n)
  {
    PermutationOfRangeShape(best, n);
    var es := CyclicEdges(best);
    forall e | e in es
      ensures e in EdgeSet(n)
    {
      var i :| 0 <= i < |es| && es[i] == e;
      NextIndex(i, n);
      assert e.0 == best[i] && e.1 == best[if i + 1 < n then i + 1 else 0];
    }
    if PathLength(best, dist) > 0.0 {
      DepositKeys(Evaporate(t, 0.1), es, q / PathLength(best, dist));
    }
  }

  ghost predicate AllPositive(t: Trails)
  {
    forall e :: e in t ==> t[e] > 0.0
  }

  /** Positive trails stay positive: evaporation at 0.1 keeps 90% and a
      deposit only adds a positive amount. */
  lemma UpdateKeepsPositive(t: Trails, best: seq<nat>, dist: Distance, q: real)
    requires AllPositive(t) && q > 0.0
    ensures AllPositive(Update(t, best, dist, q))
  {
    var ev := Evaporate(t, 0.1);
    assert AllPositive(ev);
    var l := PathLength(best, dist);
    if l > 0.0 {
      DepositKeepsPositive(ev, CyclicEdges(best), q / l);
    }
  }

  lemma {:induction false} DepositKeepsPositive(t: Trails, edges: seq<Edge>, amount: real)
    requires AllPositive(t) && amount >= 0.0
    ensures AllPositive(Deposit(t, edges, amount))
    decreases |edges|
  {
    if |edges| > 0 {
      DepositKeepsPositive(t, edges[..|edges| - 1], amount);
    }
  }
}

=== FILE: aco_roads.dfy ===
/** Road generation (`generate_roads` in lab3/tsp_3d_generator.py): every
    unordered pair of points gets a road i -> j, and a coin decides
    whether it also gets the reverse road j -> i. */
module Roads {
  import opened Seqs
  import opened Tours

  /** A directed road (from, to, length). */
  datatype Road = Road(from: nat, to: nat, length: real)

  /** The pairs (i, j) with i < j < n that start at i, in increasing j. */
  function Row(i: nat, n: nat): (pairs: seq<Edge>)
    ensures |pairs| == if i + 1 < n then n - i - 1 else 0
    ensures forall k :: 0 <= k < |pairs| ==> pairs[k] == (i, i + 1 + k)
  {
    if i + 1 >= n then [] else seq(n - i - 1, k requires 0 <= k < n - i - 1 => (i, i + 1 + k))
  }

  /** `combinations(range(n), 2)`: all pairs i < j < n in lexicographic
      order, built row by row from i = 0. */
  function Pairs(n: nat, i: nat): (pairs: seq<Edge>)
    decreases n - i
  {
    if i >= n then [] else Row(i, n) + Pairs(n, i + 1)
  }

  /** Pairs lists the pairs i <= a < b < n and nothing else. */
  lemma {:induction false} PairsMembers(n: nat, i: nat)
    ensures forall p: Edge :: p in Pairs(n, i) <==> i <= p.0 < p.1 < n
    decreases n - i
  {
    if i < n {
      PairsMembers(n, i + 1);
      var row := Row(i, n);
      var rest := Pairs(n, i + 1);
      assert Pairs(n, i) == row + rest;
      forall p: Edge
        ensures p in row <==> p.0 == i < p.1 < n
      {
        if p.0 == i < p.1 < n {
          assert row[p.1 - i - 1] == p;
        }
      }
    }
  }

  /** Pairs is in strictly increasing lexicographic order, so it lists
      each pair once. */
  lemma {:induction false} PairsOrdered(n: nat, i: nat)
    ensures forall a, b :: 0 <= a < b < |Pairs(n, i)| ==> LexLess(Pairs(n, i)[a], Pairs(n, i)[b])
    decreases n - i
  {
    if i < n {
      PairsOrdered(n, i + 1);
      PairsMembers(n, i + 1);
      var row := Row(i, n);
      var rest := Pairs(n, i + 1);
      var all := row + rest;
      assert Pairs(n, i) == all;
      forall a, b | 0 <= a < b < |all|
        ensures LexLess(all[a], all[b])
      {
        if b < |row| {
          assert all[a] == row[a] && all[b] == row[b];
        } else if a < |row| {
          assert all[a] == row[a];
          assert all[b] in rest;
        } else {
          assert all[a] == rest[a - |row|] && all[b] == rest[b - |row|];
        }
      }
    }
  }

  /** Strict lexicographic order on pairs. */
  predicate LexLess(p: Edge, q: Edge)
  {
    p.0 < q.0 || (p.0 == q.0 && p.1 < q.1)
  }

  /** The `p[0] < p[1]` filter over the combinations keeps every pair. */
  lemma FilterKeepsAllPairs(n: nat)
    ensures Filter(Pairs(n, 0), (p: Edge) => p.0 < p.1) == Pairs(n, 0)
  {
    var pairs := Pairs(n, 0);
    var ordered := (p: Edge) => p.0 < p.1;
    PairsMembers(n, 0);
    assert forall k :: 0 <= k < |pairs| ==> ordered(pairs[k]) by {
      forall k | 0 <= k < |pairs| ensures ordered(pairs[k]) {
        assert pairs[k] in pairs;
      }
    }
    FilterAll(pairs, ordered);
  }

  /** The roads of one pair: i -> j always, j -> i when the coin lands
      below the ratio. */
  function PairRoads(p: Edge, dist: Distance, coin: Edge -> real, ratio: real): (roads: seq<Road>)
    ensures |roads| >= 1 && roads[0] == Road(p.0, p.1, dist(p.0, p.1))
    ensures |roads| == 2 <==> coin(p) < ratio
    ensures |roads| == 2 ==> roads[1] == Road(p.1, p.0, dist(p.0, p.1))
  {
    var d := dist(p.0, p.1);
    if coin(p) < ratio then [Road(p.0, p.1, d), Road(p.1, p.0, d)] else [Road(p.0, p.1, d)]
  }

  /** The roads of a list of pairs, in order. */
  function RoadsOf(pairs: seq<Edge>, dist: Distance, coin: Edge -> real, ratio: real): (roads: seq<Road>)
    ensures |roads| >= |pairs|
  {
    if |pairs| == 0 then [] else RoadsOf(pairs[..|pairs| - 1], dist, coin, ratio) + PairRoads(pairs[|pairs| - 1], dist, coin, ratio)
  }

  /** `generate_roads`: nothing for fewer than two points; otherwise the
      roads of every pair i < j in lexicographic order. */
  function GenerateRoads(n: nat, dist: Distance, coin: Edge -> real, ratio: real): (roads: seq<Road>)
    ensures n < 2 ==> roads == []
  {
    if n < 2 then [] else RoadsOf(Pairs(n, 0), dist, coin, ratio)
  }

  /** A road i -> j is generated exactly for i < j < n, and a road j -> i
      exactly when moreover the coin of (i, j) is below the ratio; every
      road carries the distance of its pair. */
  lemma {:induction false} RoadsOfSpec(pairs: seq<Edge>, dist: Distance, coin: Edge -> real, ratio: real, r: Road)
    requires forall k :: 0 <= k < |pairs| ==> pairs[k].0 < pairs[k].1
    ensures r in RoadsOf(pairs, dist, coin, ratio) <==>
      || ((r.from, r.to) in pairs && r.length == dist(r.from, r.to))
      || ((r.to, r.from) in pairs && coin((r.to, r.from)) < ratio && r.length == dist(r.to, r.from))
  {
    if |pairs| > 0 {
      var init := pairs[..|pairs| - 1];
      var last := pairs[|pairs| - 1];
      assert pairs == init + [last];
      RoadsOfSpec(init, dist, coin, ratio, r);
      var pr := PairRoads(last, dist, coin, ratio);
      assert r in pr <==> r == pr[0] || (|pr| == 2 && r == pr[1]);
    }
  }

  /** Every unordered pair gets its forward road, and its reverse road
      exactly when the coin says so; no road joins a point to itself. */
  lemma GenerateRoadsSpec(n: nat, dist: Distance, coin: Edge -> real, ratio: real, r: Road)
    requires n >= 2
    ensures r in GenerateRoads(n, dist, coin, ratio) <==>
      || (r.from < r.to < n && r.length == dist(r.from, r.to))
      || (r.to < r.from < n && coin((r.to, r.from)) < ratio && r.length == dist(r.to, r.from))
    ensures r in GenerateRoads(n, dist, coin, ratio) ==> r.from != r.to
  {
    var pairs := Pairs(n, 0);
    PairsMembers(n, 0);
    forall k | 0 <= k < |pairs| ensures pairs[k].0 < pairs[k].1 {
      assert pairs[k] in pairs;
    }
    RoadsOfSpec(pairs, dist, coin, ratio, r);
  }
}

=== FILE: aco_tours.dfy ===
/** Closed tours of the Ant Colony Optimisation engine
    (lab3/tsp_3d_generator.py): the distance function, the closed-path
    length and the directed edges a tour traverses. */
module Tours {
  import opened Seqs

  /** Distance between two nodes. The source computes it as the Euclidean
      distance of two 3-D points; here it is an abstract function. */
  type Distance = (nat, nat) -> real

  ghost predicate NonNegative(dist: Distance)
  {
    forall a: nat, b: nat :: dist(a, b) >= 0.0
  }

  type Edge = (nat, nat)

  /** The n directed edges of a closed tour, in traversal order:
      (path[i], path[(i + 1) mod n]). */
  function CyclicEdges(path: seq<nat>): (es: seq<Edge>)
    ensures |es| == |path|
  {
    seq(|path|, i requires 0 <= i < |path| => (path[i], path[(i + 1) % |path|]))
  }

  /** The |path| - 1 edges between consecutive entries. */
  function OpenEdges(path: seq<nat>): (es: seq<Edge>)
    ensures |es| == if |path| == 0 then 0 else |path| - 1
  {
    if |path| == 0 then []
    else seq(|path| - 1, i requires 0 <= i < |path| - 1 => (path[i], path[i + 1]))
  }

  function EdgeLengths(es: seq<Edge>, dist: Distance): (ls: seq<real>)
    ensures |ls| == |es|
  {
    Map(es, (e: Edge) => dist(e.0, e.1))
  }

  /** Sum of consecutive distances, accumulated left to right. */
  function OpenLength(path: seq<nat>, dist: Distance): real
    decreases |path|
  {
    if |path| < 2 then 0.0
    else OpenLength(path[..|path| - 1], dist) + dist(path[|path| - 2], path[|path| - 1])
  }

  /** `calculate_path_length`: 0.0 for fewer than two nodes, otherwise the
      consecutive distances plus the closing edge back to the start. */
  function PathLength(path: seq<nat>, dist: Distance): real
  {
    if |path| < 2 then 0.0
    else OpenLength(path, dist) + dist(path[|path| - 1], path[0])
  }

  lemma {:induction false} OpenLengthIsSum(path: seq<nat>, dist: Distance)
    ensures OpenLength(path, dist) == Sum(EdgeLengths(OpenEdges(path), dist))
    decreases |path|
  {
    if |path| >= 2 {
      var init := path[..|path| - 1];
      OpenLengthIsSum(init, dist);
      var es := OpenEdges(path);
      assert es[..|es| - 1] == OpenEdges(init);
      var ls := EdgeLengths(es, dist);
      assert ls[..|ls| - 1] == EdgeLengths(OpenEdges(init), dist);
    } else if |path| == 1 {
      assert EdgeLengths(OpenEdges(path), dist) == [];
    }
  }

  /** The closed-path length is the sum of the lengths of exactly the n
      directed edges that a pheromone deposit reinforces. */
  lemma PathLengthIsCyclicSum(path: seq<nat>, dist: Distance)
    requires |path| >= 2
    ensures PathLength(path, dist) == Sum(EdgeLengths(CyclicEdges(path), dist))
  {
    var m := |path|;
    OpenLengthIsSum(path, dist);
    var ce := CyclicEdges(path);
    var oe := OpenEdges(path);
    assert ce[..m - 1] == oe by {
      forall i | 0 <= i < m - 1
        ensures ce[i] == oe[i]
      {
        NextIndex(i, m);
      }
    }
    var ls := EdgeLengths(ce, dist);
    assert ls[..m - 1] == EdgeLengths(oe, dist);
    NextIndex(m - 1, m);
    assert ls[m - 1] == dist(path[m - 1], path[0]);
  }

  /** Successor of a position in a cyclic sequence of length m. */
  lemma NextIndex(i: nat, m: nat)
    requires i < m
    ensures (i + 1) % m == if i + 1 < m then i + 1 else 0
  {
  }

  lemma {:induction false} OpenLengthNonNegative(path: seq<nat>, dist: Distance)
    requires NonNegative(dist)
    ensures OpenLength(path, dist) >= 0.0
    decreases |path|
  {
    if |path| >= 2 {
      OpenLengthNonNegative(path[..|path| - 1], dist);
      assert dist(path[|path| - 2], path[|path| - 1]) >= 0.0;
    }
  }

  /** With non-negative distances every closed-path length is >= 0. */
  lemma PathLengthNonNegative(path: seq<nat>, dist: Distance)
    requires NonNegative(dist)
    ensures PathLength(path, dist) >= 0.0
  {
    OpenLengthNonNegative(path, dist);
    if |path| >= 2 {
      assert dist(path[|path| - 1], path[0]) >= 0.0;
    }
  }

  /** In a tour without repeated nodes each directed edge is traversed at
      most once. */
  lemma CyclicEdgesOnce(path: seq<nat>, e: Edge)
    requires Distinct(path)
    ensures Count(CyclicEdges(path), e) == if e in CyclicEdges(path) then 1 else 0
  {
    var es := CyclicEdges(path);
    assert Distinct(es) by {
      forall i, j | 0 <= i < j < |es|
        ensures es[i] != es[j]
      {
        assert es[i].0 == path[i] && es[j].0 == path[j];
      }
    }
    DistinctCountOnce(es, e);
  }

  lemma {:induction false} DistinctCountOnce<T>(s: seq<T>, x: T)
    requires Distinct(s)
    ensures Count(s, x) == if x in s then 1 else 0
    decreases |s|
  {
    if |s| > 0 {
      var init := s[..|s| - 1];
      DistinctCountOnce(init, x);
      assert s == init + [s[|s| - 1]];
      if s[|s| - 1] == x {
        assert x !in init;
      }
    }
  }

  /** In a tour of three or more distinct nodes the reverse of a traversed
      edge is never traversed, so a deposit is strictly one-directional. */
  lemma ReverseEdgeNotTraversed(path: seq<nat>, a: nat, b: nat)
    requires Distinct(path) && |path| >= 3
    requires (a, b) in CyclicEdges(path)
    ensures (b, a) !in CyclicEdges(path)
  {
    var m := |path|;
    var es := CyclicEdges(path);
    var i :| 0 <= i < m && es[i] == (a, b);
    NextIndex(i, m);
    var i' := if i + 1 < m then i + 1 else 0;
    assert path[i] == a && path[i'] == b;
    forall j | 0 <= j < m
      ensures es[j] != (b, a)
    {
      NextIndex(j, m);
    }
  }
}

=== FILE: aco_transition.dfy ===
/** The roulette-wheel transition rule of the Ant Colony Optimisation
    engine (`transition_probability` in lab3/tsp_3d_generator.py). The set
    `unvisited` is a sequence listing it in its enumeration order; the
    random draws are arguments. */
module Transition {
  import opened Seqs
  import opened Wrappers
  import opened Tours
  import opened Pheromones

  /** `p ** alpha * (1 / d) ** beta` for a trail `p` and an inverse
      distance `1 / d`; the exponents are folded into this function. */
  type Weigh = (real, real) -> real

  /** Score of moving from `current` to `j`; a zero distance scores 0. */
  function Score(t: Trails, dist: Distance, weigh: Weigh, current: nat, j: nat): real
  {
    var d := dist(current, j);
    if d == 0.0 then 0.0 else weigh(Lookup(t, (current, j)), 1.0 / d)
  }

  function Scores(t: Trails, dist: Distance, weigh: Weigh, current: nat, unvisited: seq<nat>): (ss: seq<real>)
    ensures |ss| == |unvisited|
  {
    Map(unvisited, j => Score(t, dist, weigh, current, j))
  }

  /** The accumulation loop: the first index whose running sum of
      probabilities reaches `r`, or None when no index does. */
  function RouletteWalk(probs: seq<real>, r: real, k: nat, cumulative: real): (i: Option<nat>)
    requires k <= |probs|
    ensures i.Some? ==> k <= i.value < |probs|
    decreases |probs| - k
  {
    if k == |probs| then None
    else if r <= cumulative + probs[k] then Some(k)
    else RouletteWalk(probs, r, k + 1, cumulative + probs[k])
  }

  /** Probability mass of the candidates up to and including index m. */
  function Cumulative(probs: seq<real>, m: nat): real
    requires m < |probs|
  {
    Sum(probs[..m + 1])
  }

  /** Scores divided by their total: the selection probabilities. */
  function Normalise(scores: seq<real>, total: real): (probs: seq<real>)
    requires total != 0.0
    ensures |probs| == |scores|
  {
    Map(scores, (s: real) => s / total)
  }

  /** The walk returns the FIRST index whose prefix sum reaches `r`, and
      None exactly when no prefix sum does. */
  lemma RouletteWalkFirstReach(probs: seq<real>, r: real)
    ensures RouletteWalk(probs, r, 0, 0.0).Some? ==>
      var i := RouletteWalk(probs, r, 0, 0.0).value;
      r <= Cumulative(probs, i) && forall k :: 0 <= k < i ==> r > Cumulative(probs, k)
    ensures RouletteWalk(probs, r, 0, 0.0).None? ==>
      forall k :: 0 <= k < |probs| ==> r > Cumulative(probs, k)
  {
    assert probs[..0] == [];
    RouletteWalkFrom(probs, r, 0, 0.0);
  }

  lemma {:induction false} RouletteWalkFrom(probs: seq<real>, r: real, k: nat, cumulative: real)
    requires k <= |probs|
    requires cumulative == Sum(probs[..k])
    requires forall m :: 0 <= m < k ==> r > Cumulative(probs, m)
    ensures RouletteWalk(probs, r, k, cumulative).Some? ==>
      var i := RouletteWalk(probs, r, k, cumulative).value;
      r <= Cumulative(probs, i) && forall m :: 0 <= m < i ==> r > Cumulative(probs, m)
    ensures RouletteWalk(probs, r, k, cumulative).None? ==>
      forall m :: 0 <= m < |probs| ==> r > Cumulative(probs, m)
    decreases |probs| - k
  {
    if k < |probs| {
      assert probs[..k + 1][..k] == probs[..k];
      assert Cumulative(probs, k) == cumulative + probs[k];
      if r > cumulative + probs[k] {
        RouletteWalkFrom(probs, r, k + 1, cumulative + probs[k]);
      }
    }
  }

  /** `transition_probability`: -1 for an empty `unvisited`; otherwise the
      uniform choice `unvisited[pick mod |unvisited|]` when all scores sum
      to 0, else the roulette walk with the draw `r` over the normalised
      scores, falling back to the last candidate. */
  function ChooseNext(t: Trails, dist: Distance, weigh: Weigh, current: nat,
                      unvisited: seq<nat>, r: real, pick: nat): (next: int)
    ensures next == -1 <==> |unvisited| == 0
    ensures |unvisited| > 0 ==> next in unvisited
  {
    if |unvisited| == 0 then -1
    else
      var scores := Scores(t, dist, weigh, current, unvisited);
      var total := Sum(scores);
      if total == 0.0 then unvisited[pick % |unvisited|]
      else
        var probs := Normalise(scores, total);
        match RouletteWalk(probs, r, 0, 0.0)
        case Some(k) => unvisited[k]
        case None => unvisited[|unvisited| - 1]
  }

  lemma {:induction false} SumScaled(s: seq<real>, total: real)
    requires total != 0.0
    ensures Sum(Normalise(s, total)) == Sum(s) / total
    decreases |s|
  {
    if |s| > 0 {
      var init := s[..|s| - 1];
      SumScaled(init, total);
      var m := Normalise(s, total);
      assert m[..|m| - 1] == Normalise(init, total);
      assert (Sum(init) + s[|s| - 1]) / total == Sum(init) / total + s[|s| - 1] / total;
    }
  }

  /** In exact arithmetic the normalised probabilities sum to 1, so for a
      draw r in [0, 1) the walk always stops at a candidate: the fallback
      to the last candidate only guards against float rounding. */
  lemma RouletteNeverFallsBack(scores: seq<real>, r: real)
    requires |scores| > 0 && Sum(scores) != 0.0
    requires 0.0 <= r < 1.0
    ensures RouletteWalk(Normalise(scores, Sum(scores)), r, 0, 0.0).Some?
  {
    var probs := Normalise(scores, Sum(scores));
    SumScaled(scores, Sum(scores));
    RouletteWalkFirstReach(probs, r);
    assert probs[..|probs| - 1 + 1] == probs;
    assert Sum(scores) / Sum(scores) == 1.0;
    assert Cumulative(probs, |probs| - 1) == 1.0;
  }

  /** With a positive draw the walk never stops at a candidate whose
      probability is 0, such as one at zero distance. (A draw of exactly
      0.0 stops at the first candidate whatever its score.) */
  lemma PositiveDrawSkipsZeroScores(probs: seq<real>, r: real)
    requires r > 0.0
    requires RouletteWalk(probs, r, 0, 0.0).Some?
    ensures probs[RouletteWalk(probs, r, 0, 0.0).value] != 0.0
  {
    var i := RouletteWalk(probs, r, 0, 0.0).value;
    RouletteWalkFirstReach(probs, r);
    assert probs[..i + 1][..i] == probs[..i];
    assert Cumulative(probs, i) == Sum(probs[..i]) + probs[i];
    if i > 0 {
      assert r > Cumulative(probs, i - 1);
      assert probs[..i - 1 + 1] == probs[..i];
    } else {
      assert probs[..0] == [];
    }
  }

  /** When every candidate is at distance 0 from `current` all scores are
      0 and the rule falls back to the uniform choice. */
  lemma AllCoincidentFallsBackToUniform(t: Trails, dist: Distance, weigh: Weigh, current: nat,
                                        unvisited: seq<nat>, r: real, pick: nat)
    requires |unvisited| > 0
    requires forall j :: j in unvisited ==> dist(current, j) == 0.0
    ensures ChooseNext(t, dist, weigh, current, unvisited, r, pick) == unvisited[pick % |unvisited|]
  {
    var scores := Scores(t, dist, weigh, current, unvisited);
    forall i | 0 <= i < |scores|
      ensures scores[i] == 0.0
    {
      assert unvisited[i] in unvisited;
    }
    AllZeroSum(scores);
  }

  lemma {:induction false} AllZeroSum(s: seq<real>)
    requires forall i :: 0 <= i < |s| ==> s[i] == 0.0
    ensures Sum(s) == 0.0
    decreases |s|
  {
    if |s| > 0 {
      AllZeroSum(s[..|s| - 1]);
    }
  }
}

=== FILE: budget_tracker.dfy ===
/** The budget tracker of lab2/budget_tracker.py: the input validation of
    `add_transaction`, the balance update, the sign rule of a transaction's
    text and the last-three view. The JSON file and the menu are not
    modelled. */
module BudgetTracker {
  import opened Seqs
  import opened Wrappers
  import opened Text

  const Income: string := "доход"
  const Expense: string := "расход"

  datatype Transaction = Transaction(description: string, amount: real, kind: string, category: string)

  /** The first character of `Transaction.__str__`. */
  function Sign(t: Transaction): (c: char)
    ensures c == '+' <==> t.kind == Income
    ensures c == '+' || c == '-'
  {
    if t.kind == Income then '+' else '-'
  }

  datatype Tracker = Tracker(transactions: seq<Transaction>, balance: real)

  /** The signed contribution of one transaction to the balance. */
  function Signed(t: Transaction): real
  {
    if t.kind == Income then t.amount else -t.amount
  }

  /** The balance a list of transactions gives from zero. */
  function Net(ts: seq<Transaction>): real
    decreases |ts|
  {
    if |ts| == 0 then 0.0 else Net(ts[..|ts| - 1]) + Signed(ts[|ts| - 1])
  }

  /** The description and category loops: a line (already stripped) is
      accepted when it is non-empty. */
  function Filled(line: string): bool
  {
    Strip(line) != []
  }

  /** The amount loop: `float(line)` (None where it raised ValueError) is
      accepted when above zero. */
  function PositiveAmount(parsed: Option<real>): bool
  {
    parsed.Some? && parsed.value > 0.0
  }

  /** The type loop: "1" is income, "2" an expense, anything else is
      asked again. */
  function ParseKind(line: string): (r: Option<string>)
    ensures r == Some(Income) <==> Strip(line) == "1"
    ensures r == Some(Expense) <==> Strip(line) == "2"
    ensures r.None? <==> Strip(line) != "1" && Strip(line) != "2"
  {
    if Strip(line) == "1" then Some(Income)
    else if Strip(line) == "2" then Some(Expense)
    else None
  }

  function KnownKind(line: string): bool
  {
    ParseKind(line).Some?
  }

  /** The four answers of one `add_transaction`, each line stream in the
      order typed. */
  datatype Answers = Answers(descriptions: seq<string>, amounts: seq<Option<real>>, kinds: seq<string>, categories: seq<string>)

  /** `add_transaction`: the first acceptable answer of each loop makes
      the transaction, which is appended, and the balance moves by its
      amount; None when a stream runs out before an answer is accepted. */
  function AddTransaction(tr: Tracker, a: Answers): (r: Option<Tracker>)
    ensures r.Some? <==>
      && FirstIndex(a.descriptions, Filled).Some?
      && FirstIndex(a.amounts, PositiveAmount).Some?
      && FirstIndex(a.kinds, KnownKind).Some?
      && FirstIndex(a.categories, Filled).Some?
  {
    match (FirstIndex(a.descriptions, Filled), FirstIndex(a.amounts, PositiveAmount), FirstIndex(a.kinds, KnownKind), FirstIndex(a.categories, Filled))
    case (Some(d), Some(m), Some(k), Some(c)) =>
      var t := Transaction(Strip(a.descriptions[d]), a.amounts[m].value, ParseKind(a.kinds[k]).value, Strip(a.categories[c]));
      var delta := if t.kind == Income then t.amount else -t.amount;
      Some(Tracker(tr.transactions + [t], tr.balance + delta))
    case _ => None
  }

  /** A transaction added through the loops has a positive amount, a
      known kind and non-blank description and category; it is appended
      as the one new last element; the balance rises by the amount for
      income and falls by it for an expense. */
  lemma AddTransactionSpec(tr: Tracker, a: Answers)
    ensures AddTransaction(tr, a).Some? ==>
      var tr' := AddTransaction(tr, a).value;
      var t := tr'.transactions[|tr'.transactions| - 1];
      && |tr'.transactions| == |tr.transactions| + 1
      && tr'.transactions[..|tr.transactions|] == tr.transactions
      && t.amount > 0.0
      && (t.kind == Income || t.kind == Expense)
      && t.description != [] && t.category != []
      && (t.kind == Income ==> tr'.balance == tr.balance + t.amount)
      && (t.kind == Expense ==> tr'.balance == tr.balance - t.amount)
    ensures AddTransaction(tr, a).Some? ==>
      var tr' := AddTransaction(tr, a).value;
      var t := tr'.transactions[|tr'.transactions| - 1];
      && t.description == Strip(a.descriptions[FirstIndex(a.descriptions, Filled).value])
      && t.amount == a.amounts[FirstIndex(a.amounts, PositiveAmount).value].value
      && t.kind == ParseKind(a.kinds[FirstIndex(a.kinds, KnownKind).value]).value
      && t.category == Strip(a.categories[FirstIndex(a.categories, Filled).value])
  {
    if AddTransaction(tr, a).Some? {
      var tr' := AddTransaction(tr, a).value;
      assert tr'.transactions[..|tr.transactions|] == tr.transactions;
    }
  }

  /** The stored balance agrees with the transactions. */
  predicate Consistent(tr: Tracker)
  {
    tr.balance == Net(tr.transactions)
  }

  /** Adding a transaction keeps the balance equal to the signed sum of
      all transactions. */
  lemma AddTransactionKeepsBalance(tr: Tracker, a: Answers)
    ensures Consistent(tr) && AddTransaction(tr, a).Some? ==> Consistent(AddTransaction(tr, a).value)
  {
    if Consistent(tr) && AddTransaction(tr, a).Some? {
      var tr' := AddTransaction(tr, a).value;
      AddTransactionSpec(tr, a);
      var ts := tr'.transactions;
      var t := ts[|ts| - 1];
      assert ts[..|ts| - 1] == tr.transactions;
      assert Net(ts) == Net(tr.transactions) + Signed(t);
      assert tr'.balance == tr.balance + Signed(t);
    }
  }

  /** The operations `show_balance` lists: the last three, or all when
      there are fewer. */
  function Recent(tr: Tracker): (r: seq<Transaction>)
    ensures |r| <= 3
    ensures |r| == if |tr.transactions| < 3 then |tr.transactions| else 3
    ensures forall i :: 0 <= i < |r| ==> r[i] == tr.transactions[|tr.transactions| - |r| + i]
  {
    LastN(tr.transactions, 3)
  }

  /** After an addition the newest transaction is the last one shown. */
  lemma RecentShowsNewest(tr: Tracker, a: Answers)
    ensures AddTransaction(tr, a).Some? ==>
      var tr' := AddTransaction(tr, a).value;
      Recent(tr')[|Recent(tr')| - 1] == tr'.transactions[|tr'.transactions| - 1]
  {
  }
}

=== FILE: bulls_and_cows.dfy ===
/** The Bulls and Cows game (lab1/BullsAndCows.py). The source calls a
    digit in the right place a "cow" and a digit present elsewhere a
    "bull" (the reverse of the usual names); the model keeps its names. */
module BullsAndCows {
  import opened Seqs
  import opened Wrappers

  const Digits: string := "0123456789"

  /** An ASCII decimal digit. */
  predicate IsDigit(c: char)
  {
    '0' <= c <= '9'
  }

  /** The set of characters of `s`. */
  function CharSet(s: string): set<char>
  {
    set c | c in s
  }

  /** `len(set(s)) == len(s)` exactly when no character repeats. */
  lemma {:induction false} CharSetSize(s: string)
    ensures |CharSet(s)| <= |s|
    ensures |CharSet(s)| == |s| <==> Distinct(s)
    decreases |s|
  {
    if |s| > 0 {
      var init := s[..|s| - 1];
      var last := s[|s| - 1];
      CharSetSize(init);
      assert CharSet(s) == CharSet(init) + {last};
      if last in init {
        assert CharSet(s) == CharSet(init);
        var i :| 0 <= i < |init| && init[i] == last;
        assert s[i] == s[|s| - 1];
      } else {
        assert Distinct(s) <==> Distinct(init) by {
          if Distinct(init) {
            forall i, j | 0 <= i < j < |s|
              ensures s[i] != s[j]
            {
              if j < |s| - 1 {
                assert s[i] == init[i] && s[j] == init[j];
              } else {
                assert s[i] == init[i];
              }
            }
          }
          if Distinct(s) {
            forall i, j | 0 <= i < j < |init|
              ensures init[i] != init[j]
            {
              assert s[i] == init[i] && s[j] == init[j];
            }
          }
        }
      }
    }
  }

  /** `generate_number(length)`: the first `length` characters of a
      shuffle of the ten digits (`numbers[:length]`), the shuffle being
      given. */
  function GenerateNumber(length: int, shuffled: string): (secret: string)
    requires multiset(shuffled) == multiset(Digits)
  {
    Take(shuffled, length)
  }

  /** The ten digits, each once. */
  lemma DigitsDistinct()
    ensures Distinct(Digits)
    ensures forall i :: 0 <= i < |Digits| ==> IsDigit(Digits[i])
  {
  }

  /** A shuffle of the ten digits holds only digits, each once. */
  lemma ShuffledDigits(shuffled: string)
    requires multiset(shuffled) == multiset(Digits)
    ensures Distinct(shuffled)
    ensures forall i :: 0 <= i < |shuffled| ==> IsDigit(shuffled[i])
  {
    DigitsDistinct();
    DistinctPermutation(Digits, shuffled);
    forall i | 0 <= i < |shuffled|
      ensures IsDigit(shuffled[i])
    {
      assert shuffled[i] in multiset(Digits);
      var j :| 0 <= j < |Digits| && Digits[j] == shuffled[i];
    }
  }

  /** A generated number has min(length, 10) characters for length >= 0,
      all of them digits and pairwise distinct. */
  lemma GenerateNumberSpec(length: int, shuffled: string)
    requires multiset(shuffled) == multiset(Digits)
    ensures var secret := GenerateNumber(length, shuffled);
      && (length >= 0 ==> |secret| == if length < 10 then length else 10)
      && (forall i :: 0 <= i < |secret| ==> IsDigit(secret[i]))
      && Distinct(secret)
  {
    ShuffledDigits(shuffled);
    assert |shuffled| == 10 by {
      assert |multiset(shuffled)| == |multiset(Digits)|;
    }
  }

  /** Positions where the guess has the secret's digit. */
  function CountInPlace(secret: string, guess: string): (n: nat)
    requires |guess| >= |secret|
    ensures n <= |secret|
    decreases |secret|
  {
    if |secret| == 0 then 0
    else
      var k := |secret| - 1;
      CountInPlace(secret[..k], guess) + (if guess[k] == secret[k] then 1 else 0)
  }

  /** Positions where the guess has a digit of the secret, but not the
      one in that place. */
  function CountElsewhere(secret: string, guess: string, upTo: nat): (n: nat)
    requires upTo <= |secret| <= |guess|
    ensures n <= upTo
    decreases upTo
  {
    if upTo == 0 then 0
    else
      var k := upTo - 1;
      CountElsewhere(secret, guess, k) + (if guess[k] != secret[k] && guess[k] in secret then 1 else 0)
  }

  /** `count_cows_and_bulls`: the loop over the secret's positions. The
      guess must be at least as long as the secret (the caller only passes
      guesses of the secret's length; a shorter one raises IndexError). */
  method CountCowsAndBulls(secret: string, guess: string) returns (cows: nat, bulls: nat)
    requires |guess| >= |secret|
    ensures cows == CountInPlace(secret, guess)
    ensures bulls == CountElsewhere(secret, guess, |secret|)
    ensures cows + bulls <= |secret|
  {
    cows, bulls := 0, 0;
    for i := 0 to |secret|
      invariant cows == CountInPlace(secret[..i], guess)
      invariant bulls == CountElsewhere(secret, guess, i)
      invariant cows + bulls <= i
    {
      assert secret[..i + 1][..i] == secret[..i];
      if guess[i] == secret[i] {
        cows := cows + 1;
      } else if guess[i] in secret {
        bulls := bulls + 1;
      }
    }
    assert secret[..|secret|] == secret;
  }

  /** Every position is a cow exactly when the guess equals the secret
      (for guesses of the secret's length): the winning condition. */
  lemma {:induction false} AllInPlaceIffEqual(secret: string, guess: string)
    requires |guess| == |secret|
    ensures CountInPlace(secret, guess) == |secret| <==> guess == secret
    decreases |secret|
  {
    if |secret| > 0 {
      var k := |secret| - 1;
      AllInPlaceIffEqual(secret[..k], guess[..k]);
      InPlacePrefix(secret[..k], guess, guess[..k]);
      if guess[..k] == secret[..k] && guess[k] == secret[k] {
        assert guess == guess[..k] + [guess[k]];
        assert secret == secret[..k] + [secret[k]];
      }
    }
  }

  /** CountInPlace looks only at the guess positions below |secret|. */
  lemma {:induction false} InPlacePrefix(secret: string, guess: string, guess': string)
    requires |guess| >= |secret| && |guess'| >= |secret|
    requires forall i :: 0 <= i < |secret| ==> guess[i] == guess'[i]
    ensures CountInPlace(secret, guess) == CountInPlace(secret, guess')
    decreases |secret|
  {
    if |secret| > 0 {
      InPlacePrefix(secret[..|secret| - 1], guess, guess');
    }
  }

  /** `valid_player`: `isdigit()` (false for the empty string), the
      length, and `len(set(guess)) == length`. */
  function ValidPlayer(guess: string, length: int): bool
  {
    && |guess| > 0 && (forall i :: 0 <= i < |guess| ==> IsDigit(guess[i]))
    && |guess| == length
    && |CharSet(guess)| == length
  }

  /** A guess is valid exactly when it is `length` digits, none repeated
      (so length >= 1). */
  lemma ValidPlayerSpec(guess: string, length: int)
    ensures ValidPlayer(guess, length) <==>
      length >= 1 && |guess| == length && (forall i :: 0 <= i < |guess| ==> IsDigit(guess[i])) && Distinct(guess)
  {
    CharSetSize(guess);
  }

  /** `play_game` over the guesses typed: the number of valid guesses up
      to and including the first that hits every position, or None if
      the guesses run out first. Invalid guesses are skipped uncounted. */
  function PlayGame(secret: string, length: int, guesses: seq<string>, attempts: nat): (r: Option<nat>)
    requires |secret| == length
    ensures r.Some? ==> r.value > attempts
    decreases |guesses|
  {
    if |guesses| == 0 then None
    else if !ValidPlayer(guesses[0], length) then PlayGame(secret, length, guesses[1..], attempts)
    else if CountInPlace(secret, guesses[0]) == length then Some(attempts + 1)
    else PlayGame(secret, length, guesses[1..], attempts + 1)
  }

  /** The valid guesses in a list. */
  function ValidGuesses(guesses: seq<string>, length: int): seq<string>
  {
    Filter(guesses, (g: string) => ValidPlayer(g, length))
  }

  /** A valid guess equal to the secret. */
  function Hit(secret: string, length: int): string -> bool
  {
    (g: string) => ValidPlayer(g, length) && g == secret
  }

  /** What `play_game` returns, read off the first correct valid guess:
      None if there is none, otherwise the attempts so far plus the valid
      guesses up to and including it. */
  function Expected(secret: string, length: int, guesses: seq<string>, attempts: nat): Option<nat>
  {
    match FirstIndex(guesses, Hit(secret, length))
    case None => None
    case Some(i) => Some(attempts + |ValidGuesses(guesses[..i + 1], length)|)
  }

  /** The game is won exactly when some valid guess equals the secret,
      and then after as many attempts as there are valid guesses up to and
      including the first correct one. */
  lemma {:induction false} PlayGameSpec(secret: string, length: int, guesses: seq<string>, attempts: nat)
    requires |secret| == length
    ensures PlayGame(secret, length, guesses, attempts) ==
      match FirstIndex(guesses, Hit(secret, length))
      case None => None
      case Some(i) => Some(attempts + |ValidGuesses(guesses[..i + 1], length)|)
    decreases |guesses|
  {
    if |guesses| > 0 {
      if Hit(secret, length)(guesses[0]) {
        PlayGameHit(secret, length, guesses, attempts);
      } else {
        var next := if ValidPlayer(guesses[0], length) then attempts + 1 else attempts;
        PlayGameSpec(secret, length, guesses[1..], next);
        PlayGameMiss(secret, length, guesses, attempts);
      }
    }
  }

  /** A correct first guess ends the game at the next attempt. */
  lemma PlayGameHit(secret: string, length: int, guesses: seq<string>, attempts: nat)
    requires |secret| == length && |guesses| > 0 && Hit(secret, length)(guesses[0])
    ensures PlayGame(secret, length, guesses, attempts) == Expected(secret, length, guesses, attempts)
  {
    AllInPlaceIffEqual(secret, guesses[0]);
    assert FirstIndex(guesses, Hit(secret, length)) == Some(0);
    ValidPrefixCount(guesses, length, 0);
    assert guesses[1..][..0] == [];
  }

  /** Past a first guess that is not correct the game goes on with the
      rest, one attempt later if the guess was valid. */
  lemma PlayGameMiss(secret: string, length: int, guesses: seq<string>, attempts: nat)
    requires |secret| == length && |guesses| > 0 && !Hit(secret, length)(guesses[0])
    requires var next := if ValidPlayer(guesses[0], length) then attempts + 1 else attempts;
      PlayGame(secret, length, guesses[1..], next) == Expected(secret, length, guesses[1..], next)
    ensures PlayGame(secret, length, guesses, attempts) == Expected(secret, length, guesses, attempts)
  {
    var g := guesses[0];
    var rest := guesses[1..];
    var hit := Hit(secret, length);
    var next := if ValidPlayer(g, length) then attempts + 1 else attempts;
    if ValidPlayer(g, length) {
      AllInPlaceIffEqual(secret, g);
    }
    assert PlayGame(secret, length, guesses, attempts) == PlayGame(secret, length, rest, next);
    match FirstIndex(rest, hit)
    case None =>
      assert FirstIndex(guesses, hit) == None;
    case Some(k) =>
      assert FirstIndex(guesses, hit) == Some(k + 1);
      ValidPrefixCount(guesses, length, k + 1);
  }

  /** Counting valid guesses in a prefix: the head, then the rest. */
  lemma ValidPrefixCount(guesses: seq<string>, length: int, i: nat)
    requires i < |guesses|
    ensures |ValidGuesses(guesses[..i + 1], length)| ==
      (if ValidPlayer(guesses[0], length) then 1 else 0) + |ValidGuesses(guesses[1..][..i], length)|
  {
    var p := (g: string) => ValidPlayer(g, length);
    assert guesses[..i + 1] == [guesses[0]] + guesses[1..][..i];
    FilterAppend([guesses[0]], guesses[1..][..i], p);
    assert [guesses[0]][..0] == [];
  }
}

=== FILE: comparative.dfy ===
/** The functional-programming exercises of lab3/comparative_analysis.py:
    a sum of squares, left-fold composition, min-max normalisation and
    the mean and median of a data list. */
module Comparative {
  import opened Seqs
  import opened Wrappers
  import opened Sorting

  /** `map(lambda x: x * x, range(1, n + 1))`. */
  function Squares(n: int): (s: seq<int>)
    ensures |s| == if n < 0 then 0 else n
  {
    if n <= 0 then [] else seq(n, i requires 0 <= i < n => (i + 1) * (i + 1))
  }

  /** `heavy_computation(n)`: the sum of the squares 1..n. */
  function HeavyComputation(n: int): int
  {
    IntSum(Squares(n))
  }

  /** The sum of the first n squares is n(n+1)(2n+1)/6, and nothing for
      n <= 0. */
  lemma {:induction false} HeavyComputationClosedForm(n: int)
    ensures n <= 0 ==> HeavyComputation(n) == 0
    ensures n >= 0 ==> 6 * HeavyComputation(n) == n * (n + 1) * (2 * n + 1)
    decreases if n < 0 then 0 else n
  {
    if n > 0 {
      HeavyComputationClosedForm(n - 1);
      SquaresStep(n);
      ClosedFormStep(n, HeavyComputation(n - 1));
    }
  }

  /** The sum up to n is the sum up to n - 1 plus n squared. */
  lemma SquaresStep(n: int)
    requires n > 0
    ensures HeavyComputation(n) == HeavyComputation(n - 1) + n * n
  {
    var s := Squares(n);
    assert s[..n - 1] == Squares(n - 1);
    assert s[n - 1] == n * n;
  }

  /** The closed form grows by n squared from n - 1 to n. */
  lemma ClosedFormStep(n: int, h: int)
    requires n > 0 && 6 * h == (n - 1) * n * (2 * n - 1)
    ensures 6 * (h + n * n) == n * (n + 1) * (2 * n + 1)
  {
    assert (n - 1) * n * (2 * n - 1) + 6 * (n * n) == n * (n + 1) * (2 * n + 1);
  }

  /** `compose(*functions)`: `reduce` with `lambda f, g: lambda x:
      f(g(x))`. With no function `reduce` raises, which is None here. */
  function Compose<T>(functions: seq<T -> T>): (r: Option<T -> T>)
    ensures r.Some? <==> |functions| > 0
    decreases |functions|
  {
    if |functions| == 0 then None
    else if |functions| == 1 then Some(functions[0])
    else
      var f := Compose(functions[..|functions| - 1]).value;
      var g := functions[|functions| - 1];
      Some((x: T) => f(g(x)))
  }

  /** Apply the functions from the last to the first:
      f0(f1(...f(n-1)(x))). */
  function ApplyRightToLeft<T>(functions: seq<T -> T>, x: T): T
    requires |functions| > 0
    decreases |functions|
  {
    if |functions| == 1 then functions[0](x)
    else functions[0](ApplyRightToLeft(functions[1..], x))
  }

  /** The composite applies the last function first. */
  lemma {:induction false} ComposeRightToLeft<T>(functions: seq<T -> T>, x: T)
    requires |functions| > 0
    ensures Compose(functions).value(x) == ApplyRightToLeft(functions, x)
    decreases |functions|
  {
    var n := |functions|;
    if n > 1 {
      var init := functions[..n - 1];
      ComposeRightToLeft(init, functions[n - 1](x));
      if n > 2 {
        ApplyLast(functions, x);
      }
    }
  }

  /** Applying all the functions is applying all but the last to the
      last one's result. */
  lemma {:induction false} ApplyLast<T>(functions: seq<T -> T>, x: T)
    requires |functions| > 1
    ensures ApplyRightToLeft(functions, x) == ApplyRightToLeft(functions[..|functions| - 1], functions[|functions| - 1](x))
    decreases |functions|
  {
    var n := |functions|;
    if n > 2 {
      ApplyLast(functions[1..], x);
      assert functions[1..][..n - 2] == functions[..n - 1][1..];
    }
  }

  /** compose(f, g, h)(x) is f(g(h(x))). */
  lemma ComposeThree<T>(f: T -> T, g: T -> T, h: T -> T, x: T)
    ensures Compose([f, g, h]).value(x) == f(g(h(x)))
  {
    var fs := [f, g, h];
    ComposeRightToLeft(fs, x);
    assert fs[1..] == [g, h];
    assert [g, h][1..] == [h];
    assert ApplyRightToLeft([h], x) == h(x);
    assert ApplyRightToLeft([g, h], x) == g(h(x));
    assert ApplyRightToLeft(fs, x) == f(g(h(x)));
  }

  /** `min(data)`. */
  function Min(s: seq<real>): (m: real)
    requires |s| > 0
    ensures m in s && forall i :: 0 <= i < |s| ==> m <= s[i]
    decreases |s|
  {
    if |s| == 1 then s[0]
    else
      var m := Min(s[..|s| - 1]);
      assert forall i :: 0 <= i < |s| - 1 ==> s[..|s| - 1][i] == s[i];
      if s[|s| - 1] < m then s[|s| - 1] else m
  }

  /** `max(data)`. */
  function Max(s: seq<real>): (m: real)
    requires |s| > 0
    ensures m in s && forall i :: 0 <= i < |s| ==> s[i] <= m
    decreases |s|
  {
    if |s| == 1 then s[0]
    else
      var m := Max(s[..|s| - 1]);
      assert forall i :: 0 <= i < |s| - 1 ==> s[..|s| - 1][i] == s[i];
      if s[|s| - 1] > m then s[|s| - 1] else m
  }

  /** `normalize_data`: empty stays empty, a constant list becomes
      zeros, otherwise each x becomes (x - min) / (max - min). */
  function NormalizeData(data: seq<real>): (r: seq<real>)
    ensures |r| == |data|
  {
    if |data| == 0 then []
    else
      var lo := Min(data);
      var hi := Max(data);
      if hi == lo then seq(|data|, _ => 0.0)
      else seq(|data|, i requires 0 <= i < |data| => Scale(data[i], lo, hi))
  }

  /** The normalised value at one position of a non-constant list. */
  lemma NormalizeAt(data: seq<real>, i: nat)
    requires i < |data| && Max(data) != Min(data)
    ensures NormalizeData(data)[i] == Scale(data[i], Min(data), Max(data))
  {
  }

  /** `(x - min_val) / (max_val - min_val)`. */
  function Scale(x: real, lo: real, hi: real): real
    requires hi != lo
  {
    (x - lo) / (hi - lo)
  }

  /** Normalisation puts every value in [0, 1], sends the minima to 0 and,
      unless the list is constant, the maxima to 1; a constant list
      becomes all zeros. */
  lemma NormalizeDataRange(data: seq<real>)
    ensures var r := NormalizeData(data);
      && (forall i :: 0 <= i < |r| ==> 0.0 <= r[i] <= 1.0)
      && (forall i :: 0 <= i < |r| && data[i] == Min(data) ==> r[i] == 0.0)
      && (forall i :: 0 <= i < |r| && data[i] == Max(data) && Max(data) != Min(data) ==> r[i] == 1.0)
      && (|data| > 0 && Max(data) == Min(data) ==> forall i :: 0 <= i < |r| ==> r[i] == 0.0)
  {
    var r := NormalizeData(data);
    forall i | 0 <= i < |r|
      ensures 0.0 <= r[i] <= 1.0
      ensures data[i] == Min(data) ==> r[i] == 0.0
      ensures data[i] == Max(data) && Max(data) != Min(data) ==> r[i] == 1.0
    {
      NormalizeEntry(data, i);
    }
  }

  /** One normalised value: in [0, 1], 0 at a minimum or for a constant
      list, 1 at a maximum of a non-constant list. */
  lemma NormalizeEntry(data: seq<real>, i: nat)
    requires i < |data|
    ensures 0.0 <= NormalizeData(data)[i] <= 1.0
    ensures data[i] == Min(data) || Max(data) == Min(data) ==> NormalizeData(data)[i] == 0.0
    ensures data[i] == Max(data) && Max(data) != Min(data) ==> NormalizeData(data)[i] == 1.0
  {
    var lo := Min(data);
    var hi := Max(data);
    if hi != lo {
      NormalizeAt(data, i);
      ScaleUnit(data[i], lo, hi);
    }
  }

  /** A value between lo and hi scales into [0, 1], lo to 0 and hi to 1. */
  lemma ScaleUnit(x: real, lo: real, hi: real)
    requires lo <= x <= hi && lo != hi
    ensures 0.0 <= Scale(x, lo, hi) <= 1.0
    ensures x == lo ==> Scale(x, lo, hi) == 0.0
    ensures x == hi ==> Scale(x, lo, hi) == 1.0
  {
    DivUnit(x - lo, hi - lo);
  }

  /** Normalisation keeps the order of any two values. */
  lemma NormalizeDataMonotone(data: seq<real>, i: nat, j: nat)
    requires i < |data| && j < |data| && data[i] <= data[j]
    ensures NormalizeData(data)[i] <= NormalizeData(data)[j]
  {
    var lo := Min(data);
    var hi := Max(data);
    if hi != lo {
      NormalizeAt(data, i);
      NormalizeAt(data, j);
      ScaleMonotone(data[i], data[j], lo, hi);
    }
  }

  /** Scaling keeps the order of two values. */
  lemma ScaleMonotone(x: real, y: real, lo: real, hi: real)
    requires x <= y && lo < hi
    ensures Scale(x, lo, hi) <= Scale(y, lo, hi)
  {
    DivMonotone(x - lo, y - lo, hi - lo);
  }

  /** 0 <= a <= d with d > 0 gives a / d in [0, 1]. */
  lemma DivUnit(a: real, d: real)
    requires 0.0 <= a <= d && d > 0.0
    ensures 0.0 <= a / d <= 1.0
    ensures a == 0.0 ==> a / d == 0.0
    ensures a == d ==> a / d == 1.0
  {
  }

  /** Division by a positive number keeps the order. */
  lemma DivMonotone(a: real, b: real, d: real)
    requires a <= b && d > 0.0
    ensures a / d <= b / d
  {
  }

  /** The mean and median of `calculate_metrics` (its standard deviation
      needs a square root and is not modelled). */
  datatype Metrics = Metrics(mean: real, median: real)

  /** The identity sort key. */
  function Identity(x: real): real
  {
    x
  }

  /** `calculate_metrics`: zeros for no data; otherwise the mean and the
      median of the sorted data, where for even n the median averages
      `sorted[n // 2]` and `sorted[~(n // 2)]`, the element n // 2 - 1. */
  function CalculateMetrics(data: seq<real>): (m: Metrics)
    ensures |data| == 0 ==> m == Metrics(0.0, 0.0)
  {
    if |data| == 0 then Metrics(0.0, 0.0)
    else
      Metrics(Mean(data), Median(SortBy(data, Identity, RealLess)))
  }

  /** The `reduce` sum divided by the length. */
  function Mean(data: seq<real>): real
    requires |data| > 0
  {
    Sum(data) / (|data| as real)
  }

  /** The median of sorted data, with Python's `~mid` index n - mid - 1. */
  function Median(sorted: seq<real>): real
    requires |sorted| > 0
  {
    var n := |sorted|;
    var mid := n / 2;
    if n % 2 == 0 then (sorted[mid] + sorted[n - mid - 1]) / 2.0 else sorted[mid]
  }

  /** A sum of n values lies between n times their minimum and n times
      their maximum. */
  lemma {:induction false} SumBetween(s: seq<real>, lo: real, hi: real)
    requires forall i :: 0 <= i < |s| ==> lo <= s[i] <= hi
    ensures (|s| as real) * lo <= Sum(s) <= (|s| as real) * hi
    decreases |s|
  {
    if |s| > 0 {
      var m := |s| - 1;
      SumBetween(s[..m], lo, hi);
      assert (|s| as real) * lo == (m as real) * lo + lo;
      assert (|s| as real) * hi == (m as real) * hi + hi;
    }
  }

  /** Values within [lo, hi] have their mean within [lo, hi]. */
  lemma MeanInRange(data: seq<real>, lo: real, hi: real)
    requires |data| > 0
    requires forall i :: 0 <= i < |data| ==> lo <= data[i] <= hi
    ensures lo <= Mean(data) <= hi
  {
    SumBetween(data, lo, hi);
    MeanBetween(Sum(data), |data| as real, lo, hi);
  }

  /** Values within [lo, hi] have their median within [lo, hi]. */
  lemma MedianInRange(sorted: seq<real>, lo: real, hi: real)
    requires |sorted| > 0
    requires forall i :: 0 <= i < |sorted| ==> lo <= sorted[i] <= hi
    ensures lo <= Median(sorted) <= hi
  {
    var n := |sorted|;
    var mid := n / 2;
    assert lo <= sorted[mid] <= hi && lo <= sorted[n - mid - 1] <= hi;
  }

  /** For non-empty data the mean and the median lie between the minimum
      and the maximum. */
  lemma MetricsBetweenMinMax(data: seq<real>)
    requires |data| > 0
    ensures Min(data) <= CalculateMetrics(data).mean <= Max(data)
    ensures Min(data) <= CalculateMetrics(data).median <= Max(data)
  {
    var lo := Min(data);
    var hi := Max(data);
    var sorted := SortBy(data, Identity, RealLess);
    assert CalculateMetrics(data) == Metrics(Mean(data), Median(sorted));
    MeanInRange(data, lo, hi);
    forall i | 0 <= i < |sorted|
      ensures lo <= sorted[i] <= hi
    {
      assert sorted[i] in multiset(data);
    }
    MedianInRange(sorted, lo, hi);
  }

  /** The data sorted by value is a permutation of the data in
      ascending order. */
  lemma SortedAscending(data: seq<real>)
    ensures var sorted := SortBy(data, Identity, RealLess);
      && multiset(sorted) == multiset(data)
      && (forall i, j :: 0 <= i < j < |sorted| ==> sorted[i] <= sorted[j])
  {
    var sorted := SortBy(data, Identity, RealLess);
    NumberOrders();
    SortBySorted(data, Identity, RealLess);
    forall i, j | 0 <= i < j < |sorted|
      ensures sorted[i] <= sorted[j]
    {
      assert !RealLess(Identity(sorted[j]), Identity(sorted[i]));
    }
  }

  /** Python's `~mid` is the lower middle for an even count. */
  lemma MedianPicksMiddle(sorted: seq<real>)
    requires |sorted| > 0
    ensures |sorted| % 2 == 1 ==> Median(sorted) == sorted[|sorted| / 2]
    ensures |sorted| % 2 == 0 ==> Median(sorted) == (sorted[|sorted| / 2 - 1] + sorted[|sorted| / 2]) / 2.0
  {
    var n := |sorted|;
    if n % 2 == 0 {
      assert n - n / 2 - 1 == n / 2 - 1;
    }
  }

  /** The median is the middle of the sorted data: for odd n the element
      at n // 2, for even n the average of the elements at n // 2 - 1 and
      n // 2. */
  lemma MedianIsMiddle(data: seq<real>)
    requires |data| > 0
    ensures var sorted := SortBy(data, Identity, RealLess);
      && (|data| % 2 == 1 ==> CalculateMetrics(data).median == sorted[|data| / 2])
      && (|data| % 2 == 0 ==> CalculateMetrics(data).median == (sorted[|data| / 2 - 1] + sorted[|data| / 2]) / 2.0)
  {
    var sorted := SortBy(data, Identity, RealLess);
    var med := Median(sorted);
    assert CalculateMetrics(data).median == med;
    MedianPicksMiddle(sorted);
    if |data| % 2 == 0 {
      var a := sorted[|data| / 2 - 1];
      var b := sorted[|data| / 2];
      assert med == (a + b) / 2.0;
    }
  }
}

=== FILE: counter.dfy ===
/** Python's `collections.Counter(xs).most_common(k)`: the distinct
    elements with their counts, in first-occurrence order, stably sorted
    by count from the highest, cut to k. */
module Counter {
  import opened Seqs
  import opened Sorting

  /** The distinct elements of `s` in order of first occurrence (the key
      order of a Counter or a dict built from `s`). */
  function Dedup<T(==)>(s: seq<T>): (r: seq<T>)
    ensures Distinct(r)
    ensures forall i :: 0 <= i < |r| ==> r[i] in s
    ensures forall i :: 0 <= i < |s| ==> s[i] in r
    decreases |s|
  {
    if |s| == 0 then []
    else
      var init := Dedup(s[..|s| - 1]);
      assert forall i :: 0 <= i < |s| - 1 ==> s[i] == s[..|s| - 1][i];
      if s[|s| - 1] in init then init else init + [s[|s| - 1]]
  }

  /** An element with its number of occurrences. */
  type Entry<T> = (T, nat)

  /** The count of an entry, as an integer sort key. */
  function CountOf<T>(e: Entry<T>): int
  {
    e.1
  }

  /** `Counter(s).items()`: each distinct element with its count. */
  function Tally<T(==)>(s: seq<T>): (r: seq<Entry<T>>)
  {
    Map(Dedup(s), (x: T) => (x, Count(s, x)))
  }

  /** `Counter(s).most_common(k)` for k >= 0. */
  function MostCommon<T(==)>(s: seq<T>, k: nat): (r: seq<Entry<T>>)
    ensures |r| <= k
  {
    Take(SortBy(Tally(s), CountOf, Flip(IntLess)), k)
  }

  /** Tally lists every element of `s` once with its count. */
  lemma TallySpec<T>(s: seq<T>)
    ensures forall i :: 0 <= i < |Tally(s)| ==> Tally(s)[i].0 in s && Tally(s)[i].1 == Count(s, Tally(s)[i].0)
    ensures forall i :: 0 <= i < |s| ==> (s[i], Count(s, s[i])) in Tally(s)
    ensures Distinct(Tally(s))
  {
    var d := Dedup(s);
    var t := Tally(s);
    forall i | 0 <= i < |s|
      ensures (s[i], Count(s, s[i])) in t
    {
      var j :| 0 <= j < |d| && d[j] == s[i];
      assert t[j] == (s[i], Count(s, s[i]));
    }
  }

  /** The entries of Tally(s) sorted by count from the highest: each
      element of `s` once, with its count, counts non-increasing. */
  lemma SortedTally<T>(s: seq<T>)
    ensures var sorted := SortBy(Tally(s), CountOf, Flip(IntLess));
      && Distinct(sorted)
      && (forall i :: 0 <= i < |sorted| ==> sorted[i].0 in s && sorted[i].1 == Count(s, sorted[i].0))
      && (forall i, j :: 0 <= i < j < |sorted| ==> sorted[i].1 >= sorted[j].1)
      && (forall p :: 0 <= p < |s| ==> (s[p], Count(s, s[p])) in sorted)
  {
    var t := Tally(s);
    var lt := Flip(IntLess);
    var sorted := SortBy(t, CountOf, lt);
    TallySpec(s);
    NumberOrders();
    FlipStrictWeakOrder(IntLess);
    SortBySorted(t, CountOf, lt);
    DistinctPermutation(t, sorted);
    forall i | 0 <= i < |sorted|
      ensures sorted[i].0 in s && sorted[i].1 == Count(s, sorted[i].0)
    {
      assert sorted[i] in multiset(t);
    }
    forall i, j | 0 <= i < j < |sorted|
      ensures sorted[i].1 >= sorted[j].1
    {
      assert !lt(CountOf(sorted[j]), CountOf(sorted[i]));
    }
    forall p | 0 <= p < |s|
      ensures (s[p], Count(s, s[p])) in sorted
    {
      assert (s[p], Count(s, s[p])) in multiset(t);
    }
  }

  /** most_common(k) lists min(k, number of distinct elements) distinct
      elements of `s`, each with its true count, from the highest count
      down. */
  lemma MostCommonSpec<T>(s: seq<T>, k: nat)
    ensures var r := MostCommon(s, k);
      && |r| == (if k < |Dedup(s)| then k else |Dedup(s)|)
      && (forall i :: 0 <= i < |r| ==> r[i].0 in s && r[i].1 == Count(s, r[i].0) && r[i].1 > 0)
      && (forall i, j :: 0 <= i < j < |r| ==> r[i].0 != r[j].0 && r[i].1 >= r[j].1)
  {
    var sorted := SortBy(Tally(s), CountOf, Flip(IntLess));
    var r := MostCommon(s, k);
    SortedTally(s);
    forall i | 0 <= i < |r|
      ensures r[i].0 in s && r[i].1 == Count(s, r[i].0) && r[i].1 > 0
    {
      assert r[i] == sorted[i];
      CountPositive(s, r[i].0);
    }
    forall i, j | 0 <= i < j < |r|
      ensures r[i].0 != r[j].0 && r[i].1 >= r[j].1
    {
      assert r[i] == sorted[i] && r[j] == sorted[j];
    }
  }

  /** An element of `s` is left out of most_common(k) only when k
      entries are listed, and it occurs no more often than any of them. */
  lemma MostCommonIsTop<T>(s: seq<T>, k: nat, x: T)
    requires x in s
    requires forall i :: 0 <= i < |MostCommon(s, k)| ==> MostCommon(s, k)[i].0 != x
    ensures |MostCommon(s, k)| == k
    ensures forall i :: 0 <= i < |MostCommon(s, k)| ==> Count(s, x) <= MostCommon(s, k)[i].1
  {
    var sorted := SortBy(Tally(s), CountOf, Flip(IntLess));
    SortedTally(s);
    var p :| 0 <= p < |s| && s[p] == x;
    var j :| 0 <= j < |sorted| && sorted[j] == (x, Count(s, x));
    PrefixAboveLeftOut(sorted, MostCommon(s, k), j, x);
  }

  /** In a list sorted by count from the highest, an entry for x missing
      from a prefix counts no more than any entry of that prefix. */
  lemma PrefixAboveLeftOut<T>(sorted: seq<(T, int)>, r: seq<(T, int)>, j: nat, x: T)
    requires |r| <= |sorted| && forall i :: 0 <= i < |r| ==> r[i] == sorted[i]
    requires forall a, b :: 0 <= a < b < |sorted| ==> sorted[a].1 >= sorted[b].1
    requires j < |sorted| && sorted[j].0 == x
    requires forall i :: 0 <= i < |r| ==> r[i].0 != x
    ensures |r| <= j
    ensures forall i :: 0 <= i < |r| ==> sorted[j].1 <= r[i].1
  {
    assert j >= |r|;
    forall i | 0 <= i < |r|
      ensures sorted[j].1 <= r[i].1
    {
      assert r[i] == sorted[i];
    }
  }
}

=== FILE: countries.dfy ===
/** The country-list exercises (lab3/countries_analysis.py): mapping and
    filtering in a functional and an imperative style, the Nordic
    sentence, a curried filter and a closure filter, and the detailed
    analysis of country records. */
module Countries {
  import opened Seqs
  import opened Wrappers
  import opened Text
  import opened Sorting
  import opened Counter

  /** `convert_to_uppercase`: each name upper-cased. */
  function ConvertToUppercase(countries: seq<string>, upper: CharMap): (r: seq<string>)
  {
    Map(countries, (c: string) => Map(c, upper))
  }

  /** `get_uppercase_imperative`: the same with an append loop. */
  method UppercaseImperative(countries: seq<string>, upper: CharMap) returns (result: seq<string>)
    ensures |result| == |countries|
    ensures forall i :: 0 <= i < |countries| ==> result[i] == Map(countries[i], upper)
    ensures result == ConvertToUppercase(countries, upper)
  {
    result := [];
    for i := 0 to |countries|
      invariant |result| == i
      invariant forall k :: 0 <= k < i ==> result[k] == Map(countries[k], upper)
    {
      result := result + [Map(countries[i], upper)];
    }
  }

  /** `substring in country.lower()`: only the country is lower-cased. */
  function SubstringTest(substring: string, lower: CharMap): string -> bool
  {
    (c: string) => Contains(Map(c, lower), substring)
  }

  /** `len(country) == length`. */
  function LengthTest(length: int): string -> bool
  {
    (c: string) => |c| == length
  }

  /** `len(country) >= min_length`. */
  function MinLengthTest(minLength: int): string -> bool
  {
    (c: string) => |c| >= minLength
  }

  /** `country.lower().startswith(letter.lower())`: both sides lower-cased. */
  function StartingLetterTest(letter: string, lower: CharMap): string -> bool
  {
    (c: string) => StartsWith(Map(c, lower), Map(letter, lower))
  }

  /** `country.lower().startswith(prefix)`: only the country is
      lower-cased, the prefix is taken as written. */
  function PrefixTest(prefix: string, lower: CharMap): string -> bool
  {
    (c: string) => StartsWith(Map(c, lower), prefix)
  }

  /** The four lists of `filter_countries`. */
  datatype Filtered = Filtered(land: seq<string>, sixChars: seq<string>, sixPlus: seq<string>, startsE: seq<string>)

  /** `filter_countries`. */
  function FilterCountries(countries: seq<string>, lower: CharMap): (r: Filtered)
  {
    Filtered(
      Filter(countries, SubstringTest("land", lower)),
      Filter(countries, LengthTest(6)),
      Filter(countries, MinLengthTest(6)),
      Filter(countries, PrefixTest("e", lower)))
  }

  /** When lower-casing leaves "e" as it is, the "starts with e" list of
      `filter_countries` is what the imperative filter returns for the
      letter "e". */
  lemma StartsEAgrees(countries: seq<string>, lower: CharMap)
    requires lower('e') == 'e'
    ensures FilterCountries(countries, lower).startsE == Filter(countries, StartingLetterTest("e", lower))
  {
  }

  /** The loop shared by the `*_imperative` filters: keep, in order, the
      countries passing `test`. */
  method FilterLoop(countries: seq<string>, test: string -> bool) returns (result: seq<string>)
    ensures result == Filter(countries, test)
  {
    result := [];
    for i := 0 to |countries|
      invariant result == Filter(countries[..i], test)
    {
      FilterStep(countries, test, i);
      if test(countries[i]) {
        result := result + [countries[i]];
      }
    }
    assert countries[..|countries|] == countries;
  }

  /** `filter_by_substring_imperative`. */
  method FilterBySubstringImperative(countries: seq<string>, substring: string, lower: CharMap) returns (result: seq<string>)
    ensures result == Filter(countries, SubstringTest(substring, lower))
  {
    result := FilterLoop(countries, SubstringTest(substring, lower));
  }

  /** `filter_by_length_imperative`. */
  method FilterByLengthImperative(countries: seq<string>, length: int) returns (result: seq<string>)
    ensures result == Filter(countries, LengthTest(length))
  {
    result := FilterLoop(countries, LengthTest(length));
  }

  /** `filter_by_min_length_imperative`. */
  method FilterByMinLengthImperative(countries: seq<string>, minLength: int) returns (result: seq<string>)
    ensures result == Filter(countries, MinLengthTest(minLength))
  {
    result := FilterLoop(countries, MinLengthTest(minLength));
  }

  /** `filter_by_starting_letter_imperative`. */
  method FilterByStartingLetterImperative(countries: seq<string>, letter: string, lower: CharMap) returns (result: seq<string>)
    ensures result == Filter(countries, StartingLetterTest(letter, lower))
  {
    result := FilterLoop(countries, StartingLetterTest(letter, lower));
  }

  /** The length filters keep, in input order, exactly the qualifying
      countries: every qualifying one is kept, as often as it occurs; the
      length-6 filter is the `six_chars` list. */
  lemma LengthFiltersSpec(countries: seq<string>, length: int, minLength: int, lower: CharMap)
    ensures forall c :: Count(Filter(countries, LengthTest(length)), c) == if |c| == length then Count(countries, c) else 0
    ensures forall c :: Count(Filter(countries, MinLengthTest(minLength)), c) == if |c| >= minLength then Count(countries, c) else 0
    ensures IsSubsequence(Filter(countries, MinLengthTest(minLength)), countries)
    ensures Filter(countries, LengthTest(6)) == FilterCountries(countries, lower).sixChars
    ensures Filter(countries, MinLengthTest(6)) == FilterCountries(countries, lower).sixPlus
  {
    LengthFilterCounts(countries, length);
    MinLengthFilterCounts(countries, minLength);
    FilterSubsequence(countries, MinLengthTest(minLength));
  }

  lemma LengthFilterCounts(countries: seq<string>, length: int)
    ensures forall c :: Count(Filter(countries, LengthTest(length)), c) == if |c| == length then Count(countries, c) else 0
  {
    var test := LengthTest(length);
    forall c
      ensures Count(Filter(countries, test), c) == if |c| == length then Count(countries, c) else 0
    {
      FilterCount(countries, test, c);
    }
  }

  lemma MinLengthFilterCounts(countries: seq<string>, minLength: int)
    ensures forall c :: Count(Filter(countries, MinLengthTest(minLength)), c) == if |c| >= minLength then Count(countries, c) else 0
  {
    var test := MinLengthTest(minLength);
    forall c
      ensures Count(Filter(countries, test), c) == if |c| >= minLength then Count(countries, c) else 0
    {
      FilterCount(countries, test, c);
    }
  }

  /** With an idempotent lower-case map, a lower-cased country never
      contains a substring holding a character the map changes, so the
      substring filter finds nothing for such a substring. */
  lemma SubstringNotLowered(countries: seq<string>, substring: string, lower: CharMap, k: nat)
    requires Idempotent(lower)
    requires k < |substring| && lower(substring[k]) != substring[k]
    ensures Filter(countries, SubstringTest(substring, lower)) == []
  {
    var test := SubstringTest(substring, lower);
    forall i | 0 <= i < |countries|
      ensures !test(countries[i])
    {
      NoLoweredContains(Map(countries[i], lower), substring, lower, k);
    }
    FilterNone(countries, test);
  }

  /** A string of lower-case images does not contain a block with a
      character outside the image. */
  lemma {:induction false} NoLoweredContains(hay: string, needle: string, lower: CharMap, k: nat)
    requires Idempotent(lower)
    requires forall i :: 0 <= i < |hay| ==> lower(hay[i]) == hay[i]
    requires k < |needle| && lower(needle[k]) != needle[k]
    ensures !Contains(hay, needle)
    decreases |hay|
  {
    if |needle| <= |hay| {
      assert lower(hay[k]) == hay[k];
      assert hay[..|needle|][k] != needle[k];
    }
    if |hay| > 0 {
      NoLoweredContains(hay[1..], needle, lower, k);
    }
  }

  /** The starting-letter filter lower-cases the letter too, so a letter
      and its lower-case form select the same countries. */
  lemma StartingLetterCaseInsensitive(countries: seq<string>, letter: string, lower: CharMap)
    requires Idempotent(lower)
    ensures Filter(countries, StartingLetterTest(letter, lower)) == Filter(countries, StartingLetterTest(Map(letter, lower), lower))
  {
    MapIdempotent(letter, lower);
    assert StartingLetterTest(letter, lower) == StartingLetterTest(Map(letter, lower), lower);
  }

  /** The Nordic countries, in the order both formatters know them. */
  const Nordic: seq<string> := ["Finland", "Sweden", "Denmark", "Norway", "Iceland"]

  /** The sentence ending shared by every Nordic sentence. */
  const NordicEnding: string := " это страны Северной Европы"

  /** The message for no Nordic country at all. */
  const NoNordic: string := "Стран Северной Европы нет в списке"

  /** The Nordic sentence for the found names: the fixed message for none,
      "X это ..." for one, and for several the first ones joined by ", "
      then " и " and the last one before `manyEnding`. */
  function NordicSentence(found: seq<string>, manyEnding: string): (s: string)
    ensures |found| == 0 ==> s == NoNordic
  {
    if |found| == 0 then NoNordic
    else if |found| == 1 then found[0] + NordicEnding
    else Join(", ", found[..|found| - 1]) + " и " + found[|found| - 1] + manyEnding
  }

  /** `c in countries` for the functional formatter. */
  function InList(countries: seq<string>): string -> bool
  {
    (c: string) => c in countries
  }

  /** `country in nordic` for the imperative formatter. */
  function IsNordic(c: string): bool
  {
    c in Nordic
  }

  /** `format_nordic_countries`: the Nordic countries present, in the order
      of the Nordic list, each once. */
  function FormatNordic(countries: seq<string>): (s: string)
  {
    NordicSentence(Filter(Nordic, InList(countries)), NordicEnding)
  }

  /** `format_nordic_countries_imperative`: the Nordic entries of the
      input in input order, duplicates kept, joined by a loop, with
      " - это" in the several-countries sentence. */
  method FormatNordicImperative(countries: seq<string>) returns (s: string)
    ensures s == NordicSentence(Filter(countries, IsNordic), " -" + NordicEnding)
  {
    var found := FilterLoop(countries, IsNordic);
    if |found| == 0 {
      return NoNordic;
    }
    if |found| == 1 {
      return found[0] + NordicEnding;
    }
    var result := found[0];
    for i := 1 to |found| - 1
      invariant result == Join(", ", found[..i])
    {
      assert found[..i + 1][..i] == found[..i];
      result := result + ", " + found[i];
    }
    s := result + " и " + found[|found| - 1] + " -" + NordicEnding;
  }

  /** What the functional formatter lists: each Nordic country present in
      the input, once, in Nordic-list order. */
  lemma FormatNordicLists(countries: seq<string>)
    ensures forall c :: c in Filter(Nordic, InList(countries)) <==> c in Nordic && c in countries
    ensures Distinct(Filter(Nordic, InList(countries)))
  {
    var test := InList(countries);
    forall c
      ensures c in Filter(Nordic, test) <==> c in Nordic && c in countries
    {
      FilterMembers(Nordic, test, c);
    }
    NordicDistinct();
    FilterDistinct(Nordic, test);
  }

  /** The Nordic list names each country once. */
  lemma NordicDistinct()
    ensures Distinct(Nordic)
  {
  }

  /** With two or more Nordic countries present, the two formatters never
      agree: the character before the common ending is the last letter of
      a country name in one and '-' in the other. */
  lemma NordicFormattersDiffer(countries: seq<string>)
    requires |Filter(Nordic, InList(countries))| >= 2
    requires |Filter(countries, IsNordic)| >= 2
    ensures FormatNordic(countries) != NordicSentence(Filter(countries, IsNordic), " -" + NordicEnding)
  {
    var f := Filter(Nordic, InList(countries));
    var g := Filter(countries, IsNordic);
    var last := f[|f| - 1];
    FilterMembers(Nordic, InList(countries), last);
    NordicNamesEndInLetters(last);
    var x := Join(", ", f[..|f| - 1]) + " и " + last;
    var y := Join(", ", g[..|g| - 1]) + " и " + g[|g| - 1] + " -";
    assert FormatNordic(countries) == x + NordicEnding;
    assert NordicSentence(g, " -" + NordicEnding) == y + NordicEnding;
    CharBeforeEnding(x, NordicEnding);
    CharBeforeEnding(y, NordicEnding);
  }

  /** No Nordic country name is empty or ends in '-'. */
  lemma NordicNamesEndInLetters(c: string)
    requires c in Nordic
    ensures |c| > 0 && c[|c| - 1] != '-'
  {
  }

  /** The character just before an appended ending is the last character
      of what came before it. */
  lemma CharBeforeEnding(x: string, ending: string)
    requires |x| > 0
    ensures (x + ending)[|x + ending| - |ending| - 1] == x[|x| - 1]
  {
  }

  /** `pattern.lower() in c.lower()`. */
  function PatternTest(pattern: string, lower: CharMap): string -> bool
  {
    (c: string) => Contains(Map(c, lower), Map(pattern, lower))
  }

  /** `categorize_countries`: the curried comprehension. */
  function CategorizeCountries(pattern: string, lower: CharMap): seq<string> -> seq<string>
  {
    (countries: seq<string>) => Filter(countries, PatternTest(pattern, lower))
  }

  /** The inner `filter_function` of `create_country_filter`, walking the
      list from the front. */
  function CountryFilter(pattern: string, lower: CharMap, countries: seq<string>): (r: seq<string>)
    decreases |countries|
  {
    if |countries| == 0 then []
    else
      var head := if PatternTest(pattern, lower)(countries[0]) then [countries[0]] else [];
      head + CountryFilter(pattern, lower, countries[1..])
  }

  /** `create_country_filter`: the closure over `pattern`. */
  function CreateCountryFilter(pattern: string, lower: CharMap): seq<string> -> seq<string>
  {
    (countries: seq<string>) => CountryFilter(pattern, lower, countries)
  }

  /** The curried and the closure filters agree on every pattern and list. */
  lemma {:induction false} CategorizeIsClosureFilter(pattern: string, lower: CharMap, countries: seq<string>)
    ensures CategorizeCountries(pattern, lower)(countries) == CreateCountryFilter(pattern, lower)(countries)
    decreases |countries|
  {
    var p := PatternTest(pattern, lower);
    assert CategorizeCountries(pattern, lower)(countries) == Filter(countries, p);
    if |countries| > 0 {
      CategorizeIsClosureFilter(pattern, lower, countries[1..]);
      FilterCons(countries, p);
    }
  }

  /** A record of countries-data.json. */
  datatype Country = Country(name: string, capital: string, languages: seq<string>, population: int)

  /** The result dictionary of `analyze_detailed_countries`. */
  datatype Analysis = Analysis(
    byName: seq<Country>,
    byCapital: seq<Country>,
    byPopulation: seq<Country>,
    topLanguages: seq<Entry<string>>,
    countriesByLanguage: map<string, seq<string>>,
    topPopulated: seq<(string, int)>)

  function NameOf(c: Country): string { c.name }
  function CapitalOf(c: Country): string { c.capital }
  function PopulationOf(c: Country): int { c.population }

  /** Every language of every country, country by country. */
  function AllLanguages(data: seq<Country>): (langs: seq<string>)
    decreases |data|
  {
    if |data| == 0 then [] else AllLanguages(data[..|data| - 1]) + data[|data| - 1].languages
  }

  /** `lang in country['languages']`. */
  function Speaks(lang: string): Country -> bool
  {
    (c: Country) => lang in c.languages
  }

  /** The names of the countries speaking `lang`, in input order. */
  function NamesSpeaking(data: seq<Country>, lang: string): seq<string>
  {
    Map(Filter(data, Speaks(lang)), NameOf)
  }

  /** The languages listed in a most-common table. */
  function LanguagesOf(top: seq<Entry<string>>): set<string>
  {
    set i | 0 <= i < |top| :: top[i].0
  }

  /** `analyze_detailed_countries`: None stands for the empty dictionary
      returned on empty input. */
  function AnalyzeDetailed(data: seq<Country>): (r: Option<Analysis>)
    ensures r.None? <==> |data| == 0
  {
    if |data| == 0 then None
    else
      var byPopulation := SortBy(data, PopulationOf, Flip(IntLess));
      var top := MostCommon(AllLanguages(data), 10);
      Some(Analysis(
        SortBy(data, NameOf, StringLess),
        SortBy(data, CapitalOf, StringLess),
        byPopulation,
        top,
        map l | l in LanguagesOf(top) :: NamesSpeaking(data, l),
        Map(Take(byPopulation, 10), (c: Country) => (c.name, c.population))))
  }

  /** The three sorted lists are permutations of the input, ordered by
      name, by capital, and by population from the largest. */
  lemma AnalyzeSorted(data: seq<Country>)
    requires |data| > 0
    ensures var a := AnalyzeDetailed(data).value;
      && multiset(a.byName) == multiset(data) && SortedBy(a.byName, NameOf, StringLess)
      && multiset(a.byCapital) == multiset(data) && SortedBy(a.byCapital, CapitalOf, StringLess)
      && multiset(a.byPopulation) == multiset(data)
      && forall i, j :: 0 <= i < j < |a.byPopulation| ==> a.byPopulation[i].population >= a.byPopulation[j].population
  {
    StringLessOrder();
    NumberOrders();
    FlipStrictWeakOrder(IntLess);
    SortBySorted(data, NameOf, StringLess);
    SortBySorted(data, CapitalOf, StringLess);
    SortBySorted(data, PopulationOf, Flip(IntLess));
    var p := SortBy(data, PopulationOf, Flip(IntLess));
    forall i, j | 0 <= i < j < |p|
      ensures p[i].population >= p[j].population
    {
      assert !Flip(IntLess)(PopulationOf(p[j]), PopulationOf(p[i]));
    }
  }

  /** The top-10 populated list has at most ten entries, the first ones
      of the population order, so populations never increase along it. */
  lemma AnalyzeTopPopulated(data: seq<Country>)
    requires |data| > 0
    ensures var a := AnalyzeDetailed(data).value;
      && |a.topPopulated| == (if |data| < 10 then |data| else 10)
      && (forall i :: 0 <= i < |a.topPopulated| ==>
            a.topPopulated[i] == (a.byPopulation[i].name, a.byPopulation[i].population))
      && (forall i, j :: 0 <= i < j < |a.topPopulated| ==> a.topPopulated[i].1 >= a.topPopulated[j].1)
  {
    AnalyzeSorted(data);
  }

  /** NamesSpeaking lists exactly the names of countries speaking `lang`. */
  lemma NamesSpeakingSpec(data: seq<Country>, lang: string, n: string)
    ensures n in NamesSpeaking(data, lang) <==> exists c :: c in data && SpeaksAndNamed(c, lang, n)
  {
    var kept := Filter(data, Speaks(lang));
    FilterSpec(data, Speaks(lang));
    if n in Map(kept, NameOf) {
      var i :| 0 <= i < |kept| && Map(kept, NameOf)[i] == n;
      assert kept[i] in kept;
      assert SpeaksAndNamed(kept[i], lang, n);
    }
    if exists c :: c in data && SpeaksAndNamed(c, lang, n) {
      var c :| c in data && SpeaksAndNamed(c, lang, n);
      assert c in kept;
      var i :| 0 <= i < |kept| && kept[i] == c;
      assert Map(kept, NameOf)[i] == n;
    }
  }

  /** The top languages are min(10, number of distinct languages)
      distinct languages of the data with their counts, from the most
      spoken; a language is left out only when ten are listed, and it is
      spoken no more often than any of them. */
  lemma AnalyzeTopLanguages(data: seq<Country>)
    requires |data| > 0
    ensures var a := AnalyzeDetailed(data).value;
      && |a.topLanguages| == (if 10 < |Dedup(AllLanguages(data))| then 10 else |Dedup(AllLanguages(data))|)
      && (forall i :: 0 <= i < |a.topLanguages| ==>
            a.topLanguages[i].0 in AllLanguages(data) && a.topLanguages[i].1 == Count(AllLanguages(data), a.topLanguages[i].0))
      && (forall i, j :: 0 <= i < j < |a.topLanguages| ==>
            a.topLanguages[i].0 != a.topLanguages[j].0 && a.topLanguages[i].1 >= a.topLanguages[j].1)
    ensures var a := AnalyzeDetailed(data).value;
      forall l :: l in AllLanguages(data) && l !in LanguagesOf(a.topLanguages) ==>
        && |a.topLanguages| == 10
        && forall i :: 0 <= i < |a.topLanguages| ==> Count(AllLanguages(data), l) <= a.topLanguages[i].1
  {
    var langs := AllLanguages(data);
    var top := MostCommon(langs, 10);
    assert AnalyzeDetailed(data).value.topLanguages == top;
    MostCommonSpec(langs, 10);
    forall l | l in langs && l !in LanguagesOf(top)
      ensures |top| == 10
      ensures forall i :: 0 <= i < |top| ==> Count(langs, l) <= top[i].1
    {
      forall i | 0 <= i < |top|
        ensures top[i].0 != l
      {
        assert top[i].0 in LanguagesOf(top);
      }
      MostCommonIsTop(langs, 10, l);
    }
  }

  /** Each top language maps to the names of the countries speaking it,
      and nothing else is in the map. */
  lemma AnalyzeLanguageMap(data: seq<Country>)
    requires |data| > 0
    ensures var a := AnalyzeDetailed(data).value;
      && a.countriesByLanguage.Keys == LanguagesOf(a.topLanguages)
      && (forall l, n :: l in a.countriesByLanguage ==>
            (n in a.countriesByLanguage[l] <==> exists c :: c in data && SpeaksAndNamed(c, l, n)))
  {
    var top := MostCommon(AllLanguages(data), 10);
    var m := map l | l in LanguagesOf(top) :: NamesSpeaking(data, l);
    assert AnalyzeDetailed(data).value.topLanguages == top;
    assert AnalyzeDetailed(data).value.countriesByLanguage == m;
    forall l, n | l in m
      ensures n in m[l] <==> exists c :: c in data && SpeaksAndNamed(c, l, n)
    {
      NamesSpeakingSpec(data, l, n);
    }
  }

  /** Country `c` speaks `lang` and is called `name`. */
  predicate SpeaksAndNamed(c: Country, lang: string, name: string)
  {
    lang in c.languages && c.name == name
  }
}

=== FILE: manipulator.dfy ===
/** The engine hierarchy and the six-axis manipulator of
    lab2/manipulator_model.py. Positions and powers are integers. */
module Manipulator {
  /** `SynchronousServodrive` with the fields it inherits from `Engine`
      and `RotaryEngine`; a plain `Engine` or `RotaryEngine` is one whose
      extra fields are not consulted. */
  datatype Servo = Servo(power: int, torque: int, precision: real, angle: int, speed: int, acceleration: int)

  /** `Engine.__eq__`: equal power. */
  predicate SamePower(a: Servo, b: Servo)
  {
    a.power == b.power
  }

  /** `Engine.__lt__`: lower power. */
  predicate LessPower(a: Servo, b: Servo)
  {
    a.power < b.power
  }

  /** The comparisons look at power alone: servos that differ in every
      other field compare as their powers do; `==` is an equivalence and
      `<` a strict order; exactly one of a < b, a == b, b < a holds. */
  lemma PowerOrder(a: Servo, b: Servo, c: Servo, a': Servo)
    requires a'.power == a.power
    ensures SamePower(a, b) == SamePower(a', b) && LessPower(a, b) == LessPower(a', b) && LessPower(b, a) == LessPower(b, a')
    ensures SamePower(a, a) && (SamePower(a, b) ==> SamePower(b, a))
    ensures SamePower(a, b) && SamePower(b, c) ==> SamePower(a, c)
    ensures !LessPower(a, a) && (LessPower(a, b) ==> !LessPower(b, a))
    ensures LessPower(a, b) && LessPower(b, c) ==> LessPower(a, c)
    ensures (if LessPower(a, b) then 1 else 0) + (if SamePower(a, b) then 1 else 0) + (if LessPower(b, a) then 1 else 0) == 1
  {
  }

  /** `set_angle`: the new angle, every other field as it was. */
  function SetAngle(s: Servo, angle: int): (r: Servo)
    ensures r.angle == angle
    ensures r.(angle := s.angle) == s
  {
    s.(angle := angle)
  }

  datatype Arm = Arm(servos: seq<Servo>, position: seq<int>)

  /** `SixAxisManipulator()`: six servos of powers 100, 150, 120, 80, 60
      and 40 with torques 5, 8, 6, 3, 2, 1, precision 0.1, all at rest; the
      position is the origin. */
  function NewArm(): (m: Arm)
    ensures |m.servos| == 6 && m.position == [0, 0, 0]
    ensures Powers(m.servos) == [100, 150, 120, 80, 60, 40]
    ensures forall i :: 0 <= i < 6 ==> m.servos[i].precision == 0.1 && m.servos[i].angle == 0
  {
    Arm([Servo(100, 5, 0.1, 0, 0, 0), Servo(150, 8, 0.1, 0, 0, 0), Servo(120, 6, 0.1, 0, 0, 0),
         Servo(80, 3, 0.1, 0, 0, 0), Servo(60, 2, 0.1, 0, 0, 0), Servo(40, 1, 0.1, 0, 0, 0)], [0, 0, 0])
  }

  function Powers(servos: seq<Servo>): seq<int>
  {
    seq(|servos|, i requires 0 <= i < |servos| => servos[i].power)
  }

  /** `[a + b for a, b in zip(u, v)]`. */
  function ZipAdd(u: seq<int>, v: seq<int>): (w: seq<int>)
    ensures |w| == if |u| < |v| then |u| else |v|
  {
    seq(if |u| < |v| then |u| else |v|, i requires 0 <= i < |u| && i < |v| => u[i] + v[i])
  }

  /** `m + move`: a new manipulator with default servos whose position is
      the pointwise sum, cut to the shorter of the two; `m` is a value
      and stays as it was. */
  function Add(m: Arm, move: seq<int>): (r: Arm)
    ensures |r.position| == if |m.position| < |move| then |m.position| else |move|
    ensures forall i :: 0 <= i < |r.position| ==> r.position[i] == m.position[i] + move[i]
    ensures r.servos == NewArm().servos
  {
    Arm(NewArm().servos, ZipAdd(m.position, move))
  }

  /** For three-dimensional moves, adding moves one after the other adds
      their sum, and adding the zero move keeps the position. */
  lemma AddMoves(m: Arm, a: seq<int>, b: seq<int>)
    requires |m.position| == 3 && |a| == 3 && |b| == 3
    ensures Add(Add(m, a), b).position == Add(m, ZipAdd(a, b)).position
    ensures Add(m, [0, 0, 0]).position == m.position
  {
  }
}

=== FILE: number_analyzer.dfy ===
/** The number analyser (lab1/NumberAnalyzer.py): divisors of a positive
    N, primality and perfection. */
module NumberAnalyzer {
  import opened Seqs
  import opened Wrappers
  import Prompts

  /** `range(1, n + 1)`. */
  function FromOne(n: int): (r: seq<int>)
    ensures |r| == if n < 0 then 0 else n
    ensures forall i :: 0 <= i < |r| ==> r[i] == i + 1
  {
    if n <= 0 then [] else seq(n, i requires 0 <= i < n => i + 1)
  }

  /** Whether `d` divides `n`, as a named test (Python's `n % d == 0`,
      with d >= 1). */
  function DividesN(n: int): int -> bool
  {
    (d: int) => d != 0 && n % d == 0
  }

  /** The divisors of n in ascending order: the reference definition. */
  function Divisors(n: int): seq<int>
  {
    Filter(FromOne(n), DividesN(n))
  }

  /** The divisor loop: `i` over 1..N, appending each divisor. */
  method CollectDivisors(n: int) returns (divisors: seq<int>)
    requires n > 0
    ensures divisors == Divisors(n)
  {
    divisors := [];
    var i := 1;
    while i <= n
      invariant 1 <= i <= n + 1
      invariant divisors == Filter(FromOne(n)[..i - 1], DividesN(n))
    {
      FilterStep(FromOne(n), DividesN(n), i - 1);
      if n % i == 0 {
        divisors := divisors + [i];
      }
      i := i + 1;
    }
    assert FromOne(n)[..n] == FromOne(n);
  }

  /** The list holds exactly the numbers from 1 to n that divide n. */
  lemma DivisorsMembers(n: int, d: int)
    requires n > 0
    ensures d in Divisors(n) <==> 1 <= d <= n && n % d == 0
  {
    FilterSpec(FromOne(n), DividesN(n));
    if 1 <= d <= n {
      assert FromOne(n)[d - 1] == d;
    }
  }

  /** The divisors come in strictly ascending order, starting at 1 and
      ending at n. */
  lemma {:induction false} DivisorsAscending(n: int)
    requires n > 0
    ensures forall i, j :: 0 <= i < j < |Divisors(n)| ==> Divisors(n)[i] < Divisors(n)[j]
    ensures |Divisors(n)| >= 1 && Divisors(n)[0] == 1 && Divisors(n)[|Divisors(n)| - 1] == n
  {
    FilteredAscending(FromOne(n), DividesN(n));
    DivisorsMembers(n, 1);
    DivisorsMembers(n, n);
    var ds := Divisors(n);
    assert ds[0] in ds;
    DivisorsMembers(n, ds[0]);
    assert ds[|ds| - 1] in ds;
    DivisorsMembers(n, ds[|ds| - 1]);
    var first :| 0 <= first < |ds| && ds[first] == 1;
    assert ds[0] <= ds[first];
    var last :| 0 <= last < |ds| && ds[last] == n;
    assert ds[last] <= ds[|ds| - 1];
  }

  /** Filtering a strictly ascending sequence keeps it strictly ascending. */
  lemma {:induction false} FilteredAscending(s: seq<int>, p: int -> bool)
    requires forall i, j :: 0 <= i < j < |s| ==> s[i] < s[j]
    ensures forall i, j :: 0 <= i < j < |Filter(s, p)| ==> Filter(s, p)[i] < Filter(s, p)[j]
    decreases |s|
  {
    if |s| > 0 {
      var init := s[..|s| - 1];
      FilteredAscending(init, p);
      FilterSpec(init, p);
      var r := Filter(s, p);
      var r0 := Filter(init, p);
      forall i, j | 0 <= i < j < |r|
        ensures r[i] < r[j]
      {
        if j >= |r0| {
          assert r[i] == r0[i];
          assert r0[i] in r0;
          var k :| 0 <= k < |init| && init[k] == r0[i];
          assert r[j] == s[|s| - 1];
        } else {
          assert r[i] == r0[i] && r[j] == r0[j];
        }
      }
    }
  }

  /** The verdict printed on primality. */
  datatype Primality = Neither | Prime | Composite

  /** 1 is neither; otherwise prime exactly when the divisor list has two
      entries. */
  function Classify(n: int): Primality
  {
    if n == 1 then Neither
    else if |Divisors(n)| == 2 then Prime
    else Composite
  }

  /** For n > 1 the two-divisor test is the textbook definition: no
      number strictly between 1 and n divides n. */
  lemma ClassifyPrime(n: int)
    requires n > 1
    ensures Classify(n) == Prime <==> forall d :: 1 < d < n ==> n % d != 0
  {
    var ds := Divisors(n);
    DivisorsAscending(n);
    DivisorsMembers(n, 1);
    DivisorsMembers(n, n);
    assert |ds| >= 2;
    if |ds| == 2 {
      assert ds == [1, n];
      forall d | 1 < d < n
        ensures n % d != 0
      {
        DivisorsMembers(n, d);
      }
    } else {
      var d := ds[1];
      assert d in ds;
      DivisorsMembers(n, d);
      assert 1 < d < n;
    }
  }

  /** `d != n`, as a named test. */
  function Other(n: int): int -> bool
  {
    (d: int) => d != n
  }

  /** The sum of the divisors other than n itself (the second loop). */
  function ProperSum(n: int): int
  {
    IntSum(Filter(Divisors(n), Other(n)))
  }

  /** Perfect: the proper divisors add up to n. */
  predicate Perfect(n: int)
  {
    ProperSum(n) == n
  }

  /** What `main` computes for the first positive number among the typed
      lines; None when the lines run out first. */
  datatype Report = Report(n: int, divisors: seq<int>, primality: Primality, perfect: bool)

  function Analyze(lines: seq<Option<int>>): (r: Option<Report>)
    ensures r.Some? <==> Prompts.FirstPositive(lines).Some?
    ensures r.Some? ==> r.value.n > 0 && r.value.divisors == Divisors(r.value.n)
  {
    match Prompts.FirstPositive(lines)
    case None => None
    case Some((n, _)) => Some(Report(n, Divisors(n), Classify(n), Perfect(n)))
  }

  /** A prime's only proper divisor is 1, so no prime is perfect; 1 is not
      perfect either. */
  lemma PrimeNotPerfect(n: int)
    requires n > 1 && Classify(n) == Prime
    ensures !Perfect(n)
  {
    var ds := Divisors(n);
    DivisorsAscending(n);
    assert ds == [1, n];
    var notN := Other(n);
    assert ds[..1] == [1];
    assert Filter(ds, notN) == Filter([1], notN);
    assert Filter([1], notN) == [1] by { assert [1][..0] == []; }
  }

  lemma OneNotPerfect()
    ensures !Perfect(1)
  {
    assert FromOne(1) == [1];
    assert Divisors(1) == [1] by { assert FromOne(1)[..0] == []; }
    assert Filter([1], Other(1)) == [] by { assert [1][..0] == []; }
  }

  lemma SixDivisors()
    ensures Divisors(6) == [1, 2, 3, 6]
  {
    var f := FromOne(6);
    assert f == [1, 2, 3, 4, 5, 6];
    var dv := DividesN(6);
    assert Filter(f[..1], dv) == [1];
    assert Filter(f[..2], dv) == [1, 2] by { assert f[..2][..1] == f[..1]; }
    assert Filter(f[..3], dv) == [1, 2, 3] by { assert f[..3][..2] == f[..2]; }
    assert Filter(f[..4], dv) == [1, 2, 3] by { assert f[..4][..3] == f[..3]; }
    assert Filter(f[..5], dv) == [1, 2, 3] by { assert f[..5][..4] == f[..4]; }
    assert f[..6][..5] == f[..5];
    assert f[..6] == f;
  }

  /** 6 = 1 + 2 + 3 is perfect. */
  lemma SixPerfect()
    ensures Perfect(6)
  {
    SixDivisors();
    var notN := Other(6);
    var ds: seq<int> := [1, 2, 3, 6];
    assert Filter(ds[..1], notN) == [1];
    assert Filter(ds[..2], notN) == [1, 2] by { assert ds[..2][..1] == ds[..1]; }
    assert Filter(ds[..3], notN) == [1, 2, 3] by { assert ds[..3][..2] == ds[..2]; }
    assert Filter(ds, notN) == [1, 2, 3] by { assert ds[..3] == ds[..|ds| - 1]; }
    var ps: seq<int> := [1, 2, 3];
    assert IntSum(ps[..1]) == 1 by { assert ps[..1][..0] == []; }
    assert IntSum(ps[..2]) == 3 by { assert ps[..2][..1] == ps[..1]; }
    assert IntSum(ps) == 6 by { assert ps[..|ps| - 1] == ps[..2]; }
  }
}

=== FILE: plugins.dfy ===
/** The plugin registry of lab2/metaprogramming.py: registration at
    subclass creation and the `execute` methods. */
module Plugins {
  import opened Seqs
  import opened Wrappers
  import opened Text

  /** What a plugin class's `execute` does. */
  datatype Behaviour = Base | UpperCase | Reversing

  /** A subclass of `Plugin`: its class name, its `_name` (None for the
      inherited `None`) and its `execute`. */
  datatype PluginClass = PluginClass(className: string, name: Option<string>, behaviour: Behaviour)

  type Registry = map<string, PluginClass>

  /** Whether a `_name` is falsy: None or the empty string. */
  predicate Falsy(name: Option<string>)
  {
    name.None? || name.value == []
  }

  /** `__init_subclass__`: a falsy `_name` or one already registered raises
      ValueError (the message is the error); otherwise the class is
      registered under its name. */
  function Register(reg: Registry, cls: PluginClass): (r: Result<Registry, string>)
  {
    if Falsy(cls.name) then Err("Плагин " + cls.className + " должен определить _name")
    else if cls.name.value in reg then Err("Плагин '" + cls.name.value + "' уже существует")
    else Ok(reg[cls.name.value := cls])
  }

  /** Registration fails for a falsy name and for a taken name, leaving
      the registry as it was; otherwise exactly one entry is added, name to
      class, and every other entry keeps its class. */
  lemma RegisterSpec(reg: Registry, cls: PluginClass)
    ensures Register(reg, cls).Ok? <==> !Falsy(cls.name) && cls.name.value !in reg
    ensures Register(reg, cls).Ok? ==> var reg' := Register(reg, cls).value;
      && reg'.Keys == reg.Keys + {cls.name.value}
      && reg'[cls.name.value] == cls
      && (forall k :: k in reg ==> reg'[k] == reg[k])
  {
  }

  const UpperCasePlugin: PluginClass := PluginClass("UpperCasePlugin", Some("upper"), UpperCase)
  const ReversePlugin: PluginClass := PluginClass("ReversePlugin", Some("reverse"), Reversing)

  /** The registry after the module body: the two plugins under "upper"
      and "reverse". */
  function ModuleRegistry(): (r: Result<Registry, string>)
    ensures r == Ok(map["upper" := UpperCasePlugin, "reverse" := ReversePlugin])
  {
    match Register(map[], UpperCasePlugin)
    case Err(e) => Err(e)
    case Ok(reg) => Register(reg, ReversePlugin)
  }

  /** The exceptions `execute` raises. */
  datatype Raised = ValueError(message: string) | NotImplementedError(message: string)

  /** `execute(text)` of each behaviour; `upper` is the character mapping
      of `str.upper`. */
  function Execute(b: Behaviour, text: Arg, upper: CharMap): (r: Result<string, Raised>)
    ensures text.NonStr? <==> r == Err(ValueError("Ожидается строка"))
    ensures text.Str? && b == Base ==> r == Err(NotImplementedError("Метод должен быть реализован"))
    ensures r.Ok? ==> |r.value| == |text.s|
  {
    if text.NonStr? then Err(ValueError("Ожидается строка"))
    else
      match b
      case Base => Err(NotImplementedError("Метод должен быть реализован"))
      case UpperCase => Ok(Map(text.s, upper))
      case Reversing => Ok(Reverse(text.s))
  }

  /** The reverse plugin reverses, and applying it twice gives back the
      text; the upper-case plugin maps each character, and applying it
      twice is applying it once when the mapping is idempotent. */
  lemma ExecuteSpec(text: string, upper: CharMap)
    ensures Execute(Reversing, Str(text), upper) == Ok(Reverse(text))
    ensures Execute(Reversing, Str(Execute(Reversing, Str(text), upper).value), upper) == Ok(text)
    ensures Execute(UpperCase, Str(text), upper) == Ok(Map(text, upper))
    ensures Idempotent(upper) ==> Execute(UpperCase, Str(Execute(UpperCase, Str(text), upper).value), upper) == Execute(UpperCase, Str(text), upper)
  {
    assert Reverse(Reverse(text)) == text;
    if Idempotent(upper) {
      MapIdempotent(text, upper);
    }
  }
}

=== FILE: prompts.dfy ===
/** Re-prompting input loops: `while True` around `int(input(...))` that
    returns the first acceptable value. A typed line reaches the model
    already through `int()`, as None where that raised ValueError. */
module Prompts {
  import opened Seqs
  import opened Wrappers

  /** A line the loop accepts: a number above zero. */
  function Positive(line: Option<int>): bool
  {
    line.Some? && line.value > 0
  }

  /** The first positive number among the lines, with its position; None
      when the lines run out first. */
  function FirstPositive(lines: seq<Option<int>>): (r: Option<(int, nat)>)
    ensures r.Some? ==> r.value.0 > 0 && r.value.1 < |lines| && lines[r.value.1] == Some(r.value.0)
    ensures r.Some? ==> forall k :: 0 <= k < r.value.1 ==> lines[k].None? || lines[k].value <= 0
    ensures r.None? <==> forall k :: 0 <= k < |lines| ==> lines[k].None? || lines[k].value <= 0
  {
    match FirstIndex(lines, Positive)
    case None => None
    case Some(i) => Some((lines[i].value, i))
  }
}

=== FILE: queue_stack.dfy ===
/** The FIFO queue and LIFO stack of lab2/queue_and_stack.py, as values:
    every operation returns the new container. */
module QueueStack {
  import opened Wrappers
  import opened Seqs

  datatype Queue<T> = Queue(items: seq<T>)

  /** `enqueue`: append at the back. */
  function Enqueue<T>(q: Queue<T>, item: T): (r: Queue<T>)
    ensures |r.items| == |q.items| + 1 && r.items[|q.items|] == item
    ensures r.items[..|q.items|] == q.items
  {
    Queue(q.items + [item])
  }

  /** `dequeue`: the front item and the rest, or None and the queue
      unchanged when it is empty. */
  function Dequeue<T>(q: Queue<T>): (r: (Option<T>, Queue<T>))
    ensures |q.items| == 0 ==> r == (None, q)
    ensures |q.items| > 0 ==> r.0 == Some(q.items[0]) && q.items == [q.items[0]] + r.1.items
  {
    if |q.items| == 0 then (None, q) else (Some(q.items[0]), Queue(q.items[1..]))
  }

  /** `peek`: the front item, or None; the queue is not an output. */
  function PeekQueue<T>(q: Queue<T>): (r: Option<T>)
    ensures r == Dequeue(q).0
  {
    if |q.items| == 0 then None else Some(q.items[0])
  }

  /** Enqueueing and dequeueing commute on a non-empty queue: the item
      taken is the old front, and the new item waits at the back. */
  lemma DequeueAfterEnqueue<T>(q: Queue<T>, x: T)
    ensures |q.items| == 0 ==> Dequeue(Enqueue(q, x)) == (Some(x), q)
    ensures |q.items| > 0 ==> Dequeue(Enqueue(q, x)) == (Dequeue(q).0, Enqueue(Dequeue(q).1, x))
  {
    if |q.items| > 0 {
      assert (q.items + [x])[1..] == q.items[1..] + [x];
    }
  }

  /** Enqueue each item in turn. */
  function EnqueueAll<T>(q: Queue<T>, xs: seq<T>): Queue<T>
    decreases |xs|
  {
    if |xs| == 0 then q else EnqueueAll(Enqueue(q, xs[0]), xs[1..])
  }

  /** Dequeue until None, collecting the items. */
  function Drain<T>(q: Queue<T>): seq<T>
    decreases |q.items|
  {
    match Dequeue(q)
    case (None, _) => []
    case (Some(x), rest) => [x] + Drain(rest)
  }

  lemma {:induction false} EnqueueAllItems<T>(q: Queue<T>, xs: seq<T>)
    ensures EnqueueAll(q, xs).items == q.items + xs
    decreases |xs|
  {
    if |xs| > 0 {
      EnqueueAllItems(Enqueue(q, xs[0]), xs[1..]);
      assert q.items + [xs[0]] + xs[1..] == q.items + xs;
    }
  }

  lemma {:induction false} DrainItems<T>(q: Queue<T>)
    ensures Drain(q) == q.items
    decreases |q.items|
  {
    if |q.items| > 0 {
      DrainItems(Dequeue(q).1);
    }
  }

  /** FIFO: items come out of a queue in the order they went in. */
  lemma Fifo<T>(xs: seq<T>)
    ensures Drain(EnqueueAll(Queue([]), xs)) == xs
  {
    EnqueueAllItems(Queue([]), xs);
    DrainItems(EnqueueAll(Queue([]), xs));
  }

  datatype Stack<T> = Stack(items: seq<T>)

  /** `push`: append on top (the end of the list). */
  function Push<T>(s: Stack<T>, item: T): (r: Stack<T>)
    ensures |r.items| == |s.items| + 1 && r.items[|s.items|] == item
    ensures r.items[..|s.items|] == s.items
  {
    Stack(s.items + [item])
  }

  /** `pop`: the top item and the rest, or None and the stack unchanged
      when it is empty. */
  function Pop<T>(s: Stack<T>): (r: (Option<T>, Stack<T>))
    ensures |s.items| == 0 ==> r == (None, s)
    ensures |s.items| > 0 ==> r.0 == Some(s.items[|s.items| - 1]) && s.items == r.1.items + [s.items[|s.items| - 1]]
  {
    if |s.items| == 0 then (None, s) else (Some(s.items[|s.items| - 1]), Stack(s.items[..|s.items| - 1]))
  }

  /** `peek`: the top item, or None. */
  function PeekStack<T>(s: Stack<T>): (r: Option<T>)
    ensures r == Pop(s).0
  {
    if |s.items| == 0 then None else Some(s.items[|s.items| - 1])
  }

  /** A push followed by a pop returns the pushed item and restores the
      stack; peek after a push sees the pushed item. */
  lemma PopAfterPush<T>(s: Stack<T>, x: T)
    ensures Pop(Push(s, x)) == (Some(x), s)
    ensures PeekStack(Push(s, x)) == Some(x)
  {
    assert (s.items + [x])[..|s.items|] == s.items;
  }

  function PushAll<T>(s: Stack<T>, xs: seq<T>): Stack<T>
    decreases |xs|
  {
    if |xs| == 0 then s else PushAll(Push(s, xs[0]), xs[1..])
  }

  /** Pop until None, collecting the items. */
  function PopAll<T>(s: Stack<T>): seq<T>
    decreases |s.items|
  {
    match Pop(s)
    case (None, _) => []
    case (Some(x), rest) => [x] + PopAll(rest)
  }

  lemma {:induction false} PushAllItems<T>(s: Stack<T>, xs: seq<T>)
    ensures PushAll(s, xs).items == s.items + xs
    decreases |xs|
  {
    if |xs| > 0 {
      PushAllItems(Push(s, xs[0]), xs[1..]);
      assert s.items + [xs[0]] + xs[1..] == s.items + xs;
    }
  }

  lemma {:induction false} PopAllItems<T>(s: Stack<T>)
    ensures PopAll(s) == Reverse(s.items)
    decreases |s.items|
  {
    if |s.items| > 0 {
      PopAllItems(Pop(s).1);
    }
  }

  /** LIFO: items come off a stack in the reverse of the order they went
      on. */
  lemma Lifo<T>(xs: seq<T>)
    ensures PopAll(PushAll(Stack([]), xs)) == Reverse(xs)
  {
    var s := PushAll(Stack([]), xs);
    PushAllItems(Stack([]), xs);
    assert s.items == xs;
    PopAllItems(s);
  }
}

=== FILE: rag.dfy ===
/** The deterministic parts of lab5/rag.py: the context truncation rule,
    keyword scoring of an answer, and the fixed test questions. The vector
    store search and the language model are not modelled; the documents a
    search returns are a parameter. */
module Rag {
  import opened Seqs
  import opened Text

  const NoData: string := "нет данных"

  /** `_get_context` given the documents the search returned: "нет данных"
      without documents; otherwise the first document, cut to 120
      characters plus "..." when longer. */
  function Context(docs: seq<string>): (r: string)
    ensures |docs| == 0 ==> r == NoData
    ensures |r| <= 123
    ensures |docs| > 0 && |docs[0]| <= 120 ==> r == docs[0]
    ensures |docs| > 0 && |docs[0]| > 120 ==> r == docs[0][..120] + "..." && StartsWith(docs[0], r[..120])
  {
    if |docs| == 0 then NoData
    else if |docs[0]| > 120 then docs[0][..120] + "..."
    else docs[0]
  }

  /** A keyword found case-insensitively in the lowered answer. */
  function Found(answerLower: string, lower: CharMap): string -> bool
  {
    (kw: string) => Contains(answerLower, Map(kw, lower))
  }

  /** Whether `evaluate_answer` scores an answer at all: non-empty and not
      containing "нет данных" once lowered. */
  predicate Scorable(answer: string, lower: CharMap)
  {
    answer != [] && !Contains(Map(answer, lower), NoData)
  }

  /** `found / total` for a count out of a total, 0 for no total. */
  function Fraction(found: nat, total: nat): (r: real)
    requires found <= total
    ensures 0.0 <= r <= 1.0
    ensures total == 0 ==> r == 0.0
    ensures total > 0 ==> (r == 1.0 <==> found == total)
  {
    if total > 0 then
      MeanBetween(found as real, total as real, 0.0, 1.0);
      (found as real) / (total as real)
    else 0.0
  }

  /** `evaluate_answer`: the fraction of keywords found in the lowered
      answer; 0 for an empty or "нет данных" answer and for no keywords. */
  function EvaluateAnswer(answer: string, keywords: seq<string>, lower: CharMap): (r: real)
    ensures !Scorable(answer, lower) || |keywords| == 0 ==> r == 0.0
    ensures 0.0 <= r <= 1.0
  {
    if !Scorable(answer, lower) then 0.0
    else Fraction(|Filter(keywords, Found(Map(answer, lower), lower))|, |keywords|)
  }

  /** A filter that keeps as many elements as it was given keeps all. */
  lemma {:induction false} FilterKeepsAll<T>(s: seq<T>, p: T -> bool)
    requires |Filter(s, p)| == |s|
    ensures forall k :: 0 <= k < |s| ==> p(s[k])
    decreases |s|
  {
    if |s| > 0 {
      var init := s[..|s| - 1];
      assert |Filter(init, p)| <= |init|;
      FilterKeepsAll(init, p);
    }
  }

  /** The score is 1 exactly when the answer is scorable and every one of
      at least one keyword is found. */
  lemma EvaluateAnswerFull(answer: string, keywords: seq<string>, lower: CharMap)
    ensures EvaluateAnswer(answer, keywords, lower) == 1.0 <==>
      Scorable(answer, lower) && |keywords| > 0 &&
      forall k :: 0 <= k < |keywords| ==> Found(Map(answer, lower), lower)(keywords[k])
  {
    if Scorable(answer, lower) && |keywords| > 0 {
      var p := Found(Map(answer, lower), lower);
      if |Filter(keywords, p)| == |keywords| {
        FilterKeepsAll(keywords, p);
      }
      if forall k :: 0 <= k < |keywords| ==> p(keywords[k]) {
        FilterAll(keywords, p);
      }
    }
  }

  datatype TestQuestion = TestQuestion(question: string, keywords: seq<string>)

  /** `get_test_questions`. */
  const TestQuestions: seq<TestQuestion> := [
    TestQuestion("сколько продолжался пермский период", ["47", "миллионов", "лет", "299", "252"]),
    TestQuestion("Дата начала пермского периода", ["299", "миллионов", "лет", "начало"]),
    TestQuestion("каким был климат в пермский период", ["сухой", "засушливый", "пустынный"]),
    TestQuestion("что вызвало вымирание", ["вулканизм", "сибирские", "траппы"]),
    TestQuestion("какие животные были доминирующими", ["терапсиды", "пеликозавры", "рептилии"])
  ]

  /** Five questions, each with keywords, so no score of a test question
      falls back to 0 for want of keywords. */
  lemma TestQuestionsShape(i: nat)
    requires i < |TestQuestions|
    ensures |TestQuestions| == 5
    ensures |TestQuestions[i].keywords| > 0
    ensures forall k :: 0 <= k < |TestQuestions[i].keywords| ==> |TestQuestions[i].keywords[k]| > 0
  {
  }
}

=== FILE: seqs.dfy ===
/** Sequence vocabulary shared by the model: counting, filtering,
    subsequences, sums, searching and slicing. Recursive definitions
    peel the LAST element, so that they follow a left-to-right Python loop
    that appends or accumulates. */
module Seqs {
  import opened Wrappers

  /** Number of occurrences of `x` in `s` (Python's `s.count(x)`). */
  function Count<T(==)>(s: seq<T>, x: T): nat
    decreases |s|
  {
    if |s| == 0 then 0
    else Count(s[..|s| - 1], x) + (if s[|s| - 1] == x then 1 else 0)
  }

  lemma {:induction false} CountAppend<T>(a: seq<T>, b: seq<T>, x: T)
    ensures Count(a + b, x) == Count(a, x) + Count(b, x)
    decreases |b|
  {
    if |b| == 0 {
      assert a + b == a;
    } else {
      assert (a + b)[..|a + b| - 1] == a + b[..|b| - 1];
      CountAppend(a, b[..|b| - 1], x);
    }
  }

  lemma {:induction false} CountPositive<T>(s: seq<T>, x: T)
    ensures Count(s, x) > 0 <==> x in s
    decreases |s|
  {
    if |s| > 0 {
      CountPositive(s[..|s| - 1], x);
      assert s == s[..|s| - 1] + [s[|s| - 1]];
    }
  }

  /** `[0, 1, ..., n-1]`, Python's `list(range(n))`. */
  function Range(n: nat): (r: seq<nat>)
    ensures |r| == n
    ensures forall i :: 0 <= i < n ==> r[i] == i
  {
    seq(n, i => i)
  }

  /** No element occurs twice. */
  predicate Distinct<T(==)>(s: seq<T>)
  {
    forall i, j :: 0 <= i < j < |s| ==> s[i] != s[j]
  }

  /** `s` lists the nodes `0..n-1`, each exactly once. */
  predicate IsPermutationOfRange(s: seq<nat>, n: nat)
  {
    multiset(s) == multiset(Range(n))
  }

  /** A permutation of `0..n-1` has length n, only elements below n, and no
      repeated element. */
  lemma PermutationOfRangeShape(s: seq<nat>, n: nat)
    requires IsPermutationOfRange(s, n)
    ensures |s| == n
    ensures forall i :: 0 <= i < |s| ==> s[i] < n
    ensures Distinct(s)
  {
    assert |s| == |multiset(s)| == |multiset(Range(n))| == n;
    forall i | 0 <= i < |s|
      ensures s[i] < n
    {
      assert s[i] in multiset(s);
      assert s[i] in multiset(Range(n));
    }
    forall i, j | 0 <= i < j < |s|
      ensures s[i] != s[j]
    {
      if s[i] == s[j] {
        var x := s[i];
        var rest := s[..i] + s[i + 1..];
        assert s == s[..i] + [x] + s[i + 1..];
        assert multiset(s) == multiset(rest) + multiset{x};
        assert x in rest by { assert rest[j - 1] == s[j]; }
        assert multiset(s)[x] >= 2;
        RangeCountsOnce(n, x);
      }
    }
  }

  lemma RangeCountsOnce(n: nat, x: nat)
    ensures multiset(Range(n))[x] <= 1
  {
    if n > 0 {
      assert Range(n) == Range(n - 1) + [n - 1];
      RangeCountsOnce(n - 1, x);
      if x == n - 1 {
        assert x !in Range(n - 1);
      }
    }
  }

  /** In a sequence without repetitions every value occurs at most once. */
  lemma {:induction false} DistinctMultiset<T>(s: seq<T>, x: T)
    requires Distinct(s)
    ensures multiset(s)[x] <= 1
    decreases |s|
  {
    if |s| > 0 {
      var init := s[..|s| - 1];
      assert s == init + [s[|s| - 1]];
      DistinctMultiset(init, x);
      forall i | 0 <= i < |init|
        ensures init[i] != s[|s| - 1]
      {
        assert init[i] == s[i];
      }
    }
  }

  /** A value at two positions occurs at least twice. */
  lemma DuplicateMultiset<T>(s: seq<T>, i: nat, j: nat)
    requires i < j < |s| && s[i] == s[j]
    ensures multiset(s)[s[i]] >= 2
  {
    assert s == s[..j] + [s[j]] + s[j + 1..];
    assert s[..j][i] == s[i];
    assert s[i] in multiset(s[..j]);
  }

  /** Count agrees with the multiset multiplicity. */
  lemma {:induction false} CountMultiset<T>(s: seq<T>, x: T)
    ensures Count(s, x) == multiset(s)[x]
    decreases |s|
  {
    if |s| > 0 {
      CountMultiset(s[..|s| - 1], x);
      assert s == s[..|s| - 1] + [s[|s| - 1]];
    }
  }

  /** A permutation of a sequence without repetitions has none. */
  lemma DistinctPermutation<T>(s: seq<T>, r: seq<T>)
    requires Distinct(s) && multiset(r) == multiset(s)
    ensures Distinct(r)
  {
    forall i, j | 0 <= i < j < |r|
      ensures r[i] != r[j]
    {
      DistinctMultiset(s, r[i]);
      if r[i] == r[j] {
        DuplicateMultiset(r, i, j);
      }
    }
  }

  /** Elements of `s` satisfying `p`, in order (a Python list
      comprehension with an `if`, or a loop that appends). */
  function Filter<T>(s: seq<T>, p: T -> bool): (r: seq<T>)
    ensures |r| <= |s|
    decreases |s|
  {
    if |s| == 0 then []
    else Filter(s[..|s| - 1], p) + (if p(s[|s| - 1]) then [s[|s| - 1]] else [])
  }

  /** `a` is obtained from `b` by deleting elements (relative order kept). */
  predicate IsSubsequence<T(==)>(a: seq<T>, b: seq<T>)
    decreases |b|
  {
    if |a| == 0 then true
    else if |b| == 0 then false
    else if a[|a| - 1] == b[|b| - 1] then IsSubsequence(a[..|a| - 1], b[..|b| - 1])
    else IsSubsequence(a, b[..|b| - 1])
  }

  /** Filter keeps every occurrence of a qualifying element and none of
      the others. */
  lemma {:induction false} FilterCount<T>(s: seq<T>, p: T -> bool, x: T)
    ensures Count(Filter(s, p), x) == (if p(x) then Count(s, x) else 0)
    decreases |s|
  {
    if |s| > 0 {
      var init := s[..|s| - 1];
      var last := s[|s| - 1];
      var tail := if p(last) then [last] else [];
      FilterCount(init, p, x);
      assert Filter(s, p) == Filter(init, p) + tail;
      CountAppend(Filter(init, p), tail, x);
      if p(last) {
        assert tail[..0] == [];
      }
    }
  }

  /** The elements Filter keeps are those of `s` that satisfy `p`. */
  lemma FilterMembers<T>(s: seq<T>, p: T -> bool, x: T)
    ensures x in Filter(s, p) <==> x in s && p(x)
  {
    FilterCount(s, p, x);
    CountPositive(Filter(s, p), x);
    CountPositive(s, x);
  }

  /** Filter keeps the input order. */
  lemma {:induction false} FilterSubsequence<T>(s: seq<T>, p: T -> bool)
    ensures IsSubsequence(Filter(s, p), s)
    decreases |s|
  {
    if |s| > 0 {
      var init := s[..|s| - 1];
      var last := s[|s| - 1];
      FilterSubsequence(init, p);
      var r := Filter(s, p);
      if p(last) {
        assert r[..|r| - 1] == Filter(init, p);
      } else {
        assert r == Filter(init, p);
        if |r| > 0 {
          FilterMembers(init, p, r[|r| - 1]);
          assert r[|r| - 1] != last;
        }
      }
    }
  }

  /** What `Filter` keeps: the qualifying elements, each exactly as often
      as it occurs in the input, in input order. */
  lemma FilterSpec<T>(s: seq<T>, p: T -> bool)
    ensures forall x :: Count(Filter(s, p), x) == (if p(x) then Count(s, x) else 0)
    ensures forall x :: x in Filter(s, p) <==> x in s && p(x)
    ensures IsSubsequence(Filter(s, p), s)
  {
    forall x
      ensures Count(Filter(s, p), x) == (if p(x) then Count(s, x) else 0)
      ensures x in Filter(s, p) <==> x in s && p(x)
    {
      FilterCount(s, p, x);
      FilterMembers(s, p, x);
    }
    FilterSubsequence(s, p);
  }

  /** Filtering a sequence without repetitions leaves none. */
  lemma FilterDistinct<T>(s: seq<T>, p: T -> bool)
    requires Distinct(s)
    ensures Distinct(Filter(s, p))
  {
    var f := Filter(s, p);
    forall i, j | 0 <= i < j < |f|
      ensures f[i] != f[j]
    {
      if f[i] == f[j] {
        var x := f[i];
        DuplicateMultiset(f, i, j);
        CountMultiset(f, x);
        FilterCount(s, p, x);
        CountMultiset(s, x);
        DistinctMultiset(s, x);
      }
    }
  }

  /** A filter every element passes keeps the whole sequence. */
  lemma {:induction false} FilterAll<T>(s: seq<T>, p: T -> bool)
    requires forall k :: 0 <= k < |s| ==> p(s[k])
    ensures Filter(s, p) == s
    decreases |s|
  {
    if |s| > 0 {
      FilterAll(s[..|s| - 1], p);
      assert s == s[..|s| - 1] + [s[|s| - 1]];
    }
  }

  /** A filter no element passes keeps nothing. */
  lemma {:induction false} FilterNone<T>(s: seq<T>, p: T -> bool)
    requires forall k :: 0 <= k < |s| ==> !p(s[k])
    ensures Filter(s, p) == []
    decreases |s|
  {
    if |s| > 0 {
      FilterNone(s[..|s| - 1], p);
    }
  }

  /** One more step of a filtering loop over `s`. */
  lemma FilterStep<T>(s: seq<T>, p: T -> bool, i: nat)
    requires i < |s|
    ensures Filter(s[..i + 1], p) == Filter(s[..i], p) + (if p(s[i]) then [s[i]] else [])
  {
    assert s[..i + 1][..i] == s[..i];
  }

  /** Filtering a sequence with one element appended. */
  lemma FilterSnoc<T>(s: seq<T>, x: T, p: T -> bool)
    ensures Filter(s + [x], p) == Filter(s, p) + (if p(x) then [x] else [])
  {
    assert (s + [x])[..|s|] == s;
  }

  /** Filtering distributes over concatenation. */
  lemma {:induction false} FilterAppend<T>(a: seq<T>, b: seq<T>, p: T -> bool)
    ensures Filter(a + b, p) == Filter(a, p) + Filter(b, p)
    decreases |b|
  {
    if |b| > 0 {
      var b' := b[..|b| - 1];
      FilterAppend(a, b', p);
      assert (a + b)[..|a + b| - 1] == a + b';
    } else {
      assert a + b == a;
    }
  }

  /** Where the i-th kept element stands in `s`: at a qualifying index
      k, with the elements kept before it being exactly those kept from
      `s[..k]`. */
  lemma {:induction false} FilterPosition<T>(s: seq<T>, p: T -> bool, i: nat) returns (k: nat)
    requires i < |Filter(s, p)|
    ensures k < |s| && p(s[k]) && s[k] == Filter(s, p)[i]
    ensures Filter(s[..k], p) == Filter(s, p)[..i]
    decreases |s|
  {
    var s' := s[..|s| - 1];
    var f' := Filter(s', p);
    assert Filter(s, p) == f' + (if p(s[|s| - 1]) then [s[|s| - 1]] else []);
    if i < |f'| {
      k := FilterPosition(s', p, i);
      assert s[..k] == s'[..k];
    } else {
      k := |s| - 1;
      assert s[..k] == s';
    }
  }

  /** Filter seen from the front: the head if it qualifies, then the
      filtered tail. */
  lemma FilterCons<T>(s: seq<T>, p: T -> bool)
    requires |s| > 0
    ensures Filter(s, p) == (if p(s[0]) then [s[0]] else []) + Filter(s[1..], p)
  {
    FilterAppend([s[0]], s[1..], p);
    assert s == [s[0]] + s[1..];
    assert Filter([s[0]], p) == Filter([s[0]][..0], p) + (if p(s[0]) then [s[0]] else []);
    assert [s[0]][..0] == [];
  }

  /** Filtering twice is filtering once by the conjunction of the tests. */
  lemma {:induction false} FilterTwice<T>(s: seq<T>, p: T -> bool, q: T -> bool, both: T -> bool)
    requires forall x :: both(x) == (p(x) && q(x))
    ensures Filter(Filter(s, p), q) == Filter(s, both)
    decreases |s|
  {
    if |s| > 0 {
      var init := s[..|s| - 1];
      var last := s[|s| - 1];
      FilterTwice(init, p, q, both);
      FilterAppend(Filter(init, p), if p(last) then [last] else [], q);
      assert Filter([last], q) == (if q(last) then [last] else []) by {
        assert [last][..0] == [];
      }
      assert Filter([], q) == [];
    }
  }

  /** `s` with its first occurrence of `x` removed (Python `set.remove`
      on a set enumerated as `s`, which keeps the others in order). */
  function Remove<T(==)>(s: seq<T>, x: T): (r: seq<T>)
    ensures x in s ==> |r| == |s| - 1
    ensures x in s ==> multiset(r) == multiset(s) - multiset{x}
    ensures x !in s ==> r == s
    decreases |s|
  {
    if |s| == 0 then []
    else if s[0] == x then
      assert s == [s[0]] + s[1..];
      s[1..]
    else
      assert s == [s[0]] + s[1..];
      [s[0]] + Remove(s[1..], x)
  }

  /** Left-to-right sum of reals (Python `sum` / a `+=` loop). */
  function Sum(s: seq<real>): real
    decreases |s|
  {
    if |s| == 0 then 0.0 else Sum(s[..|s| - 1]) + s[|s| - 1]
  }

  /** Left-to-right sum of integers. */
  function IntSum(s: seq<int>): int
    decreases |s|
  {
    if |s| == 0 then 0 else IntSum(s[..|s| - 1]) + s[|s| - 1]
  }

  lemma {:induction false} SumNonNegative(s: seq<real>)
    requires forall i :: 0 <= i < |s| ==> s[i] >= 0.0
    ensures Sum(s) >= 0.0
    decreases |s|
  {
    if |s| > 0 {
      SumNonNegative(s[..|s| - 1]);
    }
  }

  /** n * lo <= total <= n * hi with n > 0 puts total / n in [lo, hi]. */
  lemma MeanBetween(total: real, n: real, lo: real, hi: real)
    requires n > 0.0 && n * lo <= total <= n * hi
    ensures lo <= total / n <= hi
  {
  }

  /** Python `s.startswith(prefix)`. */
  predicate StartsWith<T(==)>(s: seq<T>, prefix: seq<T>)
  {
    |prefix| <= |s| && s[..|prefix|] == prefix
  }

  /** `needle` occurs in `hay` as a contiguous block (Python `needle in hay`). */
  predicate Contains<T(==)>(hay: seq<T>, needle: seq<T>)
    decreases |hay|
  {
    StartsWith(hay, needle) || (|hay| > 0 && Contains(hay[1..], needle))
  }

  /** Element-wise image of a sequence (Python `list(map(f, s))`). */
  function Map<A, B>(s: seq<A>, f: A -> B): (r: seq<B>)
    ensures |r| == |s|
    ensures forall i :: 0 <= i < |s| ==> r[i] == f(s[i])
  {
    seq(|s|, i requires 0 <= i < |s| => f(s[i]))
  }

  /** `s[::-1]`: the elements in the opposite order. */
  function Reverse<T>(xs: seq<T>): (r: seq<T>)
    ensures |r| == |xs|
    ensures forall i :: 0 <= i < |xs| ==> r[i] == xs[|xs| - 1 - i]
  {
    seq(|xs|, i requires 0 <= i < |xs| => xs[|xs| - 1 - i])
  }

  /** Python's prefix slice `s[:k]`, including a negative `k`, which counts
      from the end. */
  function Take<T>(s: seq<T>, k: int): (r: seq<T>)
    ensures |r| <= |s|
    ensures 0 <= k ==> |r| == if k < |s| then k else |s|
    ensures forall i :: 0 <= i < |r| ==> r[i] == s[i]
  {
    if k >= |s| then s
    else if k >= 0 then s[..k]
    else if -k >= |s| then []
    else s[..|s| + k]
  }

  /** Python's suffix slice `s[-k:]` for k >= 1: the last k elements, or
      all of `s` when it is shorter. */
  function LastN<T>(s: seq<T>, k: nat): (r: seq<T>)
    requires k >= 1
    ensures |r| == if |s| < k then |s| else k
    ensures forall i :: 0 <= i < |r| ==> r[i] == s[|s| - |r| + i]
  {
    if |s| <= k then s else s[|s| - k..]
  }

  /** The first position whose element passes `p`, if any (a `while True`
      loop over a stream of inputs that returns the first accepted one). */
  function FirstIndex<T>(s: seq<T>, p: T -> bool): (r: Option<nat>)
    ensures r.Some? ==> r.value < |s| && p(s[r.value]) && forall j :: 0 <= j < r.value ==> !p(s[j])
    ensures r.None? ==> forall j :: 0 <= j < |s| ==> !p(s[j])
    decreases |s|
  {
    if |s| == 0 then None
    else if p(s[0]) then Some(0)
    else
      var r := FirstIndex(s[1..], p);
      if r.None? then None else Some(r.value + 1)
  }

  /** FirstIndex seen from the front: 0 if the head qualifies, otherwise
      one past the first qualifying index of the tail. */
  lemma FirstIndexCons<T>(s: seq<T>, p: T -> bool)
    requires |s| > 0
    ensures FirstIndex(s, p) ==
      if p(s[0]) then Some(0)
      else if FirstIndex(s[1..], p).None? then None
      else Some(FirstIndex(s[1..], p).value + 1)
  {
  }
}

=== FILE: sorting.dfy ===
/** Python's `sorted(xs, key=..., reverse=...)` as a stable insertion sort
    over a strict weak order on keys. */
module Sorting {
  import opened Seqs

  /** `lt` orders keys strictly and its "not less" is transitive, so
      keys fall into ordered classes of equivalent keys. */
  ghost predicate StrictWeakOrder<K(!new)>(lt: (K, K) -> bool)
  {
    && (forall a, b :: lt(a, b) ==> !lt(b, a))
    && (forall a, b, c :: !lt(a, b) && !lt(b, c) ==> !lt(a, c))
  }

  /** `reverse=True`: the same comparisons with the arguments swapped.
      Python keeps equal keys in input order in both directions. */
  function Flip<K>(lt: (K, K) -> bool): (K, K) -> bool
  {
    (a: K, b: K) => lt(b, a)
  }

  /** Reversing a strict weak order gives a strict weak order. */
  lemma FlipStrictWeakOrder<K(!new)>(lt: (K, K) -> bool)
    requires StrictWeakOrder(lt)
    ensures StrictWeakOrder(Flip(lt))
  {
    var f := Flip(lt);
    forall a, b, c | !f(a, b) && !f(b, c)
      ensures !f(a, c)
    {
      assert !lt(b, a) && !lt(c, b);
    }
  }

  /** Ordering on integers. */
  function IntLess(a: int, b: int): bool
  {
    a < b
  }

  /** Ordering on reals. */
  function RealLess(a: real, b: real): bool
  {
    a < b
  }

  /** Python's string comparison: lexicographic by code point, a proper
      prefix first. */
  function StringLess(a: string, b: string): bool
    decreases |a|
  {
    if |b| == 0 then false
    else if |a| == 0 then true
    else if a[0] != b[0] then a[0] < b[0]
    else StringLess(a[1..], b[1..])
  }

  /** Two different strings are ordered one way or the other. */
  lemma {:induction false} StringLessTotal(a: string, b: string)
    ensures a == b || StringLess(a, b) || StringLess(b, a)
    decreases |a|
  {
    if |a| > 0 && |b| > 0 && a[0] == b[0] {
      StringLessTotal(a[1..], b[1..]);
      if a[1..] == b[1..] {
        assert a == [a[0]] + a[1..] && b == [b[0]] + b[1..];
      }
    }
  }

  /** String order is transitive. */
  lemma {:induction false} StringLessTransitive(a: string, b: string, c: string)
    requires StringLess(a, b) && StringLess(b, c)
    ensures StringLess(a, c)
    decreases |a|
  {
    if |a| > 0 && a[0] == b[0] && b[0] == c[0] {
      StringLessTransitive(a[1..], b[1..], c[1..]);
    }
  }

  /** String order is irreflexive. */
  lemma {:induction false} StringLessIrreflexive(a: string)
    ensures !StringLess(a, a)
    decreases |a|
  {
    if |a| > 0 {
      StringLessIrreflexive(a[1..]);
    }
  }

  /** String order is a strict weak order (indeed a total one). */
  lemma StringLessOrder()
    ensures StrictWeakOrder(StringLess)
  {
    forall a, b | StringLess(a, b)
      ensures !StringLess(b, a)
    {
      if StringLess(b, a) {
        StringLessTransitive(a, b, a);
        StringLessIrreflexive(a);
      }
    }
    forall a, b, c | StringLess(a, c)
      ensures StringLess(a, b) || StringLess(b, c)
    {
      StringLessTotal(a, b);
      if StringLess(b, a) {
        StringLessTransitive(b, a, c);
      }
    }
  }

  /** No element's key is below that of an element before it. */
  ghost predicate SortedBy<T, K>(s: seq<T>, key: T -> K, lt: (K, K) -> bool)
  {
    forall i, j :: 0 <= i < j < |s| ==> !lt(key(s[j]), key(s[i]))
  }

  /** Insert `x` after every element whose key is not above its key. */
  function Insert<T, K>(sorted: seq<T>, x: T, key: T -> K, lt: (K, K) -> bool): (r: seq<T>)
    ensures multiset(r) == multiset(sorted) + multiset{x}
    ensures |r| == |sorted| + 1
    decreases |sorted|
  {
    if |sorted| == 0 || !lt(key(x), key(sorted[|sorted| - 1])) then sorted + [x]
    else
      var init := sorted[..|sorted| - 1];
      assert sorted == init + [sorted[|sorted| - 1]];
      Insert(init, x, key, lt) + [sorted[|sorted| - 1]]
  }

  /** Insertion keeps a sorted sequence sorted. */
  lemma {:induction false} InsertSorted<T, K(!new)>(sorted: seq<T>, x: T, key: T -> K, lt: (K, K) -> bool)
    requires StrictWeakOrder(lt)
    requires SortedBy(sorted, key, lt)
    ensures SortedBy(Insert(sorted, x, key, lt), key, lt)
    decreases |sorted|
  {
    var n := |sorted|;
    if n > 0 {
      var last := sorted[n - 1];
      var init := sorted[..n - 1];
      assert sorted == init + [last];
      if lt(key(x), key(last)) {
        SortedInit(init, last, key, lt);
        InsertSorted(init, x, key, lt);
        InsertedBelow(init, x, last, key, lt);
        SortedAppend(Insert(init, x, key, lt), last, key, lt);
      } else {
        AboveAll(init, last, x, key, lt);
        SortedAppend(sorted, x, key, lt);
      }
    }
  }

  /** Dropping the last element keeps a sequence sorted, and that element
      is not below any other. */
  lemma SortedInit<T, K>(init: seq<T>, last: T, key: T -> K, lt: (K, K) -> bool)
    requires SortedBy(init + [last], key, lt)
    ensures SortedBy(init, key, lt)
    ensures forall i :: 0 <= i < |init| ==> !lt(key(last), key(init[i]))
  {
    var s := init + [last];
    forall i, j | 0 <= i < j < |init|
      ensures !lt(key(init[j]), key(init[i]))
    {
      assert s[i] == init[i] && s[j] == init[j];
    }
    forall i | 0 <= i < |init|
      ensures !lt(key(last), key(init[i]))
    {
      assert s[i] == init[i] && s[|init|] == last;
    }
  }

  /** Appending an element not below any element keeps a sequence sorted. */
  lemma SortedAppend<T, K>(s: seq<T>, y: T, key: T -> K, lt: (K, K) -> bool)
    requires SortedBy(s, key, lt)
    requires forall i :: 0 <= i < |s| ==> !lt(key(y), key(s[i]))
    ensures SortedBy(s + [y], key, lt)
  {
    var r := s + [y];
    forall i, j | 0 <= i < j < |r|
      ensures !lt(key(r[j]), key(r[i]))
    {
      assert r[i] == s[i];
      if j < |s| {
        assert r[j] == s[j];
      }
    }
  }

  /** An element below `last`, inserted among elements `last` is not below,
      leaves `last` not below any of them. */
  lemma InsertedBelow<T, K(!new)>(init: seq<T>, x: T, last: T, key: T -> K, lt: (K, K) -> bool)
    requires StrictWeakOrder(lt)
    requires lt(key(x), key(last))
    requires forall i :: 0 <= i < |init| ==> !lt(key(last), key(init[i]))
    ensures forall i :: 0 <= i < |Insert(init, x, key, lt)| ==> !lt(key(last), key(Insert(init, x, key, lt)[i]))
  {
    var mid := Insert(init, x, key, lt);
    forall i | 0 <= i < |mid|
      ensures !lt(key(last), key(mid[i]))
    {
      assert mid[i] in multiset(mid);
      if mid[i] != x {
        assert mid[i] in multiset(init);
        var j :| 0 <= j < |init| && init[j] == mid[i];
      }
    }
  }

  /** An element not below `last`, which is not below any earlier element,
      is not below any element at all. */
  lemma AboveAll<T, K(!new)>(init: seq<T>, last: T, x: T, key: T -> K, lt: (K, K) -> bool)
    requires StrictWeakOrder(lt)
    requires SortedBy(init + [last], key, lt)
    requires !lt(key(x), key(last))
    ensures forall i :: 0 <= i < |init + [last]| ==> !lt(key(x), key((init + [last])[i]))
  {
    SortedInit(init, last, key, lt);
    forall i | 0 <= i < |init + [last]|
      ensures !lt(key(x), key((init + [last])[i]))
    {
      if i < |init| {
        assert (init + [last])[i] == init[i];
      }
    }
  }

  /** `sorted(s, key=key)` under the order `lt`. */
  function SortBy<T, K>(s: seq<T>, key: T -> K, lt: (K, K) -> bool): (r: seq<T>)
    ensures multiset(r) == multiset(s)
    ensures |r| == |s|
    decreases |s|
  {
    if |s| == 0 then []
    else
      assert s == s[..|s| - 1] + [s[|s| - 1]];
      Insert(SortBy(s[..|s| - 1], key, lt), s[|s| - 1], key, lt)
  }

  /** The result of SortBy is sorted. */
  lemma {:induction false} SortBySorted<T, K(!new)>(s: seq<T>, key: T -> K, lt: (K, K) -> bool)
    requires StrictWeakOrder(lt)
    ensures SortedBy(SortBy(s, key, lt), key, lt)
    decreases |s|
  {
    if |s| > 0 {
      SortBySorted(s[..|s| - 1], key, lt);
      InsertSorted(SortBy(s[..|s| - 1], key, lt), s[|s| - 1], key, lt);
    }
  }

  /** The elements whose key is equivalent to `k`: neither below nor
      above it. */
  function KeyClass<T, K>(key: T -> K, lt: (K, K) -> bool, k: K): T -> bool
  {
    (x: T) => !lt(key(x), k) && !lt(k, key(x))
  }

  /** Insertion places `x` after every element whose key is unordered
      with its own: read through a group of mutually unordered keys, the
      sequence gains `x` at its end. */
  lemma {:induction false} InsertStable<T, K>(sorted: seq<T>, x: T, key: T -> K, lt: (K, K) -> bool, p: T -> bool)
    requires forall y, z :: p(y) && p(z) ==> !lt(key(y), key(z))
    ensures Filter(Insert(sorted, x, key, lt), p) == Filter(sorted, p) + (if p(x) then [x] else [])
    decreases |sorted|
  {
    if |sorted| == 0 || !lt(key(x), key(sorted[|sorted| - 1])) {
      FilterSnoc(sorted, x, p);
    } else {
      var last := sorted[|sorted| - 1];
      var init := sorted[..|sorted| - 1];
      assert sorted == init + [last];
      InsertStable(init, x, key, lt, p);
      var mid := Insert(init, x, key, lt);
      assert Insert(sorted, x, key, lt) == mid + [last];
      FilterSnoc(mid, last, p);
      FilterSnoc(init, last, p);
      if p(x) {
        assert !p(last);
      }
    }
  }

  /** Elements whose keys are equivalent to one key `k` have mutually
      unordered keys. */
  lemma KeyClassUnordered<T, K(!new)>(key: T -> K, lt: (K, K) -> bool, k: K)
    requires StrictWeakOrder(lt)
    ensures forall y, z :: KeyClass(key, lt, k)(y) && KeyClass(key, lt, k)(z) ==> !lt(key(y), key(z))
  {
  }

  /** `sorted` is stable: read through any class of equivalent keys, the
      result lists that class's elements in their input order. With
      `Flip`, the same holds for `reverse=True`. */
  lemma {:induction false} SortByStable<T, K(!new)>(s: seq<T>, key: T -> K, lt: (K, K) -> bool, k: K)
    requires StrictWeakOrder(lt)
    ensures Filter(SortBy(s, key, lt), KeyClass(key, lt, k)) == Filter(s, KeyClass(key, lt, k))
    decreases |s|
  {
    if |s| > 0 {
      var init := s[..|s| - 1];
      SortByStable(init, key, lt, k);
      KeyClassUnordered(key, lt, k);
      InsertStable(SortBy(init, key, lt), s[|s| - 1], key, lt, KeyClass(key, lt, k));
    }
  }

  /** Integer and real order are strict weak orders. */
  lemma NumberOrders()
    ensures StrictWeakOrder(IntLess)
    ensures StrictWeakOrder(RealLess)
  {
  }
}

=== FILE: stone_scissors.dfy ===
/** Rock-paper-scissors-lizard-Spock against the computer
    (lab1/StoneScissors.py): the rules table, one round, and a match to a
    target number of wins. */
module StoneScissors {
  import opened Seqs
  import opened Wrappers
  import opened Text

  datatype Move = Rock | Scissors | Paper | Lizard | Spock

  /** The word a player types for each move. */
  function Name(m: Move): string
  {
    match m
    case Rock => "камень"
    case Scissors => "ножницы"
    case Paper => "бумага"
    case Lizard => "ящерица"
    case Spock => "спок"
  }

  /** The `choices` list, in its order. */
  const Choices: seq<Move> := [Rock, Scissors, Paper, Lizard, Spock]

  /** `player in choices`: the move a lowered line names, if any. */
  function Parse(line: string): (r: Option<Move>)
    ensures r.Some? ==> Name(r.value) == line
    ensures r.None? ==> forall m: Move :: Name(m) != line
  {
    if line == Name(Rock) then Some(Rock)
    else if line == Name(Scissors) then Some(Scissors)
    else if line == Name(Paper) then Some(Paper)
    else if line == Name(Lizard) then Some(Lizard)
    else if line == Name(Spock) then Some(Spock)
    else None
  }

  /** Every move is recognised by its own name. */
  lemma ParseName(m: Move)
    ensures Parse(Name(m)) == Some(m)
  {
  }

  /** The `rules` table: the two moves each move defeats. */
  function Rules(m: Move): seq<Move>
  {
    match m
    case Scissors => [Paper, Lizard]
    case Paper => [Rock, Spock]
    case Rock => [Scissors, Lizard]
    case Lizard => [Spock, Paper]
    case Spock => [Scissors, Rock]
  }

  predicate Beats(a: Move, b: Move)
  {
    b in Rules(a)
  }

  /** The table is a fair tournament: every move defeats two other moves,
      none defeats itself, and of two different moves exactly one
      defeats the other. */
  lemma RulesTournament(a: Move, b: Move)
    ensures |Rules(a)| == 2 && Distinct(Rules(a))
    ensures !Beats(a, a)
    ensures a != b ==> (Beats(a, b) <==> !Beats(b, a))
  {
  }

  /** The `win_phrases` table, keyed by (winner, loser). */
  const WinPhrases: map<(Move, Move), string> := map[
    (Scissors, Paper) := "Ножницы режут бумагу",
    (Paper, Rock) := "Бумага накрывает камень",
    (Rock, Lizard) := "Камень давит ящерицу",
    (Lizard, Spock) := "Ящерица травит Спока",
    (Spock, Scissors) := "Спок ломает ножницы",
    (Scissors, Lizard) := "Ножницы убивают ящерицу",
    (Lizard, Paper) := "Ящерица ест бумагу",
    (Paper, Spock) := "Бумага подставляет Спока",
    (Spock, Rock) := "Спок испаряет камень",
    (Rock, Scissors) := "Камень затупляет ножницы"
  ]

  /** The phrase table has an entry for exactly the winning pairs of the
      rules, so the `""` default of `win_phrases.get` is never used. */
  lemma WinPhrasesMatchRules(a: Move, b: Move)
    ensures (a, b) in WinPhrases <==> Beats(a, b)
    ensures (a, b) in WinPhrases ==> |WinPhrases[(a, b)]| > 0
  {
  }

  /** `win_phrases.get(key, "")`. */
  function Phrase(winner: Move, loser: Move): string
  {
    if (winner, loser) in WinPhrases then WinPhrases[(winner, loser)] else ""
  }

  /** What `play_round` returns: the two score increments and the phrase
      it prints before them. */
  datatype Round = Round(userWin: nat, computerWin: nat, phrase: string)

  /** `play_round` on a typed line and the computer's draw: None for a
      line naming no move (the `(None, None)` return), a draw scoring
      nothing, otherwise one point to the side whose move defeats the
      other. */
  function PlayRound(line: string, lower: CharMap, computer: Move): (r: Option<Round>)
    ensures r.None? <==> Parse(Map(line, lower)).None?
  {
    match Parse(Map(line, lower))
    case None => None
    case Some(player) =>
      if player == computer then Some(Round(0, 0, ""))
      else if Beats(player, computer) then Some(Round(1, 0, Phrase(player, computer)))
      else Some(Round(0, 1, Phrase(computer, player)))
  }

  /** A valid round gives at most one point; the user scores exactly when
      their move defeats the computer's, the computer exactly when its
      move defeats the user's; a decided round names its winning pair. */
  lemma PlayRoundSpec(line: string, lower: CharMap, computer: Move)
    requires Parse(Map(line, lower)).Some?
    ensures var player := Parse(Map(line, lower)).value;
      var r := PlayRound(line, lower, computer).value;
      && r.userWin + r.computerWin <= 1
      && (r.userWin == 1 <==> Beats(player, computer))
      && (r.computerWin == 1 <==> Beats(computer, player))
      && (r.userWin + r.computerWin == 0 <==> player == computer)
      && (r.userWin + r.computerWin == 1 ==> |r.phrase| > 0)
  {
    var player := Parse(Map(line, lower)).value;
    RulesTournament(player, computer);
    WinPhrasesMatchRules(player, computer);
    WinPhrasesMatchRules(computer, player);
  }

  /** The state of the `play_game` loop when the lines run out or the
      match ends. */
  datatype Score = Score(user: nat, computer: nat, over: bool)

  /** The `play_game` loop from the given scores over the remaining
      (line, computer draw) pairs; an invalid line is skipped without a
      score change. */
  function PlayMatch(target: int, user: nat, computer: nat, lower: CharMap, rounds: seq<(string, Move)>): (r: Score)
    decreases |rounds|
  {
    if user >= target || computer >= target then Score(user, computer, true)
    else if |rounds| == 0 then Score(user, computer, false)
    else
      match PlayRound(rounds[0].0, lower, rounds[0].1)
      case None => PlayMatch(target, user, computer, lower, rounds[1..])
      case Some(round) => PlayMatch(target, user + round.userWin, computer + round.computerWin, lower, rounds[1..])
  }

  /** Scores only grow by the one point of a round, so they never pass
      the target and never reach it together; the match is over exactly
      when one side has reached it. */
  lemma {:induction false} PlayMatchBounds(target: int, user: nat, computer: nat, lower: CharMap, rounds: seq<(string, Move)>)
    requires user <= target && computer <= target && !(user == target && computer == target)
    ensures var r := PlayMatch(target, user, computer, lower, rounds);
      && r.user <= target && r.computer <= target
      && !(r.user == target && r.computer == target)
      && (r.over <==> r.user == target || r.computer == target)
      && user <= r.user && computer <= r.computer
    decreases |rounds|
  {
    if user < target && computer < target && |rounds| > 0 {
      var u, c := PlayMatchNext(target, user, computer, lower, rounds);
      PlayMatchBounds(target, u, c, lower, rounds[1..]);
    }
  }

  /** One line of the loop: the match goes on from scores that grew by at
      most one point in total. */
  lemma PlayMatchNext(target: int, user: nat, computer: nat, lower: CharMap, rounds: seq<(string, Move)>) returns (u: nat, c: nat)
    requires user < target && computer < target && |rounds| > 0
    ensures PlayMatch(target, user, computer, lower, rounds) == PlayMatch(target, u, c, lower, rounds[1..])
    ensures user <= u && computer <= c && u + c <= user + computer + 1
  {
    match PlayRound(rounds[0].0, lower, rounds[0].1)
    case None =>
      u, c := user, computer;
    case Some(round) =>
      RoundPoint(rounds[0].0, lower, rounds[0].1);
      u, c := user + round.userWin, computer + round.computerWin;
  }

  /** A round gives at most one point. */
  lemma RoundPoint(line: string, lower: CharMap, computer: Move)
    requires PlayRound(line, lower, computer).Some?
    ensures PlayRound(line, lower, computer).value.userWin + PlayRound(line, lower, computer).value.computerWin <= 1
  {
  }

  /** The closing message of `play_game`: the user wins the match exactly
      when their score is the target. */
  function UserWinsMatch(target: int, lower: CharMap, rounds: seq<(string, Move)>): bool
  {
    PlayMatch(target, 0, 0, lower, rounds).user == target
  }

  /** From a fresh match with a positive target (what `ask_target_score`
      returns): when the match is over, exactly one side has the target,
      and the user is announced the winner exactly when the computer did
      not reach it. */
  lemma MatchWinner(target: int, lower: CharMap, rounds: seq<(string, Move)>)
    requires target > 0
    requires PlayMatch(target, 0, 0, lower, rounds).over
    ensures UserWinsMatch(target, lower, rounds) <==> PlayMatch(target, 0, 0, lower, rounds).computer < target
  {
    PlayMatchBounds(target, 0, 0, lower, rounds);
  }
}

=== FILE: task_tracker.dfy ===
/** The task tracker of lab2/task_tracker.py: tasks, their dictionary
    form, adding, completing and filtering by category. The JSON file and
    the console menu are not modelled. */
module TaskTracker {
  import opened Seqs
  import opened Wrappers
  import opened Text

  datatype Task = Task(description: string, category: string, isCompleted: bool)

  /** `Task(description, category)`: not yet completed. */
  function NewTask(description: string, category: string): (t: Task)
    ensures !t.isCompleted && t.description == description && t.category == category
  {
    Task(description, category, false)
  }

  /** A JSON value of the dictionary form. */
  datatype Value = Str(s: string) | Bool(b: bool) | Other

  /** `to_dict`. */
  function ToDict(t: Task): (d: map<string, Value>)
    ensures d.Keys == {"description", "category", "is_completed"}
  {
    map["description" := Value.Str(t.description), "category" := Value.Str(t.category), "is_completed" := Bool(t.isCompleted)]
  }

  /** Why `from_dict` fails: a missing key, or a value of a kind the model's
      Task cannot hold. */
  datatype DictError = KeyError(key: string) | WrongKind(key: string)

  /** `from_dict`: reads the three keys, raising KeyError for a missing
      one. */
  function FromDict(d: map<string, Value>): (r: Result<Task, DictError>)
    ensures r.Ok? ==> d.Keys >= {"description", "category", "is_completed"}
    ensures "description" !in d ==> r == Err(KeyError("description"))
  {
    if "description" !in d then Err(KeyError("description"))
    else if "category" !in d then Err(KeyError("category"))
    else if "is_completed" !in d then Err(KeyError("is_completed"))
    else if !d["description"].Str? then Err(WrongKind("description"))
    else if !d["category"].Str? then Err(WrongKind("category"))
    else if !d["is_completed"].Bool? then Err(WrongKind("is_completed"))
    else Ok(Task(d["description"].s, d["category"].s, d["is_completed"].b))
  }

  /** The dictionary form round-trips both ways: a task comes back
      unchanged, and a well-formed three-key dictionary is rebuilt
      exactly. */
  lemma DictRoundTrip(t: Task, d: map<string, Value>)
    ensures FromDict(ToDict(t)) == Ok(t)
    ensures FromDict(d).Ok? && d.Keys == {"description", "category", "is_completed"} ==> ToDict(FromDict(d).value) == d
  {
  }

  datatype Tracker = Tracker(tasks: seq<Task>)

  /** `add_task`: a description that is empty or only whitespace is
      refused; otherwise one task is appended with the stripped
      description and the stripped, lower-cased category. */
  function AddTask(tr: Tracker, description: string, category: string, lower: CharMap): (r: (bool, Tracker))
  {
    if description == [] || Strip(description) == [] then (false, tr)
    else (true, Tracker(tr.tasks + [NewTask(Strip(description), Map(Strip(category), lower))]))
  }

  /** add_task succeeds exactly when the description has a non-whitespace
      character; then the list grows by one uncompleted task at the end
      whose description has no surrounding whitespace; otherwise nothing
      changes. */
  lemma AddTaskSpec(tr: Tracker, description: string, category: string, lower: CharMap)
    ensures var (ok, tr') := AddTask(tr, description, category, lower);
      && (ok <==> !AllSpace(description))
      && (!ok ==> tr' == tr)
      && (ok ==> |tr'.tasks| == |tr.tasks| + 1 && tr'.tasks[..|tr.tasks|] == tr.tasks)
      && (ok ==> var t := tr'.tasks[|tr.tasks|];
            && !t.isCompleted && t.description == Strip(description) && |t.description| > 0
            && !IsSpace(t.description[0]) && !IsSpace(t.description[|t.description| - 1])
            && t.category == Map(Strip(category), lower))
  {
    StripBlank(description);
    StripSpec(description);
    assert (tr.tasks + [NewTask(Strip(description), Map(Strip(category), lower))])[..|tr.tasks|] == tr.tasks;
  }

  /** `complete_task(i)`: a number from 1 to the task count marks that
      task completed; any other number is refused. */
  function CompleteTask(tr: Tracker, index: int): (r: (bool, Tracker))
  {
    if 1 <= index <= |tr.tasks| then
      var t := tr.tasks[index - 1];
      (true, Tracker(tr.tasks[index - 1 := t.(isCompleted := true)]))
    else (false, tr)
  }

  /** complete_task succeeds exactly for 1 <= i <= len; it marks task i-1
      and changes nothing else; out of range it changes nothing; doing it
      twice is doing it once. */
  lemma CompleteTaskSpec(tr: Tracker, index: int)
    ensures var (ok, tr') := CompleteTask(tr, index);
      && (ok <==> 1 <= index <= |tr.tasks|)
      && |tr'.tasks| == |tr.tasks|
      && (ok ==> tr'.tasks[index - 1] == tr.tasks[index - 1].(isCompleted := true))
      && (forall k :: 0 <= k < |tr.tasks| && k != index - 1 ==> tr'.tasks[k] == tr.tasks[k])
      && (!ok ==> tr' == tr)
      && CompleteTask(tr', index).1 == tr'
  {
  }

  /** A named test: the task's category equals `key`. */
  function InCategory(key: string): Task -> bool
  {
    (t: Task) => t.category == key
  }

  /** The filter of `show_tasks_by_category`: the tasks whose category is
      the query lower-cased, in list order. */
  function TasksInCategory(tr: Tracker, category: string, lower: CharMap): seq<Task>
  {
    Filter(tr.tasks, InCategory(Map(category, lower)))
  }

  /** The filter keeps exactly the tasks of the category, each as often as
      it is listed and in order. */
  lemma TasksInCategorySpec(tr: Tracker, category: string, lower: CharMap)
    ensures var r := TasksInCategory(tr, category, lower);
      && (forall t :: t in r <==> t in tr.tasks && t.category == Map(category, lower))
      && (forall t: Task :: t.category == Map(category, lower) ==> Count(r, t) == Count(tr.tasks, t))
      && IsSubsequence(r, tr.tasks)
  {
    FilterSpec(tr.tasks, InCategory(Map(category, lower)));
  }

  /** A task just added is listed by the filter for any query that
      lower-cases to its stored category, after the tasks already there in
      that category. */
  lemma AddedTaskListed(tr: Tracker, description: string, category: string, query: string, lower: CharMap)
    requires Map(query, lower) == Map(Strip(category), lower)
    requires AddTask(tr, description, category, lower).0
    ensures var tr' := AddTask(tr, description, category, lower).1;
      TasksInCategory(tr', query, lower) == TasksInCategory(tr, query, lower) + [tr'.tasks[|tr.tasks|]]
  {
    var tr' := AddTask(tr, description, category, lower).1;
    FilterAppend(tr.tasks, [tr'.tasks[|tr.tasks|]], InCategory(Map(query, lower)));
    assert [tr'.tasks[|tr.tasks|]][..0] == [];
  }
}

=== FILE: text.dfy ===
/** Python string primitives the exercise modules rely on: case mapping
    (abstract), whitespace, `strip`, `split`, and whitespace collapsing. */
module Text {
  import opened Seqs

  /** A per-character case mapping such as `str.lower` or `str.upper`.
      The Unicode tables are not modelled; the map is a parameter. */
  type CharMap = char -> char

  /** Applying the map a second time changes nothing (true of the Unicode
      lower- and upper-case maps on single characters). */
  ghost predicate Idempotent(f: CharMap)
  {
    forall c :: f(f(c)) == f(c)
  }

  /** `s.lower()` / `s.upper()` is `Map(s, f)` for the per-character map
      `f`; with an idempotent map it is idempotent. */
  lemma MapIdempotent(s: string, f: CharMap)
    requires Idempotent(f)
    ensures Map(Map(s, f), f) == Map(s, f)
  {
  }

  /** A Python argument where a `str` is expected: a string, or a value of
      some other type (which every `isinstance(x, str)` check rejects). */
  datatype Arg = Str(s: string) | NonStr

  /** CPython's whitespace set, used alike by `str.isspace`, `str.strip`,
      `str.split` and the regular expression class `\s` on `str` patterns:
      the controls 0x09-0x0D and 0x1C-0x1F, the space, 0x85, 0xA0, and the
      Unicode space separators and line/paragraph separators. */
  predicate IsSpace(c: char)
  {
    || ('\t' <= c <= '\r')
    || ('\U{1C}' <= c <= '\U{20}')
    || c == '\U{85}' || c == '\U{A0}' || c == '\U{1680}'
    || ('\U{2000}' <= c <= '\U{200A}')
    || c == '\U{2028}' || c == '\U{2029}' || c == '\U{202F}'
    || c == '\U{205F}' || c == '\U{3000}'
  }

  /** Every character of `s` is whitespace (true of the empty string). */
  predicate AllSpace(s: string)
  {
    forall i :: 0 <= i < |s| ==> IsSpace(s[i])
  }

  /** `s.lstrip()`: the suffix left after the leading whitespace. */
  function TrimStart(s: string): (r: string)
    ensures |r| <= |s| && r == s[|s| - |r|..]
    ensures AllSpace(s[..|s| - |r|])
    ensures |r| > 0 ==> !IsSpace(r[0])
  {
    if |s| == 0 || !IsSpace(s[0]) then s
    else
      var r := TrimStart(s[1..]);
      LeadingSpaceStep(s, r);
      r
  }

  /** One more leading whitespace character in front of a trimmed tail. */
  lemma LeadingSpaceStep(s: string, r: string)
    requires |s| > 0 && IsSpace(s[0])
    requires |r| <= |s| - 1 && r == s[1..][|s| - 1 - |r|..]
    requires AllSpace(s[1..][..|s| - 1 - |r|])
    ensures r == s[|s| - |r|..] && AllSpace(s[..|s| - |r|])
  {
    var k := |s| - |r|;
    forall i | 0 <= i < k
      ensures IsSpace(s[i])
    {
      if i > 0 {
        assert s[i] == s[1..][..k - 1][i - 1];
      }
    }
  }

  /** `s.rstrip()`: the prefix left before the trailing whitespace. */
  function TrimEnd(s: string): (r: string)
    ensures |r| <= |s| && r == s[..|r|]
    ensures AllSpace(s[|r|..])
    ensures |r| > 0 ==> !IsSpace(r[|r| - 1])
  {
    if |s| == 0 || !IsSpace(s[|s| - 1]) then s
    else
      var r := TrimEnd(s[..|s| - 1]);
      assert s[|r|..] == s[..|s| - 1][|r|..] + [s[|s| - 1]];
      r
  }

  /** `s.strip()`: the slice between the leading and trailing whitespace. */
  function Strip(s: string): (r: string)
  {
    TrimEnd(TrimStart(s))
  }

  /** Where Strip cuts: the bounds of the slice it keeps. */
  lemma StripBounds(s: string) returns (a: nat, b: nat)
    ensures a <= b <= |s| && Strip(s) == s[a..b]
    ensures AllSpace(s[..a]) && AllSpace(s[b..])
  {
    var t := TrimStart(s);
    var r := TrimEnd(t);
    a := |s| - |t|;
    b := a + |r|;
    assert t == s[a..];
    assert r == t[..|r|];
    assert s[b..] == t[|r|..];
  }

  /** Strip removes only whitespace, from the two ends, and leaves
      neither end on whitespace. */
  lemma StripSpec(s: string)
    ensures exists a, b :: 0 <= a <= b <= |s| && Strip(s) == s[a..b] && AllSpace(s[..a]) && AllSpace(s[b..])
    ensures |Strip(s)| > 0 ==> !IsSpace(Strip(s)[0]) && !IsSpace(Strip(s)[|Strip(s)| - 1])
  {
    var a, b := StripBounds(s);
    var t := TrimStart(s);
    var r := TrimEnd(t);
    if |r| > 0 {
      assert r[0] == t[0];
    }
  }

  /** A string strips to nothing exactly when it is all whitespace
      (Python's `not s.strip()`). */
  lemma StripBlank(s: string)
    ensures Strip(s) == [] <==> AllSpace(s)
  {
    var t := TrimStart(s);
    if Strip(s) == [] {
      assert AllSpace(t[0..]);
      assert s == s[..|s| - |t|] + t;
    }
    if |t| > 0 {
      assert t[0] == s[|s| - |t|];
    }
  }

  /** Stripping twice is stripping once. */
  lemma StripIdempotent(s: string)
    ensures Strip(Strip(s)) == Strip(s)
  {
  }

  /** A string without leading or trailing whitespace strips to itself. */
  lemma StripUntrimmed(s: string)
    requires |s| > 0 ==> !IsSpace(s[0]) && !IsSpace(s[|s| - 1])
    ensures Strip(s) == s
  {
  }

  /** The longest prefix of `s` with no whitespace. */
  function WordPrefix(s: string): (w: string)
    ensures |w| <= |s| && w == s[..|w|]
    ensures forall i :: 0 <= i < |w| ==> !IsSpace(w[i])
    ensures |w| < |s| ==> IsSpace(s[|w|])
  {
    if |s| == 0 || IsSpace(s[0]) then []
    else
      var w := WordPrefix(s[1..]);
      [s[0]] + w
  }

  /** A non-empty run of non-whitespace characters. */
  predicate IsWord(w: string)
  {
    |w| > 0 && forall i :: 0 <= i < |w| ==> !IsSpace(w[i])
  }

  /** The word prefix of a string that starts on a non-whitespace
      character is a word. */
  lemma WordPrefixIsWord(t: string)
    requires |t| > 0 && !IsSpace(t[0])
    ensures IsWord(WordPrefix(t))
  {
    assert WordPrefix(t) == [t[0]] + WordPrefix(t[1..]);
  }

  /** A word in front of a sequence of words. */
  lemma ConsWords(w: string, rest: seq<string>)
    requires IsWord(w) && forall k :: 0 <= k < |rest| ==> IsWord(rest[k])
    ensures forall k :: 0 <= k < |[w] + rest| ==> IsWord(([w] + rest)[k])
  {
    forall k | 0 <= k < |[w] + rest|
      ensures IsWord(([w] + rest)[k])
    {
      if k > 0 {
        assert ([w] + rest)[k] == rest[k - 1];
      }
    }
  }

  /** `s.split()`: the maximal runs of non-whitespace, in order. */
  function Split(s: string): (words: seq<string>)
    ensures forall k :: 0 <= k < |words| ==> IsWord(words[k])
    decreases |s|
  {
    var t := TrimStart(s);
    if |t| == 0 then []
    else
      var w := WordPrefix(t);
      WordPrefixIsWord(t);
      var rest := Split(t[|w|..]);
      ConsWords(w, rest);
      [w] + rest
  }

  /** `sep.join(parts)`. */
  function Join(sep: string, parts: seq<string>): (r: string)
    decreases |parts|
  {
    if |parts| == 0 then []
    else if |parts| == 1 then parts[0]
    else Join(sep, parts[..|parts| - 1]) + sep + parts[|parts| - 1]
  }

  /** Joining a first part in front of at least one more. */
  lemma {:induction false} JoinCons(sep: string, w: string, parts: seq<string>)
    requires |parts| > 0
    ensures Join(sep, [w] + parts) == w + sep + Join(sep, parts)
    decreases |parts|
  {
    var all := [w] + parts;
    if |parts| > 1 {
      JoinCons(sep, w, parts[..|parts| - 1]);
      assert all[..|all| - 1] == [w] + parts[..|parts| - 1];
    } else {
      assert all[..|all| - 1] == [w];
    }
  }

  /** `re.sub(r'\s+', ' ', s)`: each maximal whitespace run becomes one
      space. */
  function CollapseSpace(s: string): (r: string)
    ensures |r| <= |s|
    ensures |s| > 0 ==> |r| > 0 && (IsSpace(r[0]) <==> IsSpace(s[0]))
    decreases |s|
  {
    if |s| == 0 then []
    else if IsSpace(s[0]) then [' '] + CollapseSpace(TrimStart(s))
    else [s[0]] + CollapseSpace(s[1..])
  }

  /** No whitespace other than ' ', and no two whitespace characters in a
      row. */
  predicate Collapsed(s: string)
  {
    && (forall i :: 0 <= i < |s| && IsSpace(s[i]) ==> s[i] == ' ')
    && (forall i :: 0 <= i < |s| - 1 ==> !(IsSpace(s[i]) && IsSpace(s[i + 1])))
  }

  /** CollapseSpace leaves a collapsed string. */
  lemma {:induction false} CollapseSpaceCollapsed(s: string)
    ensures Collapsed(CollapseSpace(s))
    decreases |s|
  {
    if |s| > 0 {
      var r := CollapseSpace(s);
      if IsSpace(s[0]) {
        var t := TrimStart(s);
        CollapseSpaceCollapsed(t);
        assert r == [' '] + CollapseSpace(t);
        assert r[1..] == CollapseSpace(t);
      } else {
        CollapseSpaceCollapsed(s[1..]);
        assert r[1..] == CollapseSpace(s[1..]);
      }
    }
  }

  /** A single leading whitespace character is all TrimStart removes
      when a non-whitespace character follows it. */
  lemma TrimStartOne(s: string)
    requires |s| > 0 && IsSpace(s[0]) && (|s| > 1 ==> !IsSpace(s[1]))
    ensures TrimStart(s) == s[1..]
  {
    assert TrimStart(s) == TrimStart(s[1..]);
  }

  /** On a collapsed string CollapseSpace keeps the first character and
      carries on from the second. */
  lemma CollapseSpaceHead(s: string)
    requires Collapsed(s) && |s| > 0
    ensures CollapseSpace(s) == [s[0]] + CollapseSpace(s[1..])
  {
    if IsSpace(s[0]) {
      assert s[0] == ' ';
      assert |s| > 1 ==> !IsSpace(s[1]);
      TrimStartOne(s);
    }
  }

  /** A collapsed string is left alone by CollapseSpace. */
  lemma {:induction false} CollapseSpaceFixes(s: string)
    requires Collapsed(s)
    ensures CollapseSpace(s) == s
    decreases |s|
  {
    if |s| > 0 {
      var tail := s[1..];
      CollapsedSlice(s, 1, |s|);
      CollapseSpaceFixes(tail);
      CollapseSpaceHead(s);
      assert s == [s[0]] + tail;
    }
  }

  /** A slice of a collapsed string is collapsed. */
  lemma CollapsedSlice(s: string, a: nat, b: nat)
    requires Collapsed(s) && a <= b <= |s|
    ensures Collapsed(s[a..b])
  {
    var t := s[a..b];
    forall i | 0 <= i < |t| - 1
      ensures !(IsSpace(t[i]) && IsSpace(t[i + 1]))
    {
      assert t[i] == s[a + i] && t[i + 1] == s[a + i + 1];
    }
  }

  /** TrimStart leaves a string that starts on a non-whitespace
      character alone. */
  lemma TrimStartNonSpace(x: string)
    requires |x| > 0 && !IsSpace(x[0])
    ensures TrimStart(x) == x
  {
  }

  /** A leading space makes no difference to TrimStart. */
  lemma TrimStartSpaceCons(x: string)
    ensures TrimStart([' '] + x) == TrimStart(x)
  {
    assert ([' '] + x)[1..] == x;
  }

  /** TrimEnd removes all of a whitespace tail after a word that ends on
      a non-whitespace character. */
  lemma {:induction false} TrimEndAppendSpace(w: string, z: string)
    requires |w| > 0 && !IsSpace(w[|w| - 1]) && AllSpace(z)
    ensures TrimEnd(w + z) == w
    decreases |z|
  {
    if |z| > 0 {
      assert (w + z)[..|w + z| - 1] == w + z[..|z| - 1];
      TrimEndAppendSpace(w, z[..|z| - 1]);
    } else {
      assert w + z == w;
    }
  }

  /** TrimEnd of a string that is not all whitespace only cuts inside
      it, whatever stands in front. */
  lemma {:induction false} TrimEndPrefix(p: string, y: string)
    requires !AllSpace(y)
    ensures TrimEnd(p + y) == p + TrimEnd(y)
    decreases |y|
  {
    if IsSpace(y[|y| - 1]) {
      var y' := y[..|y| - 1];
      assert !AllSpace(y') by {
        var k :| 0 <= k < |y| && !IsSpace(y[k]);
        assert y'[k] == y[k];
      }
      assert (p + y)[..|p + y| - 1] == p + y';
      TrimEndPrefix(p, y');
    }
  }

  /** CollapseSpace copies a front part without whitespace and carries
      on after it. */
  lemma {:induction false} CollapseWord(w: string, r: string)
    requires forall i :: 0 <= i < |w| ==> !IsSpace(w[i])
    ensures CollapseSpace(w + r) == w + CollapseSpace(r)
    decreases |w|
  {
    if |w| == 0 {
      assert w + r == r;
    } else {
      var tail := w[1..];
      CollapseWord(tail, r);
      assert (w + r)[0] == w[0] && (w + r)[1..] == tail + r;
      assert [w[0]] + (tail + CollapseSpace(r)) == w + CollapseSpace(r);
    }
  }

  /** Leading whitespace makes no difference to the stripped, collapsed
      text. */
  lemma StripCollapseLeading(s: string)
    ensures Strip(CollapseSpace(s)) == Strip(CollapseSpace(TrimStart(s)))
  {
    if |s| > 0 && IsSpace(s[0]) {
      TrimStartSpaceCons(CollapseSpace(TrimStart(s)));
    }
  }

  /** Splitting a text that is not all whitespace: its first word, then
      the words of what follows it, which is empty or starts on
      whitespace. */
  lemma SplitStep(s: string)
    requires |TrimStart(s)| > 0
    ensures var t := TrimStart(s);
      var w := WordPrefix(t);
      var rest := t[|w|..];
      && IsWord(w) && t == w + rest && |rest| < |s|
      && (|rest| == 0 || IsSpace(rest[0]))
      && Split(s) == [w] + Split(rest)
  {
    var t := TrimStart(s);
    var w := WordPrefix(t);
    var rest := t[|w|..];
    WordPrefixIsWord(t);
    assert |w| > 0 by {
      assert !IsSpace(t[0]);
    }
    assert t == w + rest by {
      assert w == t[..|w|];
    }
    assert Split(s) == [w] + Split(rest);
  }

  /** A text that TrimStart empties is all whitespace and has no words. */
  lemma SplitBlank(s: string)
    requires |TrimStart(s)| == 0
    ensures AllSpace(s) && Split(s) == []
  {
    assert s[..|s|] == s;
  }

  /** A text that TrimStart does not empty has at least one word. */
  lemma SplitNonEmpty(s: string)
    requires |TrimStart(s)| > 0
    ensures |Split(s)| > 0
  {
  }

  /** Collapsing whitespace in an all-whitespace text leaves whitespace. */
  lemma CollapseAllSpace(r: string)
    requires AllSpace(r)
    ensures AllSpace(CollapseSpace(r))
  {
    if |r| > 0 {
      assert TrimStart(r) == [];
    }
  }

  /** A leading whitespace run collapses to one space. */
  lemma CollapseLeadingSpace(r: string)
    requires |r| > 0 && IsSpace(r[0])
    ensures CollapseSpace(r) == [' '] + CollapseSpace(TrimStart(r))
  {
  }

  /** A word followed by whitespace strips to the word. */
  lemma StripWordAlone(w: string, z: string)
    requires IsWord(w) && AllSpace(z)
    ensures Strip(w + z) == w
  {
    TrimStartNonSpace(w + z);
    TrimEndAppendSpace(w, z);
  }

  /** A word, a space, and a text starting on non-whitespace strip to the
      word, the space, and the stripped text. */
  lemma StripWordThen(w: string, y: string)
    requires IsWord(w) && |y| > 0 && !IsSpace(y[0])
    ensures Strip(w + ([' '] + y)) == w + " " + Strip([' '] + y)
  {
    TrimStartSpaceCons(y);
    TrimStartNonSpace(y);
    assert w + ([' '] + y) == (w + [' ']) + y;
    TrimStartNonSpace((w + [' ']) + y);
    assert !AllSpace(y) by { assert !IsSpace(y[0]); }
    TrimEndPrefix(w + [' '], y);
  }

  /** One word in front of a whitespace-only rest: the word alone. */
  lemma JoinWordLast(w: string, rest: string)
    requires IsWord(w) && |TrimStart(rest)| == 0
    ensures Join(" ", [w] + Split(rest)) == Strip(w + CollapseSpace(rest))
  {
    SplitBlank(rest);
    CollapseAllSpace(rest);
    StripWordAlone(w, CollapseSpace(rest));
    assert [w] + Split(rest) == [w];
  }

  /** One word in front of a rest that starts on whitespace and holds
      more words: the word, one space, and the rest's joined words. */
  lemma JoinWordMore(w: string, rest: string)
    requires IsWord(w) && |rest| > 0 && IsSpace(rest[0]) && |TrimStart(rest)| > 0
    requires Join(" ", Split(rest)) == Strip(CollapseSpace(rest))
    ensures Join(" ", [w] + Split(rest)) == Strip(w + CollapseSpace(rest))
  {
    var y := CollapseSpace(TrimStart(rest));
    CollapseLeadingSpace(rest);
    StripWordThen(w, y);
    SplitNonEmpty(rest);
    JoinCons(" ", w, Split(rest));
  }

  /** One word in front: if the words of `rest` join to its stripped,
      collapsed text, so do the word and those words for the word and
      `rest`. */
  lemma JoinWordStep(w: string, rest: string)
    requires IsWord(w) && (|rest| == 0 || IsSpace(rest[0]))
    requires Join(" ", Split(rest)) == Strip(CollapseSpace(rest))
    ensures Join(" ", [w] + Split(rest)) == Strip(CollapseSpace(w + rest))
  {
    CollapseWord(w, rest);
    if |TrimStart(rest)| == 0 {
      JoinWordLast(w, rest);
    } else {
      JoinWordMore(w, rest);
    }
  }

  /** The words of `s.split()` joined by single spaces are the text with
      every whitespace run collapsed to one space and both ends stripped;
      as no word is empty or holds whitespace, the words are exactly the
      maximal non-whitespace runs of the text, in order. */
  lemma {:induction false} SplitJoin(s: string)
    ensures Join(" ", Split(s)) == Strip(CollapseSpace(s))
    decreases |s|
  {
    var t := TrimStart(s);
    StripCollapseLeading(s);
    if |t| == 0 {
      SplitBlank(s);
    } else {
      SplitStep(s);
      var w := WordPrefix(t);
      var rest := t[|w|..];
      SplitJoin(rest);
      JoinWordStep(w, rest);
    }
  }
}

=== FILE: text_statistics.dfy ===
/** Text statistics (lab1/TextStatistics.py): cleaning, word frequencies,
    the longest words and the average word length of a typed text. */
module TextStatistics {
  import opened Seqs
  import opened Wrappers
  import opened Text
  import opened Sorting
  import opened Counter

  /** `string.punctuation` followed by the typographic marks the cleaner
      also removes: guillemets, em and en dashes and the ellipsis. */
  const Punctuation: string := "!\"#$%&'()*+,-./:;<=>?@[\\]^_`{|}~«»—–…"

  function NotChar(c: char): char -> bool
  {
    (x: char) => x != c
  }

  function NotIn(cs: string): char -> bool
  {
    (x: char) => x !in cs
  }

  /** The replacement loop: `text.replace(ch, "")` for each character of
      `cs` in turn. */
  function RemoveEach(text: string, cs: string): string
    decreases |cs|
  {
    if |cs| == 0 then text
    else Filter(RemoveEach(text, cs[..|cs| - 1]), NotChar(cs[|cs| - 1]))
  }

  /** The sequence of single-character removals is one filter that drops
      every character of `cs`. */
  lemma {:induction false} RemoveEachIsFilter(text: string, cs: string)
    ensures RemoveEach(text, cs) == Filter(text, NotIn(cs))
    decreases |cs|
  {
    if |cs| == 0 {
      FilterAll(text, NotIn(cs));
    } else {
      var init := cs[..|cs| - 1];
      RemoveEachIsFilter(text, init);
      forall x
        ensures NotIn(cs)(x) == (NotIn(init)(x) && NotChar(cs[|cs| - 1])(x))
      {
        assert cs == init + [cs[|cs| - 1]];
      }
      FilterTwice(text, NotIn(init), NotChar(cs[|cs| - 1]), NotIn(cs));
    }
  }

  /** `clean_text`: lower-case, then remove the punctuation. */
  function Clean(text: string, lower: CharMap): string
  {
    RemoveEach(Map(text, lower), Punctuation)
  }

  /** The cleaned text is the lowered text with exactly the punctuation
      characters dropped: no punctuation remains, every other character
      stays with its multiplicity and in order, and it is no longer. */
  lemma CleanSpec(text: string, lower: CharMap)
    ensures var c := Clean(text, lower);
      && |c| <= |text|
      && (forall i :: 0 <= i < |c| ==> c[i] !in Punctuation)
      && (forall x :: x !in Punctuation ==> Count(c, x) == Count(Map(text, lower), x))
      && IsSubsequence(c, Map(text, lower))
  {
    RemoveEachIsFilter(Map(text, lower), Punctuation);
    FilterSpec(Map(text, lower), NotIn(Punctuation));
    var c := Clean(text, lower);
    forall i | 0 <= i < |c|
      ensures c[i] !in Punctuation
    {
      assert c[i] in c;
    }
  }

  /** Cleaning twice is cleaning once when lower-casing is idempotent. */
  lemma CleanIdempotent(text: string, lower: CharMap)
    requires Idempotent(lower)
    ensures Clean(Clean(text, lower), lower) == Clean(text, lower)
  {
    var np := NotIn(Punctuation);
    var c := Clean(text, lower);
    RemoveEachIsFilter(Map(text, lower), Punctuation);
    RemoveEachIsFilter(Map(c, lower), Punctuation);
    FilterSpec(Map(text, lower), np);
    forall i | 0 <= i < |c|
      ensures lower(c[i]) == c[i]
    {
      assert c[i] in Map(text, lower);
    }
    assert Map(c, lower) == c;
    FilterTwice(Map(text, lower), np, np, np);
  }

  function LongEnough(line: string): bool
  {
    |line| >= 100
  }

  /** `get_text` over the typed lines: the first of at least 100
      characters. */
  function GetText(lines: seq<string>): (r: Option<string>)
    ensures r.Some? ==> |r.value| >= 100 && r.value in lines
    ensures r.Some? ==> exists k :: 0 <= k < |lines| && r.value == lines[k] && forall j :: 0 <= j < k ==> |lines[j]| < 100
    ensures r.None? <==> forall k :: 0 <= k < |lines| ==> |lines[k]| < 100
  {
    match FirstIndex(lines, LongEnough)
    case None => None
    case Some(i) => Some(lines[i])
  }

  /** Length as an integer key. */
  function Len(w: string): int
  {
    |w|
  }

  /** What `analyze_text` prints. */
  datatype Stats = Stats(
    totalChars: nat,
    charsNoSpaces: nat,
    wordCount: nat,
    mostCommon: seq<(string, nat)>,
    longest: seq<string>,
    averageLength: real)

  /** The words of the cleaned text. */
  function Words(text: string, lower: CharMap): seq<string>
  {
    Split(Clean(text, lower))
  }

  /** `list(set(words))` in the order the set enumerates them: the distinct
      words, each once. */
  ghost predicate SetOrder(order: seq<string>, words: seq<string>)
  {
    Distinct(order) && forall w :: w in order <==> w in words
  }

  /** The five longest distinct words, longest first. */
  function Longest(order: seq<string>): seq<string>
  {
    Take(SortBy(order, Len, Flip(IntLess)), 5)
  }

  /** The mean word length, 0 without words. */
  function Average(words: seq<string>): real
  {
    if |words| == 0 then 0.0 else (IntSum(Map(words, Len)) as real) / (|words| as real)
  }

  /** `analyze_text`, with `order` the enumeration of the word set. */
  function AnalyzeText(text: string, lower: CharMap, order: seq<string>): Stats
  {
    var words := Words(text, lower);
    Stats(|text|, |Filter(text, NotChar(' '))|, |words|, MostCommon(words, 5), Longest(order), Average(words))
  }

  /** The count without spaces drops exactly the ordinary spaces (U+0020;
      tabs and newlines stay). */
  lemma {:induction false} NoSpacesLength(text: string)
    ensures |Filter(text, NotChar(' '))| == |text| - Count(text, ' ')
    decreases |text|
  {
    if |text| > 0 {
      NoSpacesLength(text[..|text| - 1]);
    }
  }

  /** The longest-words list: min(5, number of distinct words) distinct
      words of the text, longest first; a word is left out only when five
      are listed, and it is no longer than any of them. */
  lemma LongestSpec(order: seq<string>, words: seq<string>, w: string)
    requires SetOrder(order, words)
    ensures var r := Longest(order);
      && |r| == (if 5 < |order| then 5 else |order|) && Distinct(r)
      && (forall i :: 0 <= i < |r| ==> r[i] in words)
      && (forall i, j :: 0 <= i < j < |r| ==> |r[i]| >= |r[j]|)
      && (w in words && w !in r ==> |r| == 5 && forall i :: 0 <= i < |r| ==> |w| <= |r[i]|)
  {
    var sorted := SortBy(order, Len, Flip(IntLess));
    LengthSorted(order);
    DistinctPermutation(order, sorted);
    LongestMembers(sorted, order, words);
    if w in words && w !in Take(sorted, 5) {
      assert w in multiset(sorted);
      LongestLeftOut(sorted, w);
    }
  }

  /** Sorting by length in reverse puts longer words first and keeps the
      words. */
  lemma LengthSorted(order: seq<string>)
    ensures var sorted := SortBy(order, Len, Flip(IntLess));
      && multiset(sorted) == multiset(order)
      && forall i, j :: 0 <= i < j < |sorted| ==> |sorted[i]| >= |sorted[j]|
  {
    var lt := Flip(IntLess);
    var sorted := SortBy(order, Len, lt);
    NumberOrders();
    FlipStrictWeakOrder(IntLess);
    SortBySorted(order, Len, lt);
    forall i, j | 0 <= i < j < |sorted|
      ensures |sorted[i]| >= |sorted[j]|
    {
      assert !lt(Len(sorted[j]), Len(sorted[i]));
    }
  }

  /** The first five of the sorted words are words of the text. */
  lemma LongestMembers(sorted: seq<string>, order: seq<string>, words: seq<string>)
    requires multiset(sorted) == multiset(order)
    requires forall w :: w in order <==> w in words
    ensures forall i :: 0 <= i < |Take(sorted, 5)| ==> Take(sorted, 5)[i] in words
  {
    forall i | 0 <= i < |Take(sorted, 5)|
      ensures Take(sorted, 5)[i] in words
    {
      assert sorted[i] in multiset(order);
    }
  }

  /** A word of the sorted list left out of the first five is no longer
      than any of them. */
  lemma LongestLeftOut(sorted: seq<string>, w: string)
    requires forall i, j :: 0 <= i < j < |sorted| ==> |sorted[i]| >= |sorted[j]|
    requires w in sorted && w !in Take(sorted, 5)
    ensures forall i :: 0 <= i < |Take(sorted, 5)| ==> |w| <= |Take(sorted, 5)[i]|
  {
    var r := Take(sorted, 5);
    var p :| 0 <= p < |sorted| && sorted[p] == w;
    assert p >= |r|;
    forall i | 0 <= i < |r|
      ensures |w| <= |r[i]|
    {
      assert r[i] == sorted[i];
    }
  }

  /** An integer sum of values between lo and hi lies between n*lo and
      n*hi. */
  lemma {:induction false} IntSumBounds(s: seq<int>, lo: int, hi: int)
    requires forall i :: 0 <= i < |s| ==> lo <= s[i] <= hi
    ensures |s| * lo <= IntSum(s) <= |s| * hi
    decreases |s|
  {
    if |s| > 0 {
      var m := |s| - 1;
      IntSumBounds(s[..m], lo, hi);
      assert IntSum(s) == IntSum(s[..m]) + s[m];
      assert (m + 1) * lo == m * lo + lo;
      assert (m + 1) * hi == m * hi + hi;
    }
  }

  /** Integer bounds on a total carried over to the reals. */
  lemma BoundsAsReal(total: int, n: nat, lo: int, hi: int)
    requires n * lo <= total <= n * hi
    ensures (n as real) * (lo as real) <= total as real <= (n as real) * (hi as real)
  {
    assert (n * lo) as real == (n as real) * (lo as real);
    assert (n * hi) as real == (n as real) * (hi as real);
  }

  /** The average word length lies between 1 and the length of the longest
      word, words being non-empty. */
  lemma AverageBetween(words: seq<string>, bound: nat)
    requires forall k :: 0 <= k < |words| ==> IsWord(words[k]) && |words[k]| <= bound
    ensures |words| > 0 ==> 1.0 <= Average(words) <= bound as real
  {
    if |words| > 0 {
      var lens := Map(words, Len);
      IntSumBounds(lens, 1, bound);
      BoundsAsReal(IntSum(lens), |lens|, 1, bound);
      MeanBetween(IntSum(lens) as real, |lens| as real, 1.0, bound as real);
    }
  }

  /** The length of the longest word (0 without words). */
  function MaxLen(words: seq<string>): (m: nat)
    ensures forall k :: 0 <= k < |words| ==> |words[k]| <= m
    ensures |words| > 0 ==> exists k :: 0 <= k < |words| && |words[k]| == m
    decreases |words|
  {
    if |words| == 0 then 0
    else
      var m := MaxLen(words[..|words| - 1]);
      assert forall k :: 0 <= k < |words| - 1 ==> words[..|words| - 1][k] == words[k];
      if |words[|words| - 1]| > m then |words[|words| - 1]| else m
  }

  /** The statistics of a text: the two character counts, the word count
      of the cleaned text, the frequencies and longest words of its words,
      and, when there are words, an average word length between 1 and the
      longest word's length. */
  lemma AnalyzeTextSpec(text: string, lower: CharMap, order: seq<string>)
    ensures var st := AnalyzeText(text, lower, order);
      && st.totalChars == |text|
      && st.charsNoSpaces == |text| - Count(text, ' ')
      && st.wordCount == |Words(text, lower)|
      && (st.wordCount > 0 ==> 1.0 <= st.averageLength <= MaxLen(Words(text, lower)) as real)
  {
    NoSpacesLength(text);
    AverageBetween(Words(text, lower), MaxLen(Words(text, lower)));
  }
}

=== FILE: vehicles.dfy ===
/** The vehicle classes of lab2/abstract_vehicles.py: constructor
    validation and the constant getters. */
module Vehicles {
  import opened Wrappers
  import opened Text

  datatype Vehicle = Car(carType: string, engineType: string) | Bicycle(bicycleType: string)

  /** The two checks every type argument gets, in order: empty or not a
      `str` raises the first message; only whitespace raises the second. */
  function CheckType(arg: Arg, emptyMessage: string, blankMessage: string): (r: Result<string, string>)
    ensures r.Ok? <==> arg.Str? && Strip(arg.s) != []
    ensures r.Ok? ==> r.value == arg.s
    ensures arg.NonStr? || arg.s == [] ==> r == Err(emptyMessage)
    ensures arg.Str? && arg.s != [] && Strip(arg.s) == [] ==> r == Err(blankMessage)
  {
    if arg.NonStr? || arg.s == [] then Err(emptyMessage)
    else if Strip(arg.s) == [] then Err(blankMessage)
    else Ok(arg.s)
  }

  /** `Car(car_type, engine_type)`: the car type is checked first, then
      the engine type; the ValueError message is the result's error. */
  function NewCar(carType: Arg, engineType: Arg): (r: Result<Vehicle, string>)
    ensures r.Ok? <==> carType.Str? && !AllSpace(carType.s) && engineType.Str? && !AllSpace(engineType.s)
    ensures r.Ok? ==> r.value == Car(carType.s, engineType.s)
  {
    StripBlank(if carType.Str? then carType.s else []);
    StripBlank(if engineType.Str? then engineType.s else []);
    match CheckType(carType, "Тип автомобиля не может быть пустым", "Тип автомобиля не может быть пробелами")
    case Err(e) => Err(e)
    case Ok(c) =>
      match CheckType(engineType, "Тип двигателя быть пустым", "Тип двигателя не может быть пробелами")
      case Err(e) => Err(e)
      case Ok(t) => Ok(Car(c, t))
  }

  /** `Bicycle(bicycle_type)`. */
  function NewBicycle(bicycleType: Arg): (r: Result<Vehicle, string>)
    ensures r.Ok? <==> bicycleType.Str? && !AllSpace(bicycleType.s)
    ensures r.Ok? ==> r.value == Bicycle(bicycleType.s)
  {
    StripBlank(if bicycleType.Str? then bicycleType.s else []);
    match CheckType(bicycleType, "Тип велосипеда не может быть пустым", "Тип велосипеда не может быть пробелами")
    case Err(e) => Err(e)
    case Ok(b) => Ok(Bicycle(b))
  }

  /** The car type is checked before the engine type: a bad car type
      decides the message whatever the engine type is; a whitespace-only
      string gets the second message of its check. */
  lemma NewCarMessages(carType: Arg, engineType: Arg)
    ensures carType.NonStr? || carType == Str([]) ==> NewCar(carType, engineType) == Err("Тип автомобиля не может быть пустым")
    ensures carType.Str? && carType.s != [] && AllSpace(carType.s) ==> NewCar(carType, engineType) == Err("Тип автомобиля не может быть пробелами")
    ensures carType.Str? && !AllSpace(carType.s) && (engineType.NonStr? || engineType == Str([])) ==> NewCar(carType, engineType) == Err("Тип двигателя быть пустым")
    ensures carType.Str? && !AllSpace(carType.s) && engineType.Str? && engineType.s != [] && AllSpace(engineType.s) ==> NewCar(carType, engineType) == Err("Тип двигателя не может быть пробелами")
  {
    if carType.Str? && carType.s != [] {
      StripBlank(carType.s);
      if !AllSpace(carType.s) && engineType.Str? && engineType.s != [] {
        StripBlank(engineType.s);
      }
    }
  }

  function MaxSpeed(v: Vehicle): int
  {
    match v
    case Car(_, _) => 200
    case Bicycle(_) => 30
  }

  function VehicleType(v: Vehicle): string
  {
    match v
    case Car(_, _) => "Автомобиль"
    case Bicycle(_) => "Велосипед"
  }

  function EngineType(v: Vehicle): string
  {
    match v
    case Car(_, e) => e
    case Bicycle(_) => "мускульная сила"
  }

  /** What the getters of a constructed vehicle return: a car reports
      200, "Автомобиль" and the engine type it was given; a bicycle 30,
      "Велосипед" and "мускульная сила". */
  lemma Getters(carType: Arg, engineType: Arg, bicycleType: Arg)
    ensures NewCar(carType, engineType).Ok? ==> var c := NewCar(carType, engineType).value;
      MaxSpeed(c) == 200 && VehicleType(c) == "Автомобиль" && EngineType(c) == engineType.s
    ensures NewBicycle(bicycleType).Ok? ==> var b := NewBicycle(bicycleType).value;
      MaxSpeed(b) == 30 && VehicleType(b) == "Велосипед" && EngineType(b) == "мускульная сила"
  {
  }
}

=== FILE: wiki_dataset.dfy ===
/** The text cleaning and token estimate of lab5/wiki_dataset.py. */
module WikiDataset {
  import opened Text

  /** The leading run of newlines removed. */
  function DropNewlines(s: string): (r: string)
    ensures |r| <= |s| && r == s[|s| - |r|..]
    ensures |r| > 0 ==> r[0] != '\n'
    decreases |s|
  {
    if |s| > 0 && s[0] == '\n' then DropNewlines(s[1..]) else s
  }

  /** `re.sub(r'\n+', '\n', s)`: each run of newlines becomes one. */
  function CollapseNewlines(s: string): (r: string)
    decreases |s|
  {
    if |s| == 0 then []
    else if s[0] == '\n' then ['\n'] + CollapseNewlines(DropNewlines(s))
    else [s[0]] + CollapseNewlines(s[1..])
  }

  /** A string without newlines is left alone. */
  lemma {:induction false} CollapseNewlinesFixes(s: string)
    requires forall i :: 0 <= i < |s| ==> s[i] != '\n'
    ensures CollapseNewlines(s) == s
    decreases |s|
  {
    if |s| > 0 {
      CollapseNewlinesFixes(s[1..]);
      assert s == [s[0]] + s[1..];
    }
  }

  /** `clean_text`: '' for '', otherwise whitespace runs become one space,
      newline runs one newline, and the ends are stripped. */
  function Clean(s: string): string
  {
    if s == [] then [] else Strip(CollapseNewlines(CollapseSpace(s)))
  }

  /** The newline substitution has nothing left to do: the whitespace
      substitution already turned every newline into a space. */
  lemma NewlineStepNoOp(s: string)
    ensures CollapseNewlines(CollapseSpace(s)) == CollapseSpace(s)
  {
    var c := CollapseSpace(s);
    CollapseSpaceCollapsed(s);
    forall i | 0 <= i < |c|
      ensures c[i] != '\n'
    {
      assert IsSpace('\n');
    }
    CollapseNewlinesFixes(c);
  }

  /** A collapsed string holds no newline and no tab. */
  lemma CollapsedNoBreaks(r: string)
    requires Collapsed(r)
    ensures forall i :: 0 <= i < |r| ==> r[i] != '\n' && r[i] != '\t'
  {
    assert IsSpace('\n') && IsSpace('\t');
  }

  /** The cleaned text is collapsed (its only whitespace is single
      spaces, so no newline or tab remains) and has no whitespace at
      either end; the empty text cleans to the empty text. */
  lemma CleanSpec(s: string)
    ensures Collapsed(Clean(s))
    ensures |Clean(s)| > 0 ==> !IsSpace(Clean(s)[0]) && !IsSpace(Clean(s)[|Clean(s)| - 1])
    ensures forall i :: 0 <= i < |Clean(s)| ==> Clean(s)[i] != '\n' && Clean(s)[i] != '\t'
    ensures s == [] ==> Clean(s) == []
  {
    if s != [] {
      var c := CollapseSpace(s);
      NewlineStepNoOp(s);
      assert Clean(s) == Strip(c);
      CollapseSpaceCollapsed(s);
      var a, b := StripBounds(c);
      CollapsedSlice(c, a, b);
      StripSpec(c);
    }
    CollapsedNoBreaks(Clean(s));
  }

  /** Cleaning twice is cleaning once. */
  lemma CleanIdempotent(s: string)
    ensures Clean(Clean(s)) == Clean(s)
  {
    var c := Clean(s);
    CleanSpec(s);
    if c != [] {
      CollapseSpaceFixes(c);
      NewlineStepNoOp(c);
      StripUntrimmed(c);
    }
  }

  /** `count_tokens`: about three characters per token, rounded down; 0
      for the empty text. */
  function CountTokens(s: string): (n: nat)
    ensures 3 * n <= |s| < 3 * n + 3
    ensures s == [] ==> n == 0
  {
    if s == [] then 0 else |s| / 3
  }
}

=== FILE: wordle.dfy ===
/** The Wordle game (lab1/Wordle.py): three-pass feedback on a guess and
    the six-attempt loop. */
module Wordle {
  import opened Seqs
  import opened Wrappers
  import opened Text

  /** The word list the secret is drawn from, as written: ten words of
      five letters and five of four ("стол", "снег", "река", "нота",
      "цвет"). */
  const Words: seq<string> := ["стол", "крона", "ветер", "рамка", "парта", "метро", "волна", "лидер", "гость", "снег", "река", "нота", "книга", "цвет", "дверь"]

  /** One feedback token: "[c]" letter in place, "(c)" letter elsewhere,
      or a bare letter. */
  datatype Token = Exact(c: char) | Present(c: char) | Plain(c: char)

  /** The text of a token. */
  function TokenText(t: Token): string
  {
    match t
    case Exact(c) => ['[', c, ']']
    case Present(c) => ['(', c, ')']
    case Plain(c) => [c]
  }

  /** The per-position state of `give_feedback`: the token so far (None
      for the empty string) and the two "checked" flag lists. */
  datatype Marking = Marking(feedback: seq<Option<Token>>, choiceChecked: seq<bool>, playerChecked: seq<bool>)

  predicate WellFormed(m: Marking)
  {
    |m.feedback| == 5 && |m.choiceChecked| == 5 && |m.playerChecked| == 5
  }

  /** The first loop: mark every letter in its place and check both
      positions. */
  function MarkExact(guess: string, secret: string): (m: Marking)
    requires |guess| >= 5 && |secret| >= 5
    ensures WellFormed(m)
  {
    Marking(
      seq(5, i requires 0 <= i < 5 => if guess[i] == secret[i] then Some(Exact(guess[i])) else None),
      seq(5, i requires 0 <= i < 5 => guess[i] == secret[i]),
      seq(5, i requires 0 <= i < 5 => guess[i] == secret[i]))
  }

  /** The inner loop's search: the first unchecked secret position
      holding `x`. */
  function FindUnchecked(m: Marking, secret: string, x: char, from: nat): (j: Option<nat>)
    requires WellFormed(m) && |secret| >= 5 && from <= 5
    ensures j.Some? ==> from <= j.value < 5 && !m.choiceChecked[j.value] && secret[j.value] == x
    ensures j.None? ==> forall k :: from <= k < 5 && !m.choiceChecked[k] ==> secret[k] != x
    decreases 5 - from
  {
    if from == 5 then None
    else if !m.choiceChecked[from] && secret[from] == x then Some(from)
    else FindUnchecked(m, secret, x, from + 1)
  }

  /** One round of the second loop, at guess position i: an unchecked
      guess letter found at an unchecked secret position becomes "(c)"
      and checks both. */
  function MarkElsewhereAt(m: Marking, guess: string, secret: string, i: nat): (m': Marking)
    requires WellFormed(m) && |guess| >= 5 && |secret| >= 5 && i < 5
    ensures WellFormed(m')
  {
    if m.playerChecked[i] then m
    else
      match FindUnchecked(m, secret, guess[i], 0)
      case None => m
      case Some(j) => Marking(m.feedback[i := Some(Present(guess[i]))], m.choiceChecked[j := true], m.playerChecked[i := true])
  }

  /** The second loop over guess positions 0..i-1. */
  function MarkElsewhere(guess: string, secret: string, i: nat): (m: Marking)
    requires |guess| >= 5 && |secret| >= 5 && i <= 5
    ensures WellFormed(m)
  {
    if i == 0 then MarkExact(guess, secret)
    else MarkElsewhereAt(MarkElsewhere(guess, secret, i - 1), guess, secret, i - 1)
  }

  /** The third loop as written: every still-empty position shows the
      SECRET's letter there. */
  function FillAsWritten(m: Marking, secret: string): (tokens: seq<Token>)
    requires WellFormed(m) && |secret| >= 5
    ensures |tokens| == 5
  {
    seq(5, i requires 0 <= i < 5 => if m.feedback[i].Some? then m.feedback[i].value else Plain(secret[i]))
  }

  /** Why `give_feedback` can fail. */
  datatype Failure = IndexError

  /** `give_feedback(player_word, choice_word)` as written, as tokens: the
      first loop indexes both words at 0..4, so a word shorter than five
      letters raises IndexError. */
  function GiveFeedback(guess: string, secret: string): (r: Result<seq<Token>, Failure>)
    ensures r.Ok? <==> |guess| >= 5 && |secret| >= 5
    ensures r.Ok? ==> |r.value| == 5
  {
    if |guess| < 5 || |secret| < 5 then Err(IndexError)
    else Ok(FillAsWritten(MarkElsewhere(guess, secret, 5), secret))
  }

  /** The returned string: the five token texts joined by single spaces. */
  function Render(tokens: seq<Token>): string
  {
    Join(" ", Map(tokens, TokenText))
  }

  /** The number of positions below 5 holding `x`. */
  function Positions(s: string, x: char): set<nat>
    requires |s| >= 5
  {
    set j: nat | j < 5 && s[j] == x
  }

  /** Checked secret positions holding `x`. */
  function CheckedAt(m: Marking, secret: string, x: char): set<nat>
    requires WellFormed(m) && |secret| >= 5
  {
    set j: nat | j < 5 && m.choiceChecked[j] && secret[j] == x
  }

  /** Feedback positions marked "[x]" or "(x)". */
  function MarkedAt(m: Marking, x: char): set<nat>
    requires WellFormed(m)
  {
    set i: nat | i < 5 && m.feedback[i].Some? && !m.feedback[i].value.Plain? && m.feedback[i].value.c == x
  }

  /** The invariant of the first two loops: a position is marked exactly
      when its player flag is set, an exact mark sits on equal letters
      and checks that same secret position, and for every letter the
      marks spent equal the secret positions checked. */
  ghost predicate Consistent(m: Marking, guess: string, secret: string)
    requires |guess| >= 5 && |secret| >= 5
  {
    && WellFormed(m)
    && (forall i :: 0 <= i < 5 ==> (m.feedback[i].Some? <==> m.playerChecked[i]))
    && (forall i :: 0 <= i < 5 ==> (m.feedback[i] == Some(Exact(guess[i])) <==> guess[i] == secret[i]))
    && (forall i :: 0 <= i < 5 && m.feedback[i].Some? ==> !m.feedback[i].value.Plain? && m.feedback[i].value.c == guess[i])
    && (forall i :: 0 <= i < 5 && guess[i] == secret[i] ==> m.choiceChecked[i])
    && (forall x :: |MarkedAt(m, x)| == |CheckedAt(m, secret, x)|)
  }

  /** After the first loop the marking is consistent. */
  lemma MarkExactConsistent(guess: string, secret: string)
    requires |guess| >= 5 && |secret| >= 5
    ensures Consistent(MarkExact(guess, secret), guess, secret)
  {
    var m := MarkExact(guess, secret);
    forall x
      ensures |MarkedAt(m, x)| == |CheckedAt(m, secret, x)|
    {
      assert MarkedAt(m, x) == CheckedAt(m, secret, x);
    }
  }

  /** Marking position i with "(c)" adds i to the marks of c and leaves
      those of other letters alone. */
  lemma SpendMark(m: Marking, i: nat, c: char, x: char)
    requires WellFormed(m) && i < 5 && m.feedback[i].None?
    ensures |MarkedAt(m.(feedback := m.feedback[i := Some(Present(c))]), x)| == |MarkedAt(m, x)| + (if x == c then 1 else 0)
  {
    if x == c {
      MarkAdds(m, i, c);
    } else {
      MarkKeeps(m, i, c, x);
    }
  }

  lemma MarkAdds(m: Marking, i: nat, c: char)
    requires WellFormed(m) && i < 5 && m.feedback[i].None?
    ensures MarkedAt(m.(feedback := m.feedback[i := Some(Present(c))]), c) == MarkedAt(m, c) + {i}
    ensures i !in MarkedAt(m, c)
  {
  }

  lemma MarkKeeps(m: Marking, i: nat, c: char, x: char)
    requires WellFormed(m) && i < 5 && m.feedback[i].None? && x != c
    ensures MarkedAt(m.(feedback := m.feedback[i := Some(Present(c))]), x) == MarkedAt(m, x)
  {
  }

  /** Checking a secret position j that holds c adds j to the checked
      positions of c and leaves those of other letters alone. */
  lemma SpendPosition(m: Marking, secret: string, j: nat, c: char, x: char)
    requires WellFormed(m) && |secret| >= 5 && j < 5
    requires !m.choiceChecked[j] && secret[j] == c
    ensures |CheckedAt(m.(choiceChecked := m.choiceChecked[j := true]), secret, x)| == |CheckedAt(m, secret, x)| + (if x == c then 1 else 0)
  {
    if x == c {
      CheckAdds(m, secret, j, c);
    } else {
      CheckKeeps(m, secret, j, c, x);
    }
  }

  lemma CheckAdds(m: Marking, secret: string, j: nat, c: char)
    requires WellFormed(m) && |secret| >= 5 && j < 5
    requires !m.choiceChecked[j] && secret[j] == c
    ensures CheckedAt(m.(choiceChecked := m.choiceChecked[j := true]), secret, c) == CheckedAt(m, secret, c) + {j}
    ensures j !in CheckedAt(m, secret, c)
  {
  }

  lemma CheckKeeps(m: Marking, secret: string, j: nat, c: char, x: char)
    requires WellFormed(m) && |secret| >= 5 && j < 5
    requires !m.choiceChecked[j] && secret[j] == c && x != c
    ensures CheckedAt(m.(choiceChecked := m.choiceChecked[j := true]), secret, x) == CheckedAt(m, secret, x)
  {
  }

  /** One round of the second loop keeps the marking consistent. */
  lemma MarkElsewhereAtConsistent(m: Marking, guess: string, secret: string, i: nat)
    requires |guess| >= 5 && |secret| >= 5 && i < 5
    requires Consistent(m, guess, secret)
    ensures Consistent(MarkElsewhereAt(m, guess, secret, i), guess, secret)
  {
    if !m.playerChecked[i] {
      var found := FindUnchecked(m, secret, guess[i], 0);
      if found.Some? {
        var j := found.value;
        var m1 := m.(feedback := m.feedback[i := Some(Present(guess[i]))]);
        var m2 := m1.(choiceChecked := m1.choiceChecked[j := true]);
        var m3 := m2.(playerChecked := m2.playerChecked[i := true]);
        assert MarkElsewhereAt(m, guess, secret, i) == m3;
        forall x
          ensures |MarkedAt(m3, x)| == |CheckedAt(m3, secret, x)|
        {
          SpendMark(m, i, guess[i], x);
          SpendPosition(m1, secret, j, guess[i], x);
          assert MarkedAt(m3, x) == MarkedAt(m2, x) == MarkedAt(m1, x);
          assert CheckedAt(m3, secret, x) == CheckedAt(m2, secret, x);
          assert CheckedAt(m1, secret, x) == CheckedAt(m, secret, x);
        }
      }
    }
  }

  /** The first two loops leave a consistent marking. */
  lemma {:induction false} MarkElsewhereConsistent(guess: string, secret: string, i: nat)
    requires |guess| >= 5 && |secret| >= 5 && i <= 5
    ensures Consistent(MarkElsewhere(guess, secret, i), guess, secret)
  {
    if i == 0 {
      MarkExactConsistent(guess, secret);
    } else {
      MarkElsewhereConsistent(guess, secret, i - 1);
      MarkElsewhereAtConsistent(MarkElsewhere(guess, secret, i - 1), guess, secret, i - 1);
    }
  }

  /** The second loop's other half: once guess positions 0..i-1 are
      processed, every one of them left unmarked has no unchecked secret
      position holding its letter. */
  ghost predicate Exhausted(m: Marking, guess: string, secret: string, i: nat)
    requires WellFormed(m) && |guess| >= 5 && |secret| >= 5 && i <= 5
  {
    forall k, j :: 0 <= k < i && 0 <= j < 5 && !m.playerChecked[k] && secret[j] == guess[k] ==> m.choiceChecked[j]
  }

  /** The second loop marks a letter whenever it can: after positions
      0..i-1 an unmarked one found every secret position of its letter
      already checked. */
  lemma {:induction false} MarkElsewhereExhausted(guess: string, secret: string, i: nat)
    requires |guess| >= 5 && |secret| >= 5 && i <= 5
    ensures Exhausted(MarkElsewhere(guess, secret, i), guess, secret, i)
  {
    if i > 0 {
      MarkElsewhereExhausted(guess, secret, i - 1);
      var m := MarkElsewhere(guess, secret, i - 1);
      var m' := MarkElsewhere(guess, secret, i);
      assert m' == MarkElsewhereAt(m, guess, secret, i - 1);
      forall k, j | 0 <= k < i && 0 <= j < 5 && !m'.playerChecked[k] && secret[j] == guess[k]
        ensures m'.choiceChecked[j]
      {
        if k < i - 1 {
          assert m'.playerChecked[k] == m.playerChecked[k];
          assert m.choiceChecked[j];
        } else {
          assert FindUnchecked(m, secret, guess[i - 1], 0).None?;
        }
      }
    }
  }

  /** The positions of feedback tokens marked "[x]" or "(x)". */
  function MarkedTokens(tokens: seq<Token>, x: char): set<nat>
    requires |tokens| >= 5
  {
    set i: nat | i < 5 && !tokens[i].Plain? && tokens[i].c == x
  }

  /** What the as-written feedback says: "[c]" exactly where the letters
      agree; every marked token carries the guess letter of its position;
      every unmarked position shows the secret's letter; no letter is
      marked more often than the secret holds it in its five places; and
      a guess letter is left unmarked only when the marks of that letter
      have used up all of the secret's places for it. */
  lemma GiveFeedbackSpec(guess: string, secret: string)
    requires |guess| >= 5 && |secret| >= 5
    ensures var tokens := GiveFeedback(guess, secret).value;
      && (forall i :: 0 <= i < 5 ==> (tokens[i] == Exact(guess[i]) <==> guess[i] == secret[i]))
      && (forall i :: 0 <= i < 5 && !tokens[i].Plain? ==> tokens[i].c == guess[i])
      && (forall i :: 0 <= i < 5 && tokens[i].Plain? ==> tokens[i].c == secret[i])
      && (forall x :: |MarkedTokens(tokens, x)| <= |Positions(secret, x)|)
      && (forall i :: 0 <= i < 5 && tokens[i].Plain? ==> |MarkedTokens(tokens, guess[i])| == |Positions(secret, guess[i])|)
  {
    var m := MarkElsewhere(guess, secret, 5);
    var tokens := GiveFeedback(guess, secret).value;
    MarkElsewhereConsistent(guess, secret, 5);
    MarkElsewhereExhausted(guess, secret, 5);
    forall i | 0 <= i < 5
      ensures tokens[i] == Exact(guess[i]) <==> guess[i] == secret[i]
    {
      if m.feedback[i].None? {
        assert tokens[i] == Plain(secret[i]);
      }
    }
    forall x
      ensures |MarkedTokens(tokens, x)| <= |Positions(secret, x)|
    {
      assert MarkedTokens(tokens, x) == MarkedAt(m, x);
      assert CheckedAt(m, secret, x) <= Positions(secret, x);
      SubsetCard(CheckedAt(m, secret, x), Positions(secret, x));
    }
    forall i | 0 <= i < 5 && tokens[i].Plain?
      ensures |MarkedTokens(tokens, guess[i])| == |Positions(secret, guess[i])|
    {
      assert m.feedback[i].None? && !m.playerChecked[i];
      assert MarkedTokens(tokens, guess[i]) == MarkedAt(m, guess[i]);
      assert CheckedAt(m, secret, guess[i]) == Positions(secret, guess[i]);
    }
  }

  /** The marks of each letter are as many as the guess and the secret
      have of it in common: the smaller of its two counts over the five
      places. */
  lemma FeedbackMarkCount(guess: string, secret: string, x: char)
    requires |guess| >= 5 && |secret| >= 5
    ensures var tokens := GiveFeedback(guess, secret).value;
      |MarkedTokens(tokens, x)| == Min(|Positions(guess, x)|, |Positions(secret, x)|)
  {
    var tokens := GiveFeedback(guess, secret).value;
    GiveFeedbackSpec(guess, secret);
    assert MarkedTokens(tokens, x) <= Positions(guess, x);
    SubsetCard(MarkedTokens(tokens, x), Positions(guess, x));
    if i :| 0 <= i < 5 && tokens[i].Plain? && guess[i] == x {
      assert |MarkedTokens(tokens, x)| == |Positions(secret, x)|;
    } else {
      assert MarkedTokens(tokens, x) == Positions(guess, x);
    }
  }

  /** The smaller of two counts. */
  function Min(a: nat, b: nat): nat
  {
    if a <= b then a else b
  }

  /** A subset is no larger. */
  lemma SubsetCard(a: set<nat>, b: set<nat>)
    requires a <= b
    ensures |a| <= |b|
  {
    assert b == a + (b - a);
  }

  /** Feedback on the secret itself marks all five letters in place. */
  lemma FeedbackOnSecret(word: string)
    requires |word| >= 5
    ensures GiveFeedback(word, word).value == seq(5, i requires 0 <= i < 5 => Exact(word[i]))
  {
    GiveFeedbackSpec(word, word);
  }

  /** The third loop as the comment beside it intends: an unmarked
      position shows the GUESS letter unchanged. */
  function FillCorrected(m: Marking, guess: string): (tokens: seq<Token>)
    requires WellFormed(m) && |guess| >= 5
    ensures |tokens| == 5
  {
    seq(5, i requires 0 <= i < 5 => if m.feedback[i].Some? then m.feedback[i].value else Plain(guess[i]))
  }

  /** The feedback with the corrected third loop. */
  function GiveFeedbackCorrected(guess: string, secret: string): (r: Result<seq<Token>, Failure>)
    ensures r.Ok? <==> |guess| >= 5 && |secret| >= 5
    ensures r.Ok? ==> |r.value| == 5
  {
    if |guess| < 5 || |secret| < 5 then Err(IndexError)
    else Ok(FillCorrected(MarkElsewhere(guess, secret, 5), guess))
  }

  /** With the corrected third loop every token carries the guess letter
      of its position, so the feedback is the guess with marks: a letter
      of the secret appears only where the guess put it; the marks are
      those of the as-written feedback, so each letter is marked as often
      as guess and secret have it in common, and a letter is left
      unmarked only when the secret's places for it are used up. */
  lemma GiveFeedbackCorrectedSpec(guess: string, secret: string)
    requires |guess| >= 5 && |secret| >= 5
    ensures var tokens := GiveFeedbackCorrected(guess, secret).value;
      && (forall i :: 0 <= i < 5 ==> tokens[i].c == guess[i])
      && (forall i :: 0 <= i < 5 ==> (tokens[i] == Exact(guess[i]) <==> guess[i] == secret[i]))
      && (forall i :: 0 <= i < 5 ==> (tokens[i].Plain? <==> GiveFeedback(guess, secret).value[i].Plain?))
      && (forall i :: 0 <= i < 5 && !tokens[i].Plain? ==> tokens[i] == GiveFeedback(guess, secret).value[i])
      && (forall x :: |MarkedTokens(tokens, x)| == Min(|Positions(guess, x)|, |Positions(secret, x)|))
      && (forall i :: 0 <= i < 5 && tokens[i].Plain? ==> |MarkedTokens(tokens, guess[i])| == |Positions(secret, guess[i])|)
  {
    var m := MarkElsewhere(guess, secret, 5);
    var tokens := GiveFeedbackCorrected(guess, secret).value;
    var written := GiveFeedback(guess, secret).value;
    MarkElsewhereConsistent(guess, secret, 5);
    GiveFeedbackSpec(guess, secret);
    forall x
      ensures |MarkedTokens(tokens, x)| == Min(|Positions(guess, x)|, |Positions(secret, x)|)
    {
      assert MarkedTokens(tokens, x) == MarkedTokens(written, x);
      FeedbackMarkCount(guess, secret, x);
    }
    forall i | 0 <= i < 5 && tokens[i].Plain?
      ensures |MarkedTokens(tokens, guess[i])| == |Positions(secret, guess[i])|
    {
      assert MarkedTokens(tokens, guess[i]) == MarkedTokens(written, guess[i]);
    }
  }

  /** The as-written third loop shows secret letters the guess does not
      have: on the secret "крона" the guess "ветер" gets "к р о н (р)". */
  lemma FeedbackRevealsSecret()
    ensures GiveFeedback("ветер", "крона").value == [Plain('к'), Plain('р'), Plain('о'), Plain('н'), Present('р')]
    ensures Render(GiveFeedback("ветер", "крона").value) == "к р о н (р)"
  {
    RevealingTokens();
    RevealingRender();
  }

  lemma RevealingTokens()
    ensures GiveFeedback("ветер", "крона").value == [Plain('к'), Plain('р'), Plain('о'), Plain('н'), Present('р')]
  {
    var guess := "ветер";
    var secret := "крона";
    var m0 := MarkExact(guess, secret);
    assert m0.feedback == [None, None, None, None, None];
    assert m0.choiceChecked == [false, false, false, false, false];
    var m4 := MarkElsewhere(guess, secret, 4);
    assert m4 == m0;
    assert FindUnchecked(m4, secret, 'р', 1) == Some(1);
    var m5 := MarkElsewhere(guess, secret, 5);
    assert m5.feedback == [None, None, None, None, Some(Present('р'))];
  }

  lemma RevealingRender()
    ensures Render([Plain('к'), Plain('р'), Plain('о'), Plain('н'), Present('р')]) == "к р о н (р)"
  {
    var texts := Map([Plain('к'), Plain('р'), Plain('о'), Plain('н'), Present('р')], TokenText);
    assert texts == ["к", "р", "о", "н", "(р)"];
    assert Join(" ", texts[..2]) == "к р" by { assert texts[..2][..1] == ["к"]; }
    assert Join(" ", texts[..3]) == "к р о" by { assert texts[..3][..2] == texts[..2]; }
    assert Join(" ", texts[..4]) == "к р о н" by { assert texts[..4][..3] == texts[..3]; }
    assert texts[..5][..4] == texts[..4];
    assert texts == texts[..5];
  }

  /** How a game ends: guessed at an attempt, six attempts used up, or
      `give_feedback` raising on an accepted guess. */
  datatype Outcome = Won(attempt: nat) | Lost | Crashed(attempt: nat)

  /** Whether `give_feedback` is called on a guess: five letters and in
      the word list. */
  function Accepted(words: seq<string>): string -> bool
  {
    (guess: string) => |guess| == 5 && guess in words
  }

  /** The attempt loop from `attempt` on, over the word list `words`;
      `inputs` holds the six typed lines and `lower` is the character
      mapping of `str.lower`. A line of the wrong length or not in the list
      still uses up its attempt. */
  function Play(words: seq<string>, secret: string, inputs: seq<string>, lower: CharMap, attempt: nat): (r: Outcome)
    requires |inputs| >= 6 && 1 <= attempt <= 7
    ensures r.Won? ==> attempt <= r.attempt <= 6 && Map(inputs[r.attempt - 1], lower) == secret && |secret| == 5
    ensures r.Crashed? ==> |secret| < 5
    decreases 7 - attempt
  {
    if attempt == 7 then Lost
    else
      var guess := Map(inputs[attempt - 1], lower);
      if !Accepted(words)(guess) then Play(words, secret, inputs, lower, attempt + 1)
      else if GiveFeedback(guess, secret).Err? then Crashed(attempt)
      else if guess == secret then Won(attempt)
      else Play(words, secret, inputs, lower, attempt + 1)
  }

  /** The lowered lines from attempt `attempt` to the sixth. */
  function Guesses(inputs: seq<string>, lower: CharMap, attempt: nat): (gs: seq<string>)
    requires |inputs| >= 6 && 1 <= attempt <= 7
    ensures |gs| == 7 - attempt
  {
    Map(inputs[attempt - 1..6], (line: string) => Map(line, lower))
  }

  /** Equality with a given word, as a named test. */
  function Is(word: string): string -> bool
  {
    (g: string) => g == word
  }

  /** With a five-letter secret from the list the game never fails: it is
      won at the first attempt whose lowered line is the secret, and lost
      when no line of the six is. */
  lemma {:induction false} PlayFiveLetterSecret(words: seq<string>, secret: string, inputs: seq<string>, lower: CharMap, attempt: nat)
    requires |inputs| >= 6 && 1 <= attempt <= 7
    requires |secret| == 5 && secret in words
    ensures Play(words, secret, inputs, lower, attempt) ==
      match FirstIndex(Guesses(inputs, lower, attempt), Is(secret))
      case None => Lost
      case Some(i) => Won(attempt + i)
    decreases 7 - attempt
  {
    if attempt < 7 {
      var gs := Guesses(inputs, lower, attempt);
      PlayFiveLetterSecret(words, secret, inputs, lower, attempt + 1);
      PlayFiveLetterStep(words, secret, inputs, lower, attempt);
      assert gs[1..] == Guesses(inputs, lower, attempt + 1);
      FirstIndexCons(gs, Is(secret));
    }
  }

  /** One attempt with a five-letter secret from the list: won if the
      lowered line is the secret, otherwise on to the next attempt. */
  lemma PlayFiveLetterStep(words: seq<string>, secret: string, inputs: seq<string>, lower: CharMap, attempt: nat)
    requires |inputs| >= 6 && 1 <= attempt < 7
    requires |secret| == 5 && secret in words
    ensures Guesses(inputs, lower, attempt)[0] == Map(inputs[attempt - 1], lower)
    ensures Play(words, secret, inputs, lower, attempt) ==
      if Map(inputs[attempt - 1], lower) == secret then Won(attempt)
      else Play(words, secret, inputs, lower, attempt + 1)
  {
    var guess := Map(inputs[attempt - 1], lower);
    if Accepted(words)(guess) {
      assert GiveFeedback(guess, secret).Ok?;
    }
  }

  /** With a secret shorter than five letters the first accepted guess
      raises, and no game is ever won. */
  lemma {:induction false} PlayShortSecret(words: seq<string>, secret: string, inputs: seq<string>, lower: CharMap, attempt: nat)
    requires |inputs| >= 6 && 1 <= attempt <= 7
    requires |secret| < 5
    ensures Play(words, secret, inputs, lower, attempt) ==
      match FirstIndex(Guesses(inputs, lower, attempt), Accepted(words))
      case None => Lost
      case Some(i) => Crashed(attempt + i)
    decreases 7 - attempt
  {
    if attempt < 7 {
      var gs := Guesses(inputs, lower, attempt);
      PlayShortSecret(words, secret, inputs, lower, attempt + 1);
      PlayShortStep(words, secret, inputs, lower, attempt);
      assert gs[1..] == Guesses(inputs, lower, attempt + 1);
      FirstIndexCons(gs, Accepted(words));
    }
  }

  /** One attempt with a short secret: an accepted line raises, any other
      moves on to the next attempt. */
  lemma PlayShortStep(words: seq<string>, secret: string, inputs: seq<string>, lower: CharMap, attempt: nat)
    requires |inputs| >= 6 && 1 <= attempt < 7
    requires |secret| < 5
    ensures Guesses(inputs, lower, attempt)[0] == Map(inputs[attempt - 1], lower)
    ensures Play(words, secret, inputs, lower, attempt) ==
      if Accepted(words)(Map(inputs[attempt - 1], lower)) then Crashed(attempt)
      else Play(words, secret, inputs, lower, attempt + 1)
  {
  }

  /** A game as written: the secret is `random.choice(words)`, given as
      the index `pick`. */
  function PlayAsWritten(pick: nat, inputs: seq<string>, lower: CharMap): (r: Outcome)
    requires pick < |Words| && |inputs| >= 6
    ensures |Words[pick]| < 5 ==> !r.Won?
  {
    Play(Words, Words[pick], inputs, lower, 1)
  }

  /** The list holds four-letter words, and with "стол" drawn the first
      accepted guess crashes the game. */
  lemma ShortSecretCrashes(inputs: seq<string>, lower: CharMap)
    requires |inputs| >= 6 && Map(inputs[0], lower) == "крона"
    ensures Words[0] == "стол"
    ensures PlayAsWritten(0, inputs, lower) == Crashed(1)
  {
    assert Accepted(Words)("крона") by { assert Words[1] == "крона"; }
  }

  /** The secret pool the game announces ("a word of 5 letters"): the
      five-letter words of the list, in list order. */
  const SecretPool: seq<string> := ["крона", "ветер", "рамка", "парта", "метро", "волна", "лидер", "гость", "книга", "дверь"]

  /** The test the pool is filtered by: a five-letter word. */
  predicate FiveLetters(w: string)
  {
    |w| == 5
  }

  /** The pool is exactly the five-letter words of the list, and each of
      its words has five letters and is in the list. */
  lemma SecretPoolSpec()
    ensures SecretPool == Filter(Words, FiveLetters)
    ensures forall i :: 0 <= i < |SecretPool| ==> |SecretPool[i]| == 5 && SecretPool[i] in Words
  {
    SecretPoolIsFilter();
    forall i | 0 <= i < |SecretPool|
      ensures |SecretPool[i]| == 5 && SecretPool[i] in Words
    {
      FilterSpec(Words, FiveLetters);
      assert SecretPool[i] in Filter(Words, FiveLetters);
    }
  }

  lemma SecretPoolIsFilter()
    ensures SecretPool == Filter(Words, FiveLetters)
  {
    var w1 := ["стол", "крона", "ветер", "рамка", "парта"];
    var w2 := ["метро", "волна", "лидер", "гость", "снег"];
    var w3 := ["река", "нота", "книга", "цвет", "дверь"];
    assert Words == w1 + w2 + w3;
    FilterAppend(w1 + w2, w3, FiveLetters);
    FilterAppend(w1, w2, FiveLetters);
    FirstFiveWords();
    SecondFiveWords();
    LastFiveWords();
  }

  lemma FirstFiveWords()
    ensures Filter(["стол", "крона", "ветер", "рамка", "парта"], FiveLetters) == ["крона", "ветер", "рамка", "парта"]
  {
    FilterFive(["стол", "крона", "ветер", "рамка", "парта"]);
  }

  lemma SecondFiveWords()
    ensures Filter(["метро", "волна", "лидер", "гость", "снег"], FiveLetters) == ["метро", "волна", "лидер", "гость"]
  {
    FilterFive(["метро", "волна", "лидер", "гость", "снег"]);
  }

  lemma LastFiveWords()
    ensures Filter(["река", "нота", "книга", "цвет", "дверь"], FiveLetters) == ["книга", "дверь"]
  {
    FilterFive(["река", "нота", "книга", "цвет", "дверь"]);
  }

  /** The five-letter words of a word itself: the word or nothing. */
  function KeepFive(w: string): (r: seq<string>)
    ensures r == [] || r == [w]
  {
    if FiveLetters(w) then [w] else []
  }

  /** Filtering five words keeps each one by its own length. */
  lemma FilterFive(ws: seq<string>)
    requires |ws| == 5
    ensures Filter(ws, FiveLetters) == KeepFive(ws[0]) + KeepFive(ws[1]) + KeepFive(ws[2]) + KeepFive(ws[3]) + KeepFive(ws[4])
  {
    assert ws[..4][..3] == ws[..3];
    assert ws[..3][..2] == ws[..2];
    assert ws[..2][..1] == ws[..1];
    assert ws[..1][..0] == [];
    assert Filter(ws[..1], FiveLetters) == KeepFive(ws[0]);
    assert Filter(ws[..2], FiveLetters) == Filter(ws[..1], FiveLetters) + KeepFive(ws[1]);
    assert Filter(ws[..3], FiveLetters) == Filter(ws[..2], FiveLetters) + KeepFive(ws[2]);
    assert Filter(ws[..4], FiveLetters) == Filter(ws[..3], FiveLetters) + KeepFive(ws[3]);
    assert Filter(ws, FiveLetters) == Filter(ws[..4], FiveLetters) + KeepFive(ws[4]);
  }

  /** A game with the secret drawn from the five-letter words; it never
      crashes. */
  function PlayCorrected(pick: nat, inputs: seq<string>, lower: CharMap): (r: Outcome)
    requires pick < |SecretPool| && |inputs| >= 6
    ensures !r.Crashed?
  {
    SecretPoolSpec();
    Play(Words, SecretPool[pick], inputs, lower, 1)
  }

  /** The corrected game is won exactly at the first attempt whose
      lowered line is the secret, and lost when none of the six is. */
  lemma PlayCorrectedSpec(pick: nat, inputs: seq<string>, lower: CharMap)
    requires pick < |SecretPool| && |inputs| >= 6
    ensures PlayCorrected(pick, inputs, lower) ==
      match FirstIndex(Guesses(inputs, lower, 1), Is(SecretPool[pick]))
      case None => Lost
      case Some(i) => Won(1 + i)
  {
    SecretPoolSpec();
    PlayFiveLetterSecret(Words, SecretPool[pick], inputs, lower, 1);
  }
}

=== FILE: wrappers.dfy ===
/** Failure-carrying values shared by every module of the model: Python's
    `None` returns and raised exceptions become `Option` and `Result`. */
module Wrappers {

  /** A value that may be absent (Python's `None`). */
  datatype Option<+T> = None | Some(value: T)

  /** A value, or the error the Python code would raise instead. */
  datatype Result<+T, +E> = Ok(value: T) | Err(error: E)
}
